=== FILE: README.md ===
# ShareIt rental backend — a Dafny model of its core

ShareIt lets users lend items to each other. An owner lists items, other users book them
for a time window, the owner approves or rejects each booking, and renters comment on
items they have rented. A user who cannot find an item posts an item request, and owners
answer it by creating items linked to that request. The repository holds two generations
of the backend:

- the earlier one (`src/`): in-memory user and item stores, booking strategies that take
  raw `from`/`size`, and an unpaged item list;
- the current one (`server/`): JPA everywhere, `Pageable` paging, and items linked to
  requests.

This project models the service layer of both generations over one relational store
(`Store.Db`: users and items keyed by id, and bookings, comments and requests as tables
in id order). It also models:

- the JPA booking specifications (`BookingSpecification`), read as a small predicate
  language. A specification both filters and may set the ORDER BY. Under `a.and(b)` the
  last `orderBy` wins, and a `Pageable`'s sort overrides the specification's order;
- the per-category listing strategies (`StateStrategies`) and the registry that maps a
  category to its strategy (`StateFactory`);
- `from / size` paging with Java's truncating division, `PageRequest.of`'s argument checks
  and the OFFSET/LIMIT window of a native query (`Paging`);
- the gateway's date validator (`DateTimeValidator`);
- the earlier generation's in-memory item and user stores (`ItemRepository`,
  `UserRepository`) and the case-insensitive text search they use (`Text`).

Every operation returns either its value or the exception the Java code throws, as an
`Error` constructor. Operations that write return a `Step`: the store afterwards and the
outcome. Every failing `Step` leaves the store unchanged. The wall clock is a parameter
`now`.

Two behaviours of the code are modelled as written because they may be deliberate:

- The owner's item list (`getAllItems`) shows as "last booking" the first approved booking
  of the item that has started, in store order (`ItemService.ListEntryLastIsFirstInStore`). The single-item read (`getItem`) shows
  the one with the latest start. `ItemService.ListAndReadAgree` proves what the two still
  agree on.
- A REJECTED booking can be decided again. Only APPROVED blocks a second decision
  (`BookingService.RejectionCanBeReversed`, `BookingService.ApprovalIsFinal`). The
  status check in `updateBookingStatus` names APPROVED alone, and the model keeps it so.

## Model

| member | source | states |
|---|---|---|
| `Domain.ParseState` | server/src/main/java/ru/practicum/shareit/booking/service/BookingServiceImpl.java:111-114 | `State.valueOf` is a case-sensitive exact match: a result's name is the token, and no result means no constant has that name (the "Unknown state" branch) |
| `Paging.JavaDiv` | server/src/main/java/ru/practicum/shareit/booking/service/BookingServiceImpl.java:107 | for a positive divisor, Java `int` division truncates toward zero: it agrees with Euclidean division for a non-negative dividend and is the negated quotient of the magnitudes for a negative dividend |
| `Paging.PageRequestOf` | server/src/main/java/ru/practicum/shareit/booking/service/BookingServiceImpl.java:108 | `PageRequest.of` succeeds exactly when page >= 0 and size >= 1, keeping page, size and sort; otherwise it is an IllegalArgumentException |
| `Paging.ToPageable` | server/src/main/java/ru/practicum/shareit/booking/service/BookingServiceImpl.java:107-108 | for from >= 0: size 0 is the ArithmeticException, a negative size is refused by PageRequest.of, a positive size gives the page whose first row is `from` rounded down to a multiple of size, with the given sort |
| `Paging.Page` | server/src/main/java/ru/practicum/shareit/booking/util/StateAll.java:22-23 | the content of page p has min(size, n - offset) rows, none past the end, and its row k is row offset + k of the input, where offset = page * size |
| `Paging.Window` | src/main/java/ru/practicum/shareit/booking/util/StateAll.java:22 | LIMIT/OFFSET over the rows: refused for a negative offset or limit, else min(limit, n - offset) rows (none past the end) starting at `offset` |
| `Paging.FullWindow` | src/main/java/ru/practicum/shareit/booking/util/StateAll.java:22 | a window from 0 whose limit is at least the row count returns every row, as the Integer.MAX_VALUE default does |
| `Paging.PageIsRoundedWindow` | server/src/main/java/ru/practicum/shareit/item/service/ItemServiceImpl.java:108-110 | the page a service computes from (from, size) equals the window at `from` rounded down to a multiple of size |
| `Paging.AlignedPageIsWindow` | src/main/java/ru/practicum/shareit/user/service/UserServiceImpl.java:67-69 | when `from` is a multiple of size, the page and the window starting at `from` coincide |
| `Paging.ElementIsOnItsPage` | server/src/main/java/ru/practicum/shareit/booking/service/BookingServiceImpl.java:107-108 | row i of a list is row i mod size of the page `i / size`: asking from = i reaches it |
| `Paging.PageFromOffset` | server/src/main/java/ru/practicum/shareit/booking/service/BookingServiceImpl.java:107-108 | for from >= 0 and size > 0 the page asked for exists and holds min(size, n - lo) rows, row k being row lo + k of the input, with lo = `from` rounded down to a multiple of size |
| `Paging.PageOfSorted` | server/src/main/java/ru/practicum/shareit/booking/util/StateAll.java:22-23 | a page cut from a sorted list is sorted by the same key |
| `BookingSpecification.Filter` | src/main/java/ru/practicum/shareit/booking/repository/BookingSpecification.java:15-61 | a query's WHERE keeps exactly the stored bookings the specification's predicate holds for |
| `BookingSpecification.FilterKeepsOrder` | src/main/java/ru/practicum/shareit/booking/repository/BookingSpecification.java:15-61 | the WHERE clause keeps the matching bookings in store order: each at a store position after the previous one |
| `BookingSpecification.FindAll` | src/main/java/ru/practicum/shareit/booking/repository/BookingSpecification.java:15-41 | `findAll(spec)` returns exactly the matching bookings, sorted by the order the specification's last `orderBy` set; with no `orderBy`, exactly the matches in store order |
| `BookingSpecification.FindAllPaged` | server/src/main/java/ru/practicum/shareit/item/service/ItemServiceImpl.java:180-203 | `findAll(spec, pageable)` returns page p of the matches in the query's order: min(size, matches - offset) rows, sorted by the Pageable's id sort or else the specification's order; page 0 is empty only when nothing matches, and its first row has the least sort key among all matches |
| `BookingSpecification.Ranked` | server/src/main/java/ru/practicum/shareit/booking/util/StateAll.java:22-23 | the matches in the order the paged query sorts them: a permutation of the matches, sorted when the query has an order |
| `BookingSpecification.PagedRow` | server/src/main/java/ru/practicum/shareit/booking/util/StateAll.java:22-23 | row k of page p is the match at position offset + k of the query's order |
| `BookingSpecification.LaterPageSortsAfter` | server/src/main/java/ru/practicum/shareit/booking/util/StateAll.java:22-23 | with the same size and sort, every row of an earlier page sorts no later than every row of a later page |
| `BookingSpecification.EveryMatchIsPaged` | server/src/main/java/ru/practicum/shareit/booking/util/StateAll.java:22-23 | every matching booking is on some page of the paged query |
| `BookingSpecification.BuilderMeaning` | src/main/java/ru/practicum/shareit/booking/repository/BookingSpecification.java:15-41 | each subject builder filters on its own column and orders by start descending; `orderByAsc` filters nothing and orders by start ascending |
| `BookingSpecification.Holds` | src/main/java/ru/practicum/shareit/booking/repository/BookingSpecification.java:15-61 | the WHERE clause of each builder: booker equal, item among the ids, item equal, no condition for `orderByAsc`, strict comparisons of start or end with now, status equal; `and` is conjunction. A definition: `BuilderMeaning`, `Filter` and `StrategySpecMeaning` state what follows from it |
| `BookingSpecification.OrderOf` | src/main/java/ru/practicum/shareit/booking/repository/BookingSpecification.java:15-41 | the ORDER BY a specification sets: start descending for the three subject builders, start ascending for `orderByAsc`, none for the others; under `and` the right operand's order wins when it sets one. A definition: `AndOrdering` states what follows from it |
| `BookingSpecification.PagedOrder` | server/src/main/java/ru/practicum/shareit/booking/service/BookingServiceImpl.java:107-108 | a Pageable sorted by id overrides the specification's ORDER BY; an unsorted one leaves it. A definition: `FindAllPaged` states the order of its rows |
| `BookingSpecification.AndOrdering` | src/main/java/ru/practicum/shareit/booking/repository/BookingSpecification.java:36-61 | a pure filter added with `and` keeps the left operand's order; `orderByAsc` added on the right switches to ascending start and filters nothing |
| `BookingSpecification.StartAtNowIsNeither` | src/main/java/ru/practicum/shareit/booking/repository/BookingSpecification.java:43-53 | the time comparisons are strict, so a booking starting exactly now is neither "started before" nor "starting after" now |
| `BookingSpecification.FutureAndPastAreDisjoint` | src/main/java/ru/practicum/shareit/booking/repository/BookingSpecification.java:43-49 | a booking with start before end cannot both start after now and have ended before now |
| `StateStrategies.StrategySpecMeaning` | src/main/java/ru/practicum/shareit/booking/util/StateFuture.java:20-26 | each strategy's composed specification holds exactly for its subject's bookings (by booker or by item set) in its category |
| `StateStrategies.StrategyOrder` | src/main/java/ru/practicum/shareit/booking/util/StateRejected.java:20-26 | no category predicate sets an order, so every strategy lists by start descending |
| `StateStrategies.TimeCategoriesDisjoint` | server/src/main/java/ru/practicum/shareit/booking/util/StatePast.java:20-26 | PAST and FUTURE share no booking, and a CURRENT booking is in neither |
| `StateStrategies.Run` | server/src/main/java/ru/practicum/shareit/booking/util/StatePast.java:20-26 | ALL runs the paged query: page p of the subject's bookings, min(size, bookings - offset) of them, sorted by id as the Pageable's sort says (start descending without one); every other strategy ignores the Pageable and returns exactly the subject's bookings in its category, by start descending |
| `StateStrategies.FindBookings` | server/src/main/java/ru/practicum/shareit/booking/util/StateAll.java:22-23 | the booker's listing returns only that booker's bookings of the category; for ALL the page's exact length and its id order, for the others all of them by start descending |
| `StateStrategies.FindBookingsByItemIds` | server/src/main/java/ru/practicum/shareit/booking/util/StateAll.java:27-28 | the item-set listing returns only bookings of those items in the category; for ALL the page's exact length and its id order, for the others all of them by start descending |
| `StateStrategies.AllPagesCoverSubject` | server/src/main/java/ru/practicum/shareit/booking/util/StateAll.java:22-28 | every booking of the subject is on some page of the ALL listing |
| `StateStrategies.GetStateInjective` | server/src/main/java/ru/practicum/shareit/booking/util/StateAll.java:31-34 | two strategies report the same state exactly when they are the same strategy |
| `StateStrategies.GetState` | server/src/main/java/ru/practicum/shareit/booking/util/StateAll.java:31-34 | each strategy's `getState()` constant. A definition: `GetStateInjective` and `StateFactory.CreateStrategy` state what follows from it |
| `StateStrategies.StrategySpec` | server/src/main/java/ru/practicum/shareit/booking/util/StatePast.java:20-26 | the specification a strategy hands the repository: the subject's builder, `and` the category's condition. A definition: `StrategySpecMeaning` and `StrategyOrder` state what follows from it |
| `StateStrategies.PageableIgnored` | src/main/java/ru/practicum/shareit/booking/util/StateWaiting.java:19-26 | a non-ALL strategy returns the same list whatever page is asked for |
| `StateStrategies.LegacyRun` | src/main/java/ru/practicum/shareit/booking/util/StateAll.java:18-31 | earlier ALL: size 0 is the StateException "размер не может быть 0"; a negative from or size is refused by the query; otherwise the result is the window of the subject's bookings (in store order) starting at from, or 0 when null, with min(size, matches - from) rows, size being Integer.MAX_VALUE when null. Other strategies ignore from/size and list the whole category by start descending |
| `StateStrategies.LegacyDefaults` | src/main/java/ru/practicum/shareit/booking/util/StateAll.java:22 | a null `from` acts exactly as 0 and a null `size` exactly as Integer.MAX_VALUE, each independently of the other |
| `StateStrategies.LegacyAllDefaultsReturnEverything` | src/main/java/ru/practicum/shareit/booking/util/StateAll.java:22 | with neither `from` nor `size`, the earlier ALL strategy returns every booking of the subject |
| `StateFactory.CreateStrategy` | server/src/main/java/ru/practicum/shareit/booking/util/StateFactory.java:24-27 | the registry files every component under its own `getState()`, and each registered strategy serves the state it is filed under |
| `StateFactory.FindStrategy` | server/src/main/java/ru/practicum/shareit/booking/util/StateFactory.java:20-22 | the lookup finds a strategy exactly when the state is registered (null otherwise) |
| `StateFactory.FindStrategyServesState` | server/src/main/java/ru/practicum/shareit/booking/util/StateFactory.java:16-27 | for any component set, lookup gives a component serving that state, and gives none exactly when no component serves it |
| `StateFactory.AppRegistryIsTotal` | server/src/main/java/ru/practicum/shareit/booking/util/StateFactory.java:15-18 | with all six components registered, every state finds its strategy |
| `StateFactory.AppRegistry` | server/src/main/java/ru/practicum/shareit/booking/util/StateFactory.java:15-18 | the registry built from the set of strategy components the application injects. A definition: `AppRegistryIsTotal` states what follows from it |
| `StateFactory.AppRegistryAll` | server/src/main/java/ru/practicum/shareit/booking/util/StateFactory.java:15-18 | the application's registry maps ALL to the ALL strategy |
| `DateTimeValidator.IsValid` | gateway/src/main/java/ru/practicum/shareit/booking/dto/DateTimeValidator.java:13-19 | booking dates are valid exactly when both are present and start is strictly before end |
| `DateTimeValidator.RejectionRules` | gateway/src/main/java/ru/practicum/shareit/booking/dto/DateTimeValidator.java:16-18 | a missing date, a start after the end and a start equal to the end are each rejected |
| `BookingService.AddBooking` | server/src/main/java/ru/practicum/shareit/booking/service/BookingServiceImpl.java:43-60 | the four checks in order (booker exists, item exists, item available, booker is not owner) with their exceptions; success iff all pass, and then a WAITING booking with the next id is appended and nothing else changes |
| `BookingService.GetBooking` | server/src/main/java/ru/practicum/shareit/booking/service/BookingServiceImpl.java:63-72 | an unknown booking is "booking not found"; a viewer who is neither booker nor item owner gets "user not found"; success iff the booking exists and the viewer may see it |
| `BookingService.MayView` | server/src/main/java/ru/practicum/shareit/booking/service/BookingServiceImpl.java:67-70 | a booking may be read by its booker and by the owner of its item. A definition: `GetBooking` and `CreatedBookingIsVisible` state what follows from it |
| `BookingService.ItemOwner` | server/src/main/java/ru/practicum/shareit/booking/service/BookingServiceImpl.java:67 | `booking.getItem().getUser().getId()`: the owner of a stored item, none for a missing one. A definition: `MayView` and the `UpdateBookingStatus` contract state its use |
| `BookingService.SetStatus` | src/main/java/ru/practicum/shareit/booking/service/BookingServiceImpl.java:86-89 | the status update rewrites exactly the row with that id and leaves every other row as it was |
| `BookingService.UpdateBookingStatus` | server/src/main/java/ru/practicum/shareit/booking/service/BookingServiceImpl.java:76-96 | read errors propagate; a viewer who is not the item's owner gets "user not found" for their own id, and a missing item is "item not found" for the booker and "user not found" for anyone else; for the owner, success iff the booking is not APPROVED (else the "already APPROVED" StateException); success writes APPROVED or REJECTED to that row only; failure changes nothing |
| `BookingService.OwnedItemIds` | server/src/main/java/ru/practicum/shareit/booking/service/BookingServiceImpl.java:130-132 | the ids collected are exactly those of the items the user owns |
| `BookingService.ResolveStrategy` | server/src/main/java/ru/practicum/shareit/booking/service/BookingServiceImpl.java:110-115 | an unparsable token is the StateException "Unknown state: X"; a known state with no registered strategy is the null-pointer fault; otherwise the registered strategy |
| `BookingService.ListingPage` | server/src/main/java/ru/practicum/shareit/booking/service/BookingServiceImpl.java:103-108 | negative `from` fails first, then an unknown user, then size 0 (division) — success iff from >= 0, the user exists and size > 0, with the page whose first row is `from` rounded down to a multiple of size, sorted by descending id; a negative size (after a valid from and user) is `PageRequest.of`'s IllegalArgumentException |
| `BookingService.GetAllUserBookings` | server/src/main/java/ru/practicum/shareit/booking/service/BookingServiceImpl.java:98-117 | the failures in source order; on success only the user's own bookings in the requested category; for ALL, min(size, bookings - lo) of them with lo = `from` rounded down to a multiple of size, by descending id; for the others by start descending; a negative size (after a valid from and user) is `PageRequest.of`'s IllegalArgumentException |
| `BookingService.GetAllOwnerBookings` | server/src/main/java/ru/practicum/shareit/booking/service/BookingServiceImpl.java:119-141 | the failures in source order; on success only bookings of items the user owns, in the requested category; for ALL, min(size, bookings - lo) of them with lo = `from` rounded down to a multiple of size, by descending id; for the others by start descending; a negative size (after a valid from and user) is `PageRequest.of`'s IllegalArgumentException |
| `BookingService.ListingPageOfMultiple` | server/src/main/java/ru/practicum/shareit/booking/service/BookingServiceImpl.java:103-108 | asking from = k * size yields exactly page k, sorted by descending id |
| `BookingService.UserAllListingCoversBookings` | server/src/main/java/ru/practicum/shareit/booking/service/BookingServiceImpl.java:98-117 | every booking of the user is on the ALL listing for some `from` |
| `BookingService.UserAllListingAt` | server/src/main/java/ru/practicum/shareit/booking/service/BookingServiceImpl.java:98-117 | the booker's ALL listing at from = k * size is the ALL strategy's page k over the booker's bookings, by descending id |
| `BookingService.OwnerAllListingAt` | server/src/main/java/ru/practicum/shareit/booking/service/BookingServiceImpl.java:119-141 | the owner's ALL listing at from = k * size is the ALL strategy's page k over the owner's items, by descending id |
| `BookingService.OwnerAllListingCoversBookings` | server/src/main/java/ru/practicum/shareit/booking/service/BookingServiceImpl.java:119-141 | every booking of an item the user owns is on the owner's ALL listing for some `from` |
| `BookingService.LegacyGetAllUserBookings` | src/main/java/ru/practicum/shareit/booking/service/BookingServiceImpl.java:95-111 | the user must exist, the token must parse, an unregistered category is the null strategy's failure, and then the strategy's own result for (from, size) is returned unchanged |
| `BookingService.LegacyGetAllOwnerBookings` | src/main/java/ru/practicum/shareit/booking/service/BookingServiceImpl.java:113-132 | the user must exist, the token must parse, an unregistered category is the null strategy's failure; then the result lists only bookings of the user's items in the category, and (with at most Integer.MAX_VALUE owned items) it is exactly the strategy's result for the ids of all the user's items and (from, size) |
| `BookingService.OwnedIdsWindow` | src/main/java/ru/practicum/shareit/booking/service/BookingServiceImpl.java:121-123 | `findAllByUserId(userId, 0, Integer.MAX_VALUE)` yields only ids of the user's items, and all of them when there are at most Integer.MAX_VALUE |
| `BookingService.LegacyOwnerListingIsAllStrategy` | src/main/java/ru/practicum/shareit/booking/service/BookingServiceImpl.java:121-127 | the owner listing for "ALL" with no from/size is the earlier ALL strategy run over all the owner's item ids |
| `BookingService.LegacyOwnerListingDefaultsListAll` | src/main/java/ru/practicum/shareit/booking/service/BookingServiceImpl.java:113-132 | with no from/size, the owner's "ALL" listing succeeds and holds exactly the bookings of the items the user owns |
| `BookingService.FindAfterSetStatus` | src/main/java/ru/practicum/shareit/booking/service/BookingServiceImpl.java:86-87 | after the status update, a lookup by any id finds the same booking, with the new status exactly when it is the updated id |
| `BookingService.AddPreservesWellFormed` | server/src/main/java/ru/practicum/shareit/booking/service/BookingServiceImpl.java:54-58 | creating a booking keeps ids below the counter and keeps every booker distinct from the item's owner |
| `BookingService.CreatedBookingIsVisible` | server/src/main/java/ru/practicum/shareit/booking/service/BookingServiceImpl.java:58-68 | a booking just created can be read back by its booker and by the item's owner |
| `BookingService.DecidePreservesWellFormed` | server/src/main/java/ru/practicum/shareit/booking/service/BookingServiceImpl.java:88-94 | deciding keeps the store well formed |
| `BookingService.BookerCannotDecide` | server/src/main/java/ru/practicum/shareit/booking/service/BookingServiceImpl.java:80-84 | in a well-formed store the booker's own decision is refused with "user not found" for the booker ("item not found" once the item is gone) and changes nothing |
| `BookingService.ApprovalIsFinal` | server/src/main/java/ru/practicum/shareit/booking/service/BookingServiceImpl.java:85-87 | once approved, any further decision is the "already APPROVED" StateException and leaves the store unchanged |
| `BookingService.RejectionCanBeReversed` | server/src/main/java/ru/practicum/shareit/booking/service/BookingServiceImpl.java:85-90 | a rejected booking can still be approved by the owner |
| `BookingService.UserListingWithAppRegistry` | server/src/main/java/ru/practicum/shareit/booking/service/BookingServiceImpl.java:99-116 | with the application's registry the booker listing succeeds iff from >= 0, the user exists, size > 0 and the token parses; a non-ALL category lists exactly the booker's bookings in it |
| `BookingService.OwnerListingWithAppRegistry` | server/src/main/java/ru/practicum/shareit/booking/service/BookingServiceImpl.java:120-140 | the same for the owner listing, over exactly the bookings of the owner's items |
| `ItemPatch.ApplyPatch` | server/src/main/java/ru/practicum/shareit/item/service/ItemServiceImpl.java:71-79 | each of name, description and availability is overwritten exactly when the incoming value is non-null; id, owner and request link are kept |
| `ItemPatch.PatchIdempotent` | src/main/java/ru/practicum/shareit/item/repository/ItemRepositoryImpl.java:42-50 | applying the same update twice is applying it once |
| `ItemPatch.PatchesCompose` | src/main/java/ru/practicum/shareit/item/service/ItemServiceImpl.java:59-67 | two successive updates act as one in which the later non-null fields win |
| `ItemPatch.NoChangeIsIdentity` | src/main/java/ru/practicum/shareit/item/service/ItemServiceImpl.java:59-68 | an all-null update leaves the item as it was |
| `Text.LowerChar` | server/src/main/java/ru/practicum/shareit/item/service/ItemServiceImpl.java:151 | lower-casing maps an upper-case letter to a lower-case one and leaves every other character alone |
| `Text.UpperChar` | src/main/java/ru/practicum/shareit/item/repository/ItemRepositoryImpl.java:66-67 | upper-casing maps a lower-case letter to an upper-case one and leaves every other character alone |
| `Text.CaseRoundTrip` | src/main/java/ru/practicum/shareit/item/repository/ItemRepositoryImpl.java:66-67 | lower- and upper-casing undo each other on letters, and lower-casing absorbs either |
| `Text.Lower` | src/main/java/ru/practicum/shareit/item/service/ItemServiceImpl.java:137 | `toLowerCase` keeps the length and lower-cases each character |
| `Text.LowerIdempotent` | src/main/java/ru/practicum/shareit/item/service/ItemServiceImpl.java:137 | lower-casing twice is lower-casing once |
| `Text.SameIgnoringCaseIsLowerEqual` | src/main/java/ru/practicum/shareit/item/repository/ItemRepositoryImpl.java:66 | two characters match ignoring case exactly when their lower-case forms are equal |
| `Text.RegionIsLoweredOccurrence` | src/main/java/ru/practicum/shareit/item/repository/ItemRepositoryImpl.java:66-67 | a case-insensitive region match at i is an occurrence at i of the lowered needle in the lowered text |
| `Text.SearchesAgree` | src/main/java/ru/practicum/shareit/item/repository/ItemRepositoryImpl.java:63-71 | `containsIgnoreCase(hay, needle)` holds exactly when lower(hay) contains lower(needle) |
| `Text.EmptyNeedleMatches` | src/main/java/ru/practicum/shareit/item/repository/ItemRepositoryImpl.java:66-67 | the empty text is contained in every string, both ways of searching |
| `Text.IsBlank` | server/src/main/java/ru/practicum/shareit/item/service/ItemServiceImpl.java:148 | `isBlank`: empty or whitespace only. A definition: `ItemService.SearchItems` states what follows from it |
| `Text.ContainsIgnoreCase` | src/main/java/ru/practicum/shareit/item/repository/ItemRepositoryImpl.java:66-67 | `StringUtils.containsIgnoreCase`: the needle matches the text at some position, letter by letter ignoring case. A definition: `SearchesAgree` and `EmptyNeedleMatches` state what follows from it |
| `ItemRepository.EmptyIsValid` | src/main/java/ru/practicum/shareit/item/repository/ItemRepositoryImpl.java:21-22 | the empty store with the counter at 1 is valid |
| `ItemRepository.CreateItem` | src/main/java/ru/practicum/shareit/item/repository/ItemRepositoryImpl.java:24-29 | the item gets the counter as id, is stored under it, the counter advances, and no other entry changes |
| `ItemRepository.FindById` | src/main/java/ru/practicum/shareit/item/repository/ItemRepositoryImpl.java:31-36 | present exactly when the id is stored, with the stored item |
| `ItemRepository.UpdateItem` | src/main/java/ru/practicum/shareit/item/repository/ItemRepositoryImpl.java:38-53 | an unknown id is "Id X не найден" and changes nothing; otherwise only that entry changes, to the patched item |
| `ItemRepository.FindAllByUserId` | src/main/java/ru/practicum/shareit/item/repository/ItemRepositoryImpl.java:55-61 | exactly the stored items of that owner |
| `ItemRepository.SearchItems` | src/main/java/ru/practicum/shareit/item/repository/ItemRepositoryImpl.java:63-71 | exactly the available stored items whose name or description contains the text ignoring case |
| `ItemRepository.Matches` | src/main/java/ru/practicum/shareit/item/repository/ItemRepositoryImpl.java:66-68 | the search condition: available, and name or description contains the text ignoring case. A definition: `SearchItems` and `EmptySearchReturnsAvailable` state what follows from it |
| `ItemRepository.CreatePreservesValid` | src/main/java/ru/practicum/shareit/item/repository/ItemRepositoryImpl.java:26-27 | the new id was free, and creating keeps every item under its own id below the counter |
| `ItemRepository.CreatedIdsIncrease` | src/main/java/ru/practicum/shareit/item/repository/ItemRepositoryImpl.java:27 | two successive creations hand out increasing ids |
| `ItemRepository.CreatedIsFound` | src/main/java/ru/practicum/shareit/item/repository/ItemRepositoryImpl.java:24-36 | a created item is found under the id it was given |
| `ItemRepository.UpdatePreservesValid` | src/main/java/ru/practicum/shareit/item/repository/ItemRepositoryImpl.java:39-52 | updating keeps the store valid |
| `ItemRepository.EmptySearchReturnsAvailable` | src/main/java/ru/practicum/shareit/item/repository/ItemRepositoryImpl.java:64-68 | the unguarded repository search with empty text returns every available item |
| `ItemService.CreateItem` | server/src/main/java/ru/practicum/shareit/item/service/ItemServiceImpl.java:45-58 | an unknown user is "user not found"; an unknown request id is the Optional.get fault; success iff neither, and then the item with the next id, the caller as owner and the request link is stored |
| `ItemService.LegacyCreateItem` | src/main/java/ru/practicum/shareit/item/service/ItemServiceImpl.java:37-46 | succeeds iff the user exists, storing the item with the next id and no request link |
| `ItemService.UpdateItem` | server/src/main/java/ru/practicum/shareit/item/service/ItemServiceImpl.java:60-82 | an unknown item is "item not found"; a non-owner gets AccessDenied; success iff the caller owns the item, and then only that item changes, to the patched one |
| `ItemService.LegacyUpdateItem` | src/main/java/ru/practicum/shareit/item/service/ItemServiceImpl.java:48-70 | as the current update, except that an unknown item is reported as "user not found" for the caller |
| `ItemService.LegacyUpdateBlamesUser` | src/main/java/ru/practicum/shareit/item/service/ItemServiceImpl.java:53-54 | with user 1 registered and no item 7, the earlier update blames user 1 while the current one names item 7 |
| `ItemService.NextSpecMeaning` | server/src/main/java/ru/practicum/shareit/item/service/ItemServiceImpl.java:182-186 | the next-booking specification selects the item's approved bookings starting after now, in ascending start order |
| `ItemService.NextSpec` | server/src/main/java/ru/practicum/shareit/item/service/ItemServiceImpl.java:182-185 | the next-booking specification: item, APPROVED, start after now, ordered by ascending start. A definition: `NextSpecMeaning` states what it selects |
| `ItemService.LastSpec` | server/src/main/java/ru/practicum/shareit/item/service/ItemServiceImpl.java:195-197 | the last-booking specification: item, APPROVED, start before now. A definition: `LastSpecMeaning` states what it selects |
| `ItemService.LastSpecMeaning` | server/src/main/java/ru/practicum/shareit/item/service/ItemServiceImpl.java:195-198 | the last-booking specification selects the item's approved bookings started before now, in descending start order |
| `ItemService.NextBooking` | server/src/main/java/ru/practicum/shareit/item/service/ItemServiceImpl.java:180-191 | none iff the item has no approved upcoming booking; otherwise one of them with the earliest start |
| `ItemService.LastBooking` | server/src/main/java/ru/practicum/shareit/item/service/ItemServiceImpl.java:193-203 | none iff the item has no approved started booking; otherwise one of them with the latest start |
| `ItemService.CommentsOf` | server/src/main/java/ru/practicum/shareit/item/service/ItemServiceImpl.java:95 | exactly the comments on that item |
| `ItemService.GetItem` | server/src/main/java/ru/practicum/shareit/item/service/ItemServiceImpl.java:84-100 | an unknown item is "item not found"; any viewer may read; next and last bookings are filled in exactly for the owner; the comments are exactly the item's |
| `ItemService.FirstApprovedIndex` | server/src/main/java/ru/practicum/shareit/item/service/ItemServiceImpl.java:118-122 | the position of the first approved booking of the item, with none before it |
| `ItemService.FirstApprovedOf` | server/src/main/java/ru/practicum/shareit/item/service/ItemServiceImpl.java:126-130 | `filter(...).findFirst()`: none iff no approved booking of the item is in the list; otherwise the approved booking of the item at the earliest position, with none before it |
| `ItemService.FirstApprovedOfTail` | server/src/main/java/ru/practicum/shareit/item/service/ItemServiceImpl.java:126-130 | `findFirst` passes over a leading booking that is not an approved one of the item |
| `ItemService.FirstInSortedIsLeast` | server/src/main/java/ru/practicum/shareit/item/service/ItemServiceImpl.java:112-122 | in a list sorted by a key, the first approved booking of the item has the least key among the item's approved bookings |
| `ItemService.UpcomingBookings` | server/src/main/java/ru/practicum/shareit/item/service/ItemServiceImpl.java:112 | the bookings starting after now, sorted by ascending start |
| `ItemService.StartedBookings` | server/src/main/java/ru/practicum/shareit/item/service/ItemServiceImpl.java:113 | exactly the bookings that started before now; `StartedBookingsInStoreOrder` states they keep the store's order, and `ListEntryLastIsFirstInStore` states which of them becomes an entry's last booking |
| `ItemService.StartedBookingsInStoreOrder` | server/src/main/java/ru/practicum/shareit/item/service/ItemServiceImpl.java:113 | the started bookings are a subsequence of the stored bookings: each is at a store position after the previous one |
| `ItemService.ListEntry` | server/src/main/java/ru/practicum/shareit/item/service/ItemServiceImpl.java:115-138 | a list entry's next booking is the earliest approved upcoming one (none iff there is none); its last booking is an approved started one (none iff there is none), and `ListEntryLastIsFirstInStore` states which one; its comments are exactly the item's |
| `ItemService.FirstLastCandidateIndex` | server/src/main/java/ru/practicum/shareit/item/service/ItemServiceImpl.java:113-130 | the store position of the first approved booking of the item that started before now, with no such booking before it, or the store size when there is none |
| `ItemService.FirstApprovedOfStarted` | server/src/main/java/ru/practicum/shareit/item/service/ItemServiceImpl.java:113-130 | filtering the started bookings (no ORDER BY) and then taking the first approved one of the item picks the first such booking in the store |
| `ItemService.ListEntryLastIsFirstInStore` | server/src/main/java/ru/practicum/shareit/item/service/ItemServiceImpl.java:124-130 | an entry's last booking is the booking at store position p, where p is the first position holding an approved booking of the item that started before now; none when there is no such position |
| `ItemService.OwnedById` | server/src/main/java/ru/practicum/shareit/item/service/ItemServiceImpl.java:114 | the owner's items keyed by id: exactly the stored entries of the items the user owns. A definition: `OwnedItems` lists it in id order |
| `ItemService.OwnedValues` | server/src/main/java/ru/practicum/shareit/item/service/ItemServiceImpl.java:114 | the values of the owner's id-keyed items are exactly the stored items the user owns |
| `ItemService.Entries` | server/src/main/java/ru/practicum/shareit/item/service/ItemServiceImpl.java:114-139 | one list entry per listed item, in the list's order. A definition: `EntriesMeaning` states its correspondence with the items |
| `ItemService.OwnedItems` | server/src/main/java/ru/practicum/shareit/item/service/ItemServiceImpl.java:114 | exactly the items the user owns, listed by ascending id (`OwnedItemsOrder`) |
| `ItemService.OwnedItemsOrder` | server/src/main/java/ru/practicum/shareit/item/service/ItemServiceImpl.java:110-114 | entry i of the owner's list is the owner's item under the i-th smallest id |
| `ItemService.EntriesMeaning` | server/src/main/java/ru/practicum/shareit/item/service/ItemServiceImpl.java:114-139 | every listed item has an entry, and every entry is the list entry of a listed item |
| `ItemService.GetAllItems` | server/src/main/java/ru/practicum/shareit/item/service/ItemServiceImpl.java:102-140 | unknown user, then negative `from`, then size 0 and a negative size fail in that order; on success the list entries of exactly the page `from / size` of the owner's items in ascending id order, so at most `size`, each the entry of an item the user owns |
| `ItemService.EveryOwnedItemIsListed` | server/src/main/java/ru/practicum/shareit/item/service/ItemServiceImpl.java:102-140 | every item the user owns has its entry on the listing for some `from` |
| `ItemService.LegacyGetAllItems` | src/main/java/ru/practicum/shareit/item/service/ItemServiceImpl.java:90-125 | succeeds iff the user exists; then every item the user owns has an entry, and only those do |
| `ItemService.SearchItems` | server/src/main/java/ru/practicum/shareit/item/service/ItemServiceImpl.java:142-154 | an unknown user fails; blank text gives the empty list; otherwise exactly the available items whose lowered name or description contains the lowered text |
| `ItemService.SearchHitIsContainsIgnoreCase` | src/main/java/ru/practicum/shareit/item/service/ItemServiceImpl.java:127-140 | the service's lowered search and the in-memory store's `containsIgnoreCase` search select the same items |
| `ItemService.CommentSpecMeaning` | server/src/main/java/ru/practicum/shareit/item/service/ItemServiceImpl.java:163-166 | the comment eligibility specification holds exactly for the user's approved, started bookings of the item |
| `ItemService.CommentSpec` | server/src/main/java/ru/practicum/shareit/item/service/ItemServiceImpl.java:163-166 | the comment eligibility specification: booker, item, APPROVED, start before now. A definition: `CommentSpecMeaning` states what it selects |
| `ItemService.AddComment` | server/src/main/java/ru/practicum/shareit/item/service/ItemServiceImpl.java:156-174 | an unknown user fails; without an approved, started booking of the item it is the "не брал" ItemException; success iff the user has rented and the item exists, appending the comment stamped now |
| `ItemService.CreatedItemIsReadable` | server/src/main/java/ru/practicum/shareit/item/service/ItemServiceImpl.java:56-88 | a created item can be read back by anyone, and the store stays well formed |
| `ItemService.UpdateIsVisible` | server/src/main/java/ru/practicum/shareit/item/service/ItemServiceImpl.java:80-88 | an update is visible to the next read and keeps the item's id and owner |
| `ItemService.UpdateIsIdempotent` | server/src/main/java/ru/practicum/shareit/item/service/ItemServiceImpl.java:71-80 | repeating the same update leaves the store as one update does |
| `ItemService.AddedCommentIsListed` | server/src/main/java/ru/practicum/shareit/item/service/ItemServiceImpl.java:95-99 | a comment just added appears among the item's comments on the next read |
| `ItemService.ListAndReadAgree` | server/src/main/java/ru/practicum/shareit/item/service/ItemServiceImpl.java:112-130 | the list and the single read agree on whether there is a next booking and on its start, and on whether there is a last booking |
| `UserRepository.RemoveFirst` | src/main/java/ru/practicum/shareit/user/repository/UserRepositoryImpl.java:51 | `List.remove(Object)` drops one element when present and nothing otherwise |
| `UserRepository.RemoveFirstDistinct` | src/main/java/ru/practicum/shareit/user/repository/UserRepositoryImpl.java:51-53 | on a list without repetitions, removal leaves exactly the other addresses, still without repetitions |
| `UserRepository.AppendDistinct` | src/main/java/ru/practicum/shareit/user/repository/UserRepositoryImpl.java:27 | appending an absent address keeps the list without repetitions |
| `UserRepository.EmptyIsValid` | src/main/java/ru/practicum/shareit/user/repository/UserRepositoryImpl.java:18-20 | the empty store with the counter at 1 is valid |
| `UserRepository.CreateUser` | src/main/java/ru/practicum/shareit/user/repository/UserRepositoryImpl.java:22-31 | an address already listed is the EmailException and changes nothing; otherwise the address is listed and the user stored under the counter, which advances |
| `UserRepository.FindById` | src/main/java/ru/practicum/shareit/user/repository/UserRepositoryImpl.java:33-39 | present exactly when the id is stored |
| `UserRepository.UpdateUser` | src/main/java/ru/practicum/shareit/user/repository/UserRepositoryImpl.java:44-64 | unknown id is the UpdateException; without an address the name is set, to null too; with an address, success iff it is the user's own or unused, changing the address (and the name when given) and moving the list entry; otherwise the EmailException |
| `UserRepository.MayTake` | src/main/java/ru/practicum/shareit/user/repository/UserRepositoryImpl.java:49-57 | a user may take an address that is already their own or that no one has listed. A definition: `UpdateUser` and `TakenEmailIsRefused` state what follows from it |
| `UserRepository.UpdateUserKeepingName` | src/main/java/ru/practicum/shareit/user/repository/UserRepositoryImpl.java:54-55 | the corrected update: with neither field it returns the user unchanged, and otherwise agrees with the update as written |
| `UserRepository.EmptyUpdateErasesName` | src/main/java/ru/practicum/shareit/user/repository/UserRepositoryImpl.java:54-55 | in a valid store, the update as written turns user "Ann" nameless when given neither field; the corrected one keeps the name |
| `UserRepository.KeepingNamePreservesName` | src/main/java/ru/practicum/shareit/user/repository/UserRepositoryImpl.java:45-62 | with the correction, a successful update keeps the stored name unless a new one is given |
| `UserRepository.DeleteUser` | src/main/java/ru/practicum/shareit/user/repository/UserRepositoryImpl.java:66-74 | true exactly when the id was stored; then the user is removed and the address freed; otherwise nothing changes |
| `UserRepository.FindAll` | src/main/java/ru/practicum/shareit/user/repository/UserRepositoryImpl.java:76-81 | exactly the stored users |
| `UserRepository.CreatePreservesValid` | src/main/java/ru/practicum/shareit/user/repository/UserRepositoryImpl.java:24-29 | creating keeps the address list equal to the stored users' addresses, without repetitions, and addresses unique |
| `UserRepository.UpdatePreservesValid` | src/main/java/ru/practicum/shareit/user/repository/UserRepositoryImpl.java:46-61 | updating keeps the store valid |
| `UserRepository.DeletePreservesValid` | src/main/java/ru/practicum/shareit/user/repository/UserRepositoryImpl.java:67-73 | deleting keeps the store valid |
| `UserRepository.TakenEmailIsRefused` | src/main/java/ru/practicum/shareit/user/repository/UserRepositoryImpl.java:56-61 | taking another user's address is the EmailException and changes nothing |
| `UserRepository.DeleteFreesEmail` | src/main/java/ru/practicum/shareit/user/repository/UserRepositoryImpl.java:66-72 | after a delete, a new user may register with the deleted user's address |
| `UserRepository.CreatedUserIsFound` | src/main/java/ru/practicum/shareit/user/repository/UserRepositoryImpl.java:28-36 | a created user is found under the id it was given |
| `UserService.GetUser` | src/main/java/ru/practicum/shareit/user/service/UserServiceImpl.java:27-33 | success exactly when the user is stored, with that user; otherwise "user not found" |
| `UserService.PatchUser` | src/main/java/ru/practicum/shareit/user/service/UserServiceImpl.java:47-52 | each non-null field of the request overwrites the stored one; the id is kept |
| `UserService.UpdateUser` | src/main/java/ru/practicum/shareit/user/service/UserServiceImpl.java:42-55 | an unknown user is "user not found" and changes nothing; otherwise only that user changes, to the patched one |
| `UserService.DeleteUserById` | src/main/java/ru/practicum/shareit/user/service/UserServiceImpl.java:61 | the delete reports one row for a stored id and none otherwise, and removes only that user |
| `UserService.DeleteUser` | src/main/java/ru/practicum/shareit/user/service/UserServiceImpl.java:57-62 | true exactly when the user was stored; afterwards it is gone and every other user is unchanged |
| `UserService.FindAll` | src/main/java/ru/practicum/shareit/user/service/UserServiceImpl.java:64-73 | negative `from` fails first, then size 0 (division) and a negative size (PageRequest.of); on success exactly the page `from / size` of the stored users in ascending id order, so at most `size` of them |
| `UserService.EveryUserIsListed` | src/main/java/ru/practicum/shareit/user/service/UserServiceImpl.java:64-73 | every stored user is on the listing for some `from` |
| `UserService.UpdateThenGet` | src/main/java/ru/practicum/shareit/user/service/UserServiceImpl.java:43-54 | an update is visible to the next read |
| `UserService.EmptyUpdateChangesNothing` | src/main/java/ru/practicum/shareit/user/service/UserServiceImpl.java:47-53 | an update with neither field leaves the store and the user unchanged |
| `UserService.DeleteIsFinal` | src/main/java/ru/practicum/shareit/user/service/UserServiceImpl.java:57-62 | after a delete the user is not found and a second delete reports false |
| `UserService.FirstPageIsFull` | src/main/java/ru/practicum/shareit/user/service/UserServiceImpl.java:67-70 | the first page of size n, with at least n users, is full |
| `RequestService.ItemsFor` | src/main/java/ru/practicum/shareit/request/service/ItemRequestServiceImpl.java:40 | exactly the items linked to that request |
| `RequestService.ItemsForRequestsOf` | src/main/java/ru/practicum/shareit/request/service/ItemRequestServiceImpl.java:73 | exactly the items linked to some request the author posted |
| `RequestService.AddRequestItem` | src/main/java/ru/practicum/shareit/request/service/ItemRequestServiceImpl.java:32-44 | an unknown author fails and changes nothing; otherwise the request with the next id, stamped now, is appended and returned with exactly the items linked to it |
| `RequestService.NewestFirst` | src/main/java/ru/practicum/shareit/request/service/ItemRequestServiceImpl.java:53 | the requests in descending id order, a permutation of the input |
| `RequestService.NotBy` | src/main/java/ru/practicum/shareit/request/service/ItemRequestServiceImpl.java:57 | exactly the requests not posted by the caller; `NotByKeepsOrder` states their order is kept |
| `RequestService.ByAuthor` | src/main/java/ru/practicum/shareit/request/service/ItemRequestServiceImpl.java:72 | exactly the requests the caller posted; `ByAuthorKeepsOrder` states they keep the store's order |
| `RequestService.NotByKeepsOrder` | src/main/java/ru/practicum/shareit/request/service/ItemRequestServiceImpl.java:57 | the stream filter keeps the surviving requests in the page's order: each at a page position after the previous one |
| `RequestService.ByAuthorKeepsOrder` | src/main/java/ru/practicum/shareit/request/service/ItemRequestServiceImpl.java:72 | the caller's requests appear in the store's order: each at a store position after the previous one |
| `RequestService.RequestListingNewestFirst` | src/main/java/ru/practicum/shareit/request/service/ItemRequestServiceImpl.java:53-57 | on the listing of other users' requests, ids descend: dropping the caller's own requests from a page sorted by descending id keeps it sorted |
| `RequestService.ViewsWith` | src/main/java/ru/practicum/shareit/request/service/ItemRequestServiceImpl.java:74-76 | each request is shown, in order, with the one given item list |
| `RequestService.Views` | src/main/java/ru/practicum/shareit/request/service/ItemRequestServiceImpl.java:58-60 | each request is shown with exactly the items linked to it |
| `RequestService.ListingPage` | src/main/java/ru/practicum/shareit/request/service/ItemRequestServiceImpl.java:48-53 | unknown user, then negative `from`, then size 0 fail in that order; success iff none applies, and then the page `from / size` sorted by descending id |
| `RequestService.GetAllRequestItem` | src/main/java/ru/practicum/shareit/request/service/ItemRequestServiceImpl.java:46-62 | the failures in source order, a negative size last; on success the page `from / size` of all requests newest first, with the caller's own then dropped, each shown with exactly its linked items |
| `RequestService.GetAllOwnerRequestItem` | src/main/java/ru/practicum/shareit/request/service/ItemRequestServiceImpl.java:64-78 | the failures in source order, a negative size last; on success exactly the page `from / size` of the caller's own requests newest first, each shown with every item linked to any of the caller's requests |
| `RequestService.OwnerListingNewestFirst` | src/main/java/ru/practicum/shareit/request/service/ItemRequestServiceImpl.java:70-72 | within a page of the caller's own requests, ids descend |
| `RequestService.EveryOwnRequestIsListed` | src/main/java/ru/practicum/shareit/request/service/ItemRequestServiceImpl.java:64-78 | every request the caller posted is on their own listing for some `from` |
| `RequestService.EveryOtherRequestIsListed` | src/main/java/ru/practicum/shareit/request/service/ItemRequestServiceImpl.java:46-62 | every request of another user is on the caller's listing for some `from`: the filter drops only the caller's own |
| `RequestService.GetRequestItem` | src/main/java/ru/practicum/shareit/request/service/ItemRequestServiceImpl.java:80-91 | an unknown user fails, then an unknown request is "item not found" for the request id; otherwise the request with exactly its linked items |
| `RequestService.FindAppendedRequest` | src/main/java/ru/practicum/shareit/request/service/ItemRequestServiceImpl.java:39 | a lookup by an id no earlier request has finds the appended request |
| `RequestService.FreshRequestIdUnused` | src/main/java/ru/practicum/shareit/request/service/ItemRequestServiceImpl.java:39-40 | in a well-formed store no item is linked to the id the next request will get |
| `RequestService.NoItemAnswersFreshRequest` | src/main/java/ru/practicum/shareit/request/service/ItemRequestServiceImpl.java:39-42 | the item list of a fresh request is empty |
| `RequestService.PostedRequestIsReadable` | src/main/java/ru/practicum/shareit/request/service/ItemRequestServiceImpl.java:32-91 | a request just posted has no items yet and can be read back by any user |
| `RequestService.FilteringAfterPagingCanEmptyPage` | src/main/java/ru/practicum/shareit/request/service/ItemRequestServiceImpl.java:54-57 | filtering after paging can hide requests: user 2 asking for one request gets an empty page although user 1's request exists |
| `Ordering.Insert` | src/main/java/ru/practicum/shareit/booking/repository/BookingSpecification.java:17 | inserting into a sorted list keeps it sorted and adds exactly that element |
| `Ordering.Sort` | src/main/java/ru/practicum/shareit/booking/repository/BookingSpecification.java:17 | an ORDER BY yields a sorted permutation of its input |
| `Ordering.HeadIsLeast` | server/src/main/java/ru/practicum/shareit/item/service/ItemServiceImpl.java:186 | the first row of a sorted result has the least key |
| `Store.SortedIds` | src/main/java/ru/practicum/shareit/item/repository/ItemRepositoryImpl.java:57 | the ids of a set in strictly ascending order, each exactly once |
| `Store.ValuesById` | src/main/java/ru/practicum/shareit/item/repository/ItemRepositoryImpl.java:57 | a map's values, one per key: exactly the stored values (`ValuesByIdOrder` gives their order) |
| `Store.ValuesByIdOrder` | src/main/java/ru/practicum/shareit/item/repository/ItemRepositoryImpl.java:57 | row i is the value stored under the i-th smallest id, and the ids before it are smaller |
| `Store.Select` | src/main/java/ru/practicum/shareit/item/repository/ItemRepositoryImpl.java:58 | `filter` keeps exactly the elements satisfying the condition; `SelectKeepsOrder` states their order is kept |
| `Store.SelectKeepsOrder` | src/main/java/ru/practicum/shareit/item/repository/ItemRepositoryImpl.java:58 | a stream filter is a subsequence: every kept element satisfies the condition and sits at a position after the previous kept one |
| `Store.FindBooking` | server/src/main/java/ru/practicum/shareit/booking/service/BookingServiceImpl.java:65-66 | the lookup finds a stored booking with that id, and none exactly when no booking has it |
| `Store.FindRequest` | src/main/java/ru/practicum/shareit/request/service/ItemRequestServiceImpl.java:85-86 | the lookup finds a stored request with that id, and none exactly when no request has it |

## Left out

- The controllers, the gateway's HTTP clients, the DTO mappers and the exception handler. They translate between HTTP, DTOs and the model's values and make no decisions the model needs.
- The wall clock. `LocalDateTime.now()` is the parameter `now`; timestamps are integers.
- Concurrency and transactions. Every operation is one atomic step on the store.
- The CURRENT strategy class is not part of this model. Its predicate, start < now < end, is built from the `startDateIsBefore` and `endDateIsAfter` builders that exist for it.
- The earlier ALL strategy calls a repository `findAll(ids, from, size)` that is not part of this model. It is modelled as an OFFSET/LIMIT window over the subject's bookings in store order.
- LIKE wildcards (`%`, `_`) in search text are not modelled. The text is matched literally.
- Case mapping covers only Latin and the basic Cyrillic block (U+0400–U+045F). Other scripts are left unchanged, whereas Java folds them too.
- Integer overflow of ids, counters and `from`/`size` is not modelled. Integers are unbounded, apart from Integer.MAX_VALUE as the earlier generation's default size.
- A null name, description or availability on item creation is not modelled. The gateway validates the creation request before it reaches the service; its DTO is not part of this model.
- UserService.UpdateUser: does not model the database's unique-email constraint, which may refuse the save. That constraint is not part of this model.
- `UserServiceImpl.createUser` is a plain save of the mapped request and is not modelled.
- The ordering of the JPA store when no ORDER BY is given is taken to be id order.
- The earlier generation's in-memory stores iterate `HashMap.values()`, whose order Java does not fix. It is taken to be ascending id order, which holds for small ids.
- Ordering.Sort: promises a sorted permutation only, not the relative order of rows with equal keys. A database ORDER BY on one column does not fix that order either.

## Findings

| source | as written | input that shows it | evidently intended | confidence | as-written member | corrected member |
|---|---|---|---|---|---|---|
| src/main/java/ru/practicum/shareit/item/service/ItemServiceImpl.java:53-54 | an unknown item in `updateItem` is reported with the "user not found" message for the caller's id | user 1 exists, item 7 does not: updating item 7 as user 1 reports user 1 missing | report the missing item, as the current generation does | not executed | `ItemService.LegacyUpdateItem`, `ItemService.LegacyUpdateBlamesUser` | `ItemService.UpdateItem` |
| src/main/java/ru/practicum/shareit/user/repository/UserRepositoryImpl.java:54-55 | an update with a null address sets the name even when the name is null too, erasing it | user 1 "Ann" with "ann@mail.ru", update with neither field: the name becomes null | keep the stored name when no new one is given, as for the address | not executed | `UserRepository.UpdateUser`, `UserRepository.EmptyUpdateErasesName` | `UserRepository.UpdateUserKeepingName`, `UserRepository.KeepingNamePreservesName` |

=== FILE: booking_service.dfy ===
/** The booking use cases: create, read, decide (approve/reject) and list by category,
    for the booker and for the owner of the booked items. The create/read/decide logic is
    the same in both generations of the service; the listings differ (the current one
    checks `from`, pages with `from / size`; the earlier one hands `from`/`size` to the
    strategy unchanged). */
module BookingService {
  import opened Wrappers
  import opened Domain
  import opened Ordering
  import opened Paging
  import opened BookingSpecification
  import opened StateStrategies
  import opened StateFactory
  import opened Store

  /** The body of a booking request (dates are checked by the gateway, not here). */
  datatype BookingRequest = BookingRequest(itemId: int, start: int, end: int)

  /** `booking.getItem().getUser().getId()`: the owner of an item, when the item exists. */
  function ItemOwner(db: Db, itemId: int): Option<int> {
    if itemId in db.items then Some(db.items[itemId].owner) else None
  }

  /** Only the booker and the owner of the booked item may see a booking. */
  predicate MayView(db: Db, b: Booking, userId: int) {
    b.booker == userId || ItemOwner(db, b.item) == Some(userId)
  }

  /** Booking ids are below the identity counter, and nobody has booked their own item. */
  ghost predicate WellFormed(db: Db) {
    && (forall b :: b in db.bookings ==> b.id < db.nextBookingId)
    && (forall b :: b in db.bookings && b.item in db.items ==> db.items[b.item].owner != b.booker)
  }

  /** `addBooking`: the booker must exist, the item must exist and be available, and the
      booker must not own it, checked in that order; the new booking is WAITING. */
  function AddBooking(db: Db, req: BookingRequest, bookerId: int): (r: Step<Db, Booking>)
    ensures r.result.Failure? ==> r.state == db
    ensures bookerId !in db.users ==> r.result == Failure(NotFound(UserMissing(bookerId)))
    ensures bookerId in db.users && req.itemId !in db.items ==>
      r.result == Failure(NotFound(ItemMissing(req.itemId)))
    ensures bookerId in db.users && req.itemId in db.items && !db.items[req.itemId].available ==>
      r.result == Failure(ItemError(Unavailable(req.itemId)))
    ensures (bookerId in db.users && req.itemId in db.items && db.items[req.itemId].available &&
             db.items[req.itemId].owner == bookerId) ==> r.result == Failure(NotFound(OwnItem))
    ensures r.result.Success? <==>
      bookerId in db.users && req.itemId in db.items && db.items[req.itemId].available &&
      db.items[req.itemId].owner != bookerId
    ensures r.result.Success? ==>
      var b := r.result.value;
      && b.status == WAITING && b.booker == bookerId && b.item == req.itemId
      && b.start == req.start && b.end == req.end && b.id == db.nextBookingId
      && r.state.bookings == db.bookings + [b]
      && r.state == db.(bookings := r.state.bookings, nextBookingId := db.nextBookingId + 1)
  {
    if bookerId !in db.users then Step(db, Failure(NotFound(UserMissing(bookerId))))
    else if req.itemId !in db.items then Step(db, Failure(NotFound(ItemMissing(req.itemId))))
    else
      var item := db.items[req.itemId];
      if !item.available then Step(db, Failure(ItemError(Unavailable(req.itemId))))
      else if bookerId == item.owner then Step(db, Failure(NotFound(OwnItem)))
      else
        var b := Booking(db.nextBookingId, req.start, req.end, WAITING, bookerId, req.itemId);
        Step(db.(bookings := db.bookings + [b], nextBookingId := db.nextBookingId + 1), Success(b))
  }

  /** `getBooking`: a missing booking, or a viewer who is neither its booker nor its item's
      owner, is a NotFoundException. */
  function GetBooking(db: Db, userId: int, bookingId: int): (r: Result<Booking, Error>)
    ensures FindBooking(db.bookings, bookingId).None? ==>
      r == Failure(NotFound(BookingMissing(bookingId)))
    ensures FindBooking(db.bookings, bookingId).Some? && !MayView(db, FindBooking(db.bookings, bookingId).value, userId) ==>
      r == Failure(NotFound(UserMissing(userId)))
    ensures r.Success? <==>
      FindBooking(db.bookings, bookingId).Some? && MayView(db, FindBooking(db.bookings, bookingId).value, userId)
    ensures r.Success? ==> r.value in db.bookings && r.value.id == bookingId && MayView(db, r.value, userId)
  {
    var found := FindBooking(db.bookings, bookingId);
    if found.None? then Failure(NotFound(BookingMissing(bookingId)))
    else if !MayView(db, found.value, userId) then Failure(NotFound(UserMissing(userId)))
    else Success(found.value)
  }

  /** `UPDATE Booking b SET b.status = :status WHERE b.id = :bookingId`. */
  function SetStatus(bookings: seq<Booking>, bookingId: int, status: Status): (r: seq<Booking>)
    ensures |r| == |bookings|
    ensures forall i :: 0 <= i < |r| ==>
      r[i] == if bookings[i].id == bookingId then bookings[i].(status := status) else bookings[i]
  {
    seq(|bookings|, i requires 0 <= i < |bookings| =>
      if bookings[i].id == bookingId then bookings[i].(status := status) else bookings[i])
  }

  /** Message of the StateException for a booking that is already approved. */
  const AlreadyApprovedMessage: string := "Статус уже изменен на APPROVED"

  function Decision(approved: bool): Status {
    if approved then APPROVED else REJECTED
  }

  /** `updateBookingStatus`: read the booking as `getBooking` does, re-read its item, require
      the caller to be the item's owner, refuse an already APPROVED booking, then write
      APPROVED or REJECTED. Only APPROVED blocks a decision: a REJECTED booking can be
      decided again. */
  function UpdateBookingStatus(db: Db, userId: int, bookingId: int, approved: bool): (r: Step<Db, Booking>)
    ensures r.result.Failure? ==> r.state == db
    ensures GetBooking(db, userId, bookingId).Failure? ==> r.result == Failure(GetBooking(db, userId, bookingId).error)
    ensures r.result.Success? ==>
      var old_ := FindBooking(db.bookings, bookingId).value;
      && FindBooking(db.bookings, bookingId).Some?
      && ItemOwner(db, old_.item) == Some(userId)
      && old_.status != APPROVED
      && r.result.value == old_.(status := Decision(approved))
      && r.state == db.(bookings := SetStatus(db.bookings, bookingId, Decision(approved)))
    ensures FindBooking(db.bookings, bookingId).Some? ==>
      var b := FindBooking(db.bookings, bookingId).value;
      ItemOwner(db, b.item) == Some(userId) ==>
        && (r.result.Success? <==> b.status != APPROVED)
        && (b.status == APPROVED ==> r.result == Failure(StateError(AlreadyApprovedMessage)))
    ensures FindBooking(db.bookings, bookingId).Some? ==>
      var b := FindBooking(db.bookings, bookingId).value;
      && (b.item in db.items && db.items[b.item].owner != userId ==>
            r.result == Failure(NotFound(UserMissing(userId))))
      && (b.item !in db.items ==>
            r.result == Failure(NotFound(if b.booker == userId then ItemMissing(b.item) else UserMissing(userId))))
  {
    var got := GetBooking(db, userId, bookingId);
    if got.Failure? then Step(db, Failure(got.error))
    else
      var booking := got.value;
      if booking.item !in db.items then Step(db, Failure(NotFound(ItemMissing(booking.item))))
      else if db.items[booking.item].owner != userId then Step(db, Failure(NotFound(UserMissing(userId))))
      else if booking.status == APPROVED then Step(db, Failure(StateError(AlreadyApprovedMessage)))
      else
        var status := Decision(approved);
        Step(db.(bookings := SetStatus(db.bookings, bookingId, status)), Success(booking.(status := status)))
  }

  /** The ids of the items `userId` owns (`itemRepository.findAllByUserId(userId)`), ascending. */
  function OwnedItemIds(db: Db, userId: int): (r: seq<int>)
    ensures forall id :: id in r <==> id in db.items && db.items[id].owner == userId
  {
    SortedIds(set id | id in db.items && db.items[id].owner == userId)
  }

  /** Resolves a category token: an unknown token is the StateException "Unknown state: X";
      a known state without a registered strategy is a null strategy. */
  function ResolveStrategy(registry: Registry, token: string): (r: Result<Strategy, Error>)
    ensures ParseState(token).None? ==> r == Failure(StateError(UnknownStateMessage(token)))
    ensures ParseState(token).Some? && ParseState(token).value !in registry ==> r == Failure(NullStrategy)
    ensures r.Success? ==> ParseState(token).Some? && r.value == registry[ParseState(token).value]
  {
    match ParseState(token)
    case None => Failure(StateError(UnknownStateMessage(token)))
    case Some(s) =>
      match FindStrategy(registry, s)
      case None => Failure(NullStrategy)
      case Some(st) => Success(st)
  }

  /** Shared checks of the current listings: `from < 0` fails before any lookup, then the
      user must exist, then `from / size` and PageRequest.of(page, size, DESC id). */
  function ListingPage(db: Db, userId: int, from: int, size: int): (r: Result<Pageable, Error>)
    ensures from < 0 ==> r == Failure(NegativeFrom)
    ensures 0 <= from && userId !in db.users ==> r == Failure(NotFound(UserMissing(userId)))
    ensures 0 <= from && userId in db.users && size == 0 ==> r == Failure(DivisionByZero)
    ensures 0 <= from && userId in db.users && size < 0 ==> r == Failure(IllegalPageRequest)
    ensures r.Success? <==> 0 <= from && userId in db.users && 0 < size
    ensures r.Success? ==>
      r.value.size == size && 0 <= r.value.page && Offset(r.value) <= from < Offset(r.value) + size
    ensures r.Success? ==> Offset(r.value) == RoundDown(from, size) && r.value.idSort == Some(Desc)
  {
    if from < 0 then Failure(NegativeFrom)
    else if userId !in db.users then Failure(NotFound(UserMissing(userId)))
    else ToPageable(from, size, Some(Desc))
  }

  /** `getAllUserBookings` (current generation). */
  function GetAllUserBookings(db: Db, registry: Registry, userId: int, state: string, from: int, size: int, now: int)
    : (r: Result<seq<Booking>, Error>)
    ensures from < 0 ==> r == Failure(NegativeFrom)
    ensures 0 <= from && userId !in db.users ==> r == Failure(NotFound(UserMissing(userId)))
    ensures 0 <= from && userId in db.users && size == 0 ==> r == Failure(DivisionByZero)
    ensures 0 <= from && userId in db.users && size < 0 ==> r == Failure(IllegalPageRequest)
    ensures 0 <= from && userId in db.users && 0 < size && ParseState(state).None? ==>
      r == Failure(StateError(UnknownStateMessage(state)))
    ensures r.Success? ==>
      && ParseState(state).Some? && ParseState(state).value in registry
      && forall b :: b in r.value ==>
           b in db.bookings && b.booker == userId && InCategory(registry[ParseState(state).value], b, now)
    ensures r.Success? && ParseState(state) == Some(ALL) && registry == AppRegistry() ==> |r.value| <= size
    ensures r.Success? ==> 0 <= from && 0 < size
    ensures r.Success? && registry[ParseState(state).value] == StateAll ==>
      && |r.value| == PageLength(|Filter(db.bookings, ByBookerId(userId), now)|, RoundDown(from, size), size)
      && SortedBy(r.value, KeyOf(IdDesc))
    ensures r.Success? && registry[ParseState(state).value] != StateAll ==> SortedBy(r.value, KeyOf(StartDesc))
  {
    var p :- ListingPage(db, userId, from, size);
    var st :- ResolveStrategy(registry, state);
    AppRegistryAll();
    assert st == registry[ParseState(state).value];
    assert p.size == size && Offset(p) == RoundDown(from, size) && p.idSort == Some(Desc);
    Success(FindBookings(st, db.bookings, userId, p, now))
  }

  /** `getAllOwnerBookings` (current generation): the strategy is run on exactly the ids of
      the items the user owns. */
  function GetAllOwnerBookings(db: Db, registry: Registry, userId: int, state: string, from: int, size: int, now: int)
    : (r: Result<seq<Booking>, Error>)
    ensures from < 0 ==> r == Failure(NegativeFrom)
    ensures 0 <= from && userId !in db.users ==> r == Failure(NotFound(UserMissing(userId)))
    ensures 0 <= from && userId in db.users && size == 0 ==> r == Failure(DivisionByZero)
    ensures 0 <= from && userId in db.users && size < 0 ==> r == Failure(IllegalPageRequest)
    ensures 0 <= from && userId in db.users && 0 < size && ParseState(state).None? ==>
      r == Failure(StateError(UnknownStateMessage(state)))
    ensures r.Success? ==>
      && ParseState(state).Some? && ParseState(state).value in registry
      && forall b :: b in r.value ==>
           b in db.bookings && ItemOwner(db, b.item) == Some(userId) && InCategory(registry[ParseState(state).value], b, now)
    ensures r.Success? && ParseState(state) == Some(ALL) && registry == AppRegistry() ==> |r.value| <= size
    ensures r.Success? ==> 0 <= from && 0 < size
    ensures r.Success? && registry[ParseState(state).value] == StateAll ==>
      && |r.value| == PageLength(|Filter(db.bookings, ByItemIds(OwnedItemIds(db, userId)), now)|, RoundDown(from, size), size)
      && SortedBy(r.value, KeyOf(IdDesc))
    ensures r.Success? && registry[ParseState(state).value] != StateAll ==> SortedBy(r.value, KeyOf(StartDesc))
  {
    var p :- ListingPage(db, userId, from, size);
    var st :- ResolveStrategy(registry, state);
    AppRegistryAll();
    assert st == registry[ParseState(state).value];
    assert p.size == size && Offset(p) == RoundDown(from, size) && p.idSort == Some(Desc);
    Success(FindBookingsByItemIds(st, db.bookings, OwnedItemIds(db, userId), p, now))
  }

  /** `getAllUserBookings` (earlier generation): no `from` check; the user must exist; the
      token is resolved; `from` and `size` go to the strategy unchanged. */
  function LegacyGetAllUserBookings(db: Db, registry: Registry, userId: int, state: string,
                                    from: Option<int>, size: Option<int>, now: int)
    : (r: Result<seq<Booking>, Error>)
    ensures userId !in db.users ==> r == Failure(NotFound(UserMissing(userId)))
    ensures userId in db.users && ParseState(state).None? ==>
      r == Failure(StateError(UnknownStateMessage(state)))
    ensures userId in db.users && ParseState(state).Some? && ParseState(state).value in registry ==>
      r == LegacyRun(registry[ParseState(state).value], db.bookings, Booker(userId), from, size, now)
    ensures userId in db.users && ParseState(state).Some? && ParseState(state).value !in registry ==>
      r == Failure(NullStrategy)
    ensures r.Success? ==>
      && ParseState(state).Some? && ParseState(state).value in registry
      && forall b :: b in r.value ==>
           b in db.bookings && b.booker == userId && InCategory(registry[ParseState(state).value], b, now)
  {
    if userId !in db.users then Failure(NotFound(UserMissing(userId)))
    else
      var st :- ResolveStrategy(registry, state);
      LegacyRun(st, db.bookings, Booker(userId), from, size, now)
  }

  /** The owner's item ids as the earlier generation collects them: the window
      (0, Integer.MAX_VALUE) over all of them. */
  function OwnedIdsWindow(db: Db, userId: int): (r: seq<int>)
    ensures forall id :: id in r ==> id in OwnedItemIds(db, userId)
    ensures |OwnedItemIds(db, userId)| <= IntMax ==> r == OwnedItemIds(db, userId)
  {
    var owned := OwnedItemIds(db, userId);
    var itemIds := Window(owned, 0, IntMax).value;
    assert |owned| <= IntMax ==> itemIds == owned by {
      if |owned| <= IntMax { FullWindow(owned, IntMax); }
    }
    assert forall id :: id in itemIds ==> id in owned by {
      forall id | id in itemIds ensures id in owned {
        var k :| 0 <= k < |itemIds| && itemIds[k] == id;
      }
    }
    itemIds
  }

  /** `getAllOwnerBookings` (earlier generation): the owner's item ids are collected with the
      window (0, Integer.MAX_VALUE) before the strategy runs. */
  function LegacyGetAllOwnerBookings(db: Db, registry: Registry, userId: int, state: string,
                                     from: Option<int>, size: Option<int>, now: int)
    : (r: Result<seq<Booking>, Error>)
    ensures userId !in db.users ==> r == Failure(NotFound(UserMissing(userId)))
    ensures userId in db.users && ParseState(state).None? ==>
      r == Failure(StateError(UnknownStateMessage(state)))
    ensures userId in db.users && ParseState(state).Some? && ParseState(state).value !in registry ==>
      r == Failure(NullStrategy)
    ensures userId in db.users && ParseState(state).Some? && ParseState(state).value in registry
            && |OwnedItemIds(db, userId)| <= IntMax ==>
      r == LegacyRun(registry[ParseState(state).value], db.bookings, ItemSet(OwnedItemIds(db, userId)), from, size, now)
    ensures r.Success? ==>
      && ParseState(state).Some? && ParseState(state).value in registry
      && forall b :: b in r.value ==>
           b in db.bookings && ItemOwner(db, b.item) == Some(userId) && InCategory(registry[ParseState(state).value], b, now)
  {
    if userId !in db.users then Failure(NotFound(UserMissing(userId)))
    else
      var itemIds := OwnedIdsWindow(db, userId);
      var st :- ResolveStrategy(registry, state);
      LegacyRun(st, db.bookings, ItemSet(itemIds), from, size, now)
  }

  /** With neither `from` nor `size`, the earlier owner listing for ALL returns exactly the
      bookings of the items the user owns. */
  lemma LegacyOwnerListingDefaultsListAll(db: Db, userId: int, now: int)
    requires userId in db.users && |db.bookings| <= IntMax && |OwnedItemIds(db, userId)| <= IntMax
    ensures var r := LegacyGetAllOwnerBookings(db, AppRegistry(), userId, "ALL", None, None, now);
      && r.Success?
      && forall b :: b in r.value <==> b in db.bookings && ItemOwner(db, b.item) == Some(userId)
  {
    var ids := OwnedItemIds(db, userId);
    LegacyOwnerListingIsAllStrategy(db, userId, now);
    LegacyAllDefaultsReturnEverything(db.bookings, ItemSet(ids), now);
  }

  lemma LegacyOwnerListingIsAllStrategy(db: Db, userId: int, now: int)
    requires userId in db.users && |OwnedItemIds(db, userId)| <= IntMax
    ensures LegacyGetAllOwnerBookings(db, AppRegistry(), userId, "ALL", None, None, now)
      == LegacyRun(StateAll, db.bookings, ItemSet(OwnedItemIds(db, userId)), None, None, now)
  {
    AppRegistryIsTotal(ALL);
    assert ParseState("ALL") == Some(ALL) && AppRegistry()[ALL] == StateAll;
  }

  /** An offset that is a multiple `k` of the size selects page `k`. */
  lemma ListingPageOfMultiple(db: Db, userId: int, k: nat, size: int)
    requires userId in db.users && 0 < size
    ensures ListingPage(db, userId, k * size, size) == Success(Pageable(k, size, Some(Desc)))
  {
    var p := ListingPage(db, userId, k * size, size).value;
    PageIndexOfMultiple(p.page, k, size);
  }

  /** Paging the booker's ALL listing loses nothing: each of the booker's bookings is on the
      page that some offset selects. */
  lemma UserAllListingCoversBookings(db: Db, userId: int, size: int, b: Booking, now: int)
    requires userId in db.users && 0 < size && b in db.bookings && b.booker == userId
    ensures exists from ::
      && 0 <= from
      && GetAllUserBookings(db, AppRegistry(), userId, "ALL", from, size, now).Success?
      && b in GetAllUserBookings(db, AppRegistry(), userId, "ALL", from, size, now).value
  {
    AllPagesCoverSubject(db.bookings, Booker(userId), size, Some(Desc), b, now);
    var k :| 0 <= k && b in Run(StateAll, db.bookings, Booker(userId), Pageable(k, size, Some(Desc)), now);
    UserAllListingAt(db, userId, k, size, now);
  }

  /** The booker's ALL listing at offset `k * size` is page `k` of the ALL strategy. */
  lemma UserAllListingAt(db: Db, userId: int, k: nat, size: int, now: int)
    requires userId in db.users && 0 < size
    ensures GetAllUserBookings(db, AppRegistry(), userId, "ALL", k * size, size, now)
      == Success(Run(StateAll, db.bookings, Booker(userId), Pageable(k, size, Some(Desc)), now))
  {
    ListingPageOfMultiple(db, userId, k, size);
    AppRegistryIsTotal(ALL);
    assert ResolveStrategy(AppRegistry(), "ALL") == Success(StateAll);
  }

  /** The same for the owner's ALL listing and the bookings on the owner's items. */
  lemma OwnerAllListingCoversBookings(db: Db, userId: int, size: int, b: Booking, now: int)
    requires userId in db.users && 0 < size && b in db.bookings && ItemOwner(db, b.item) == Some(userId)
    ensures exists from ::
      && 0 <= from
      && GetAllOwnerBookings(db, AppRegistry(), userId, "ALL", from, size, now).Success?
      && b in GetAllOwnerBookings(db, AppRegistry(), userId, "ALL", from, size, now).value
  {
    var ids := OwnedItemIds(db, userId);
    assert InSubject(ItemSet(ids), b);
    AllPagesCoverSubject(db.bookings, ItemSet(ids), size, Some(Desc), b, now);
    var k :| 0 <= k && b in Run(StateAll, db.bookings, ItemSet(ids), Pageable(k, size, Some(Desc)), now);
    OwnerAllListingAt(db, userId, k, size, now);
  }

  /** The owner's ALL listing at offset `k * size` is page `k` of the ALL strategy over the
      owner's items. */
  lemma OwnerAllListingAt(db: Db, userId: int, k: nat, size: int, now: int)
    requires userId in db.users && 0 < size
    ensures GetAllOwnerBookings(db, AppRegistry(), userId, "ALL", k * size, size, now)
      == Success(Run(StateAll, db.bookings, ItemSet(OwnedItemIds(db, userId)), Pageable(k, size, Some(Desc)), now))
  {
    ListingPageOfMultiple(db, userId, k, size);
    AppRegistryIsTotal(ALL);
    assert ResolveStrategy(AppRegistry(), "ALL") == Success(StateAll);
  }

  /** Lookup after the status update finds the same booking with the new status. */
  lemma {:induction false} FindAfterSetStatus(bookings: seq<Booking>, bookingId: int, id: int, status: Status)
    ensures FindBooking(SetStatus(bookings, bookingId, status), id) ==
      match FindBooking(bookings, id)
      case None => None
      case Some(b) => Some(if id == bookingId then b.(status := status) else b)
  {
    if |bookings| > 0 {
      var rest := SetStatus(bookings, bookingId, status);
      assert rest[1..] == SetStatus(bookings[1..], bookingId, status);
      FindAfterSetStatus(bookings[1..], bookingId, id, status);
    }
  }

  /** A lookup by an id that no earlier row has finds the appended row. */
  lemma {:induction false} FindAppended(bookings: seq<Booking>, b: Booking)
    requires forall x :: x in bookings ==> x.id != b.id
    ensures FindBooking(bookings + [b], b.id) == Some(b)
  {
    if |bookings| > 0 {
      assert (bookings + [b])[1..] == bookings[1..] + [b];
      FindAppended(bookings[1..], b);
    }
  }

  /** Creating a booking keeps the store well formed: the new id is fresh and the booker is
      not the owner. */
  lemma AddPreservesWellFormed(db: Db, req: BookingRequest, bookerId: int)
    requires WellFormed(db)
    ensures WellFormed(AddBooking(db, req, bookerId).state)
  {
  }

  /** A booking just created can be read back by its booker and by the item's owner. */
  lemma CreatedBookingIsVisible(db: Db, req: BookingRequest, bookerId: int)
    requires WellFormed(db)
    requires AddBooking(db, req, bookerId).result.Success?
    ensures var step := AddBooking(db, req, bookerId);
      var b := step.result.value;
      && GetBooking(step.state, bookerId, b.id) == Success(b)
      && GetBooking(step.state, db.items[req.itemId].owner, b.id) == Success(b)
  {
    var step := AddBooking(db, req, bookerId);
    FindAppended(db.bookings, step.result.value);
  }

  /** Deciding keeps the store well formed. */
  lemma DecidePreservesWellFormed(db: Db, userId: int, bookingId: int, approved: bool)
    requires WellFormed(db)
    ensures WellFormed(UpdateBookingStatus(db, userId, bookingId, approved).state)
  {
    var status := Decision(approved);
    var after := SetStatus(db.bookings, bookingId, status);
    forall b | b in after
      ensures b.id < db.nextBookingId
      ensures b.item in db.items ==> db.items[b.item].owner != b.booker
    {
      var i :| 0 <= i < |after| && after[i] == b;
      assert db.bookings[i] in db.bookings;
    }
  }

  /** In a well-formed store the booker can never decide on their own booking. */
  lemma BookerCannotDecide(db: Db, bookingId: int, approved: bool)
    requires WellFormed(db)
    requires FindBooking(db.bookings, bookingId).Some?
    ensures var b := FindBooking(db.bookings, bookingId).value;
      var step := UpdateBookingStatus(db, b.booker, bookingId, approved);
      && step.state == db
      && step.result == Failure(NotFound(if b.item in db.items then UserMissing(b.booker) else ItemMissing(b.item)))
  {
  }

  /** Once approved, a booking cannot be decided again: the second call is refused with
      the "already APPROVED" StateException and changes nothing. */
  lemma ApprovalIsFinal(db: Db, userId: int, bookingId: int, again: bool)
    requires UpdateBookingStatus(db, userId, bookingId, true).result.Success?
    ensures var after := UpdateBookingStatus(db, userId, bookingId, true).state;
      UpdateBookingStatus(after, userId, bookingId, again) == Step(after, Failure(StateError(AlreadyApprovedMessage)))
  {
    var after := UpdateBookingStatus(db, userId, bookingId, true).state;
    FindAfterSetStatus(db.bookings, bookingId, bookingId, APPROVED);
  }

  /** A rejection is not final: the owner can still approve a rejected booking. */
  lemma RejectionCanBeReversed(db: Db, userId: int, bookingId: int)
    requires UpdateBookingStatus(db, userId, bookingId, false).result.Success?
    ensures var after := UpdateBookingStatus(db, userId, bookingId, false).state;
      var step := UpdateBookingStatus(after, userId, bookingId, true);
      step.result.Success? && step.result.value.status == APPROVED
  {
    FindAfterSetStatus(db.bookings, bookingId, bookingId, REJECTED);
  }

  /** With the application's registry, the booker's listing fails only for the reasons the
      service names, and every category other than ALL lists exactly the booker's bookings
      in that category. */
  lemma UserListingWithAppRegistry(db: Db, userId: int, state: string, from: int, size: int, now: int)
    ensures var r := GetAllUserBookings(db, AppRegistry(), userId, state, from, size, now);
      && (r.Success? <==> 0 <= from && userId in db.users && 0 < size && ParseState(state).Some?)
      && (r.Success? && ParseState(state) != Some(ALL) ==>
            forall b :: b in r.value <==>
              b in db.bookings && b.booker == userId && InCategory(AppRegistry()[ParseState(state).value], b, now))
  {
    match ParseState(state)
    case None =>
    case Some(s) =>
      AppRegistryIsTotal(s);
      var st := FindStrategy(AppRegistry(), s).value;
      assert ResolveStrategy(AppRegistry(), state) == Success(st);
      if 0 <= from && userId in db.users && 0 < size {
        var p := ListingPage(db, userId, from, size).value;
        assert GetAllUserBookings(db, AppRegistry(), userId, state, from, size, now)
          == Success(FindBookings(st, db.bookings, userId, p, now));
      }
  }

  /** The same for the owner's listing, over the bookings of the items the owner has. */
  lemma OwnerListingWithAppRegistry(db: Db, userId: int, state: string, from: int, size: int, now: int)
    ensures var r := GetAllOwnerBookings(db, AppRegistry(), userId, state, from, size, now);
      && (r.Success? <==> 0 <= from && userId in db.users && 0 < size && ParseState(state).Some?)
      && (r.Success? && ParseState(state) != Some(ALL) ==>
            forall b :: b in r.value <==>
              b in db.bookings && ItemOwner(db, b.item) == Some(userId) &&
              InCategory(AppRegistry()[ParseState(state).value], b, now))
  {
    match ParseState(state)
    case None =>
    case Some(s) =>
      AppRegistryIsTotal(s);
      var st := FindStrategy(AppRegistry(), s).value;
      assert ResolveStrategy(AppRegistry(), state) == Success(st);
      if 0 <= from && userId in db.users && 0 < size {
        var p := ListingPage(db, userId, from, size).value;
        assert GetAllOwnerBookings(db, AppRegistry(), userId, state, from, size, now)
          == Success(FindBookingsByItemIds(st, db.bookings, OwnedItemIds(db, userId), p, now));
      }
  }
}

=== FILE: date_validator.dfy ===
/** The gateway's constraint on a booking request's dates. */
module DateTimeValidator {
  import opened Wrappers

  /** `isValid`: a null start or end is invalid, a start after the end is invalid, and a
      start equal to the end is invalid. */
  function IsValid(start: Option<int>, end: Option<int>): (r: bool)
    ensures r <==> start.Some? && end.Some? && start.value < end.value
  {
    if start.None? || end.None? then false
    else if start.value > end.value then false
    else start.value != end.value
  }

  /** Each rejection rule of the validator on its own. */
  lemma RejectionRules(start: Option<int>, end: Option<int>)
    ensures start.None? || end.None? ==> !IsValid(start, end)
    ensures start.Some? && end.Some? && start.value > end.value ==> !IsValid(start, end)
    ensures start.Some? && end.Some? && start.value == end.value ==> !IsValid(start, end)
  {
  }
}

=== FILE: domain.dfy ===
/** Entities, enums and the error taxonomy shared by every service of the rental backend.
    Timestamps are integers (the wall clock is a parameter `now`), ids are integers, and
    foreign references (booker, item owner, request author) are stored as ids. */
module Domain {
  import opened Wrappers

  /** Java's Integer.MAX_VALUE, used as a "no limit" page size. */
  const IntMax: int := 0x7fff_ffff

  /** Lifecycle status of a booking. */
  datatype Status = WAITING | APPROVED | REJECTED

  /** Category token accepted by the listing endpoints. */
  datatype State = ALL | CURRENT | PAST | FUTURE | WAITING_STATE | REJECTED_STATE

  /** The enum constant's name, as `State.name()` prints it. */
  function StateName(s: State): string {
    match s
    case ALL => "ALL"
    case CURRENT => "CURRENT"
    case PAST => "PAST"
    case FUTURE => "FUTURE"
    case WAITING_STATE => "WAITING"
    case REJECTED_STATE => "REJECTED"
  }

  /** `State.valueOf(token)`: a case-sensitive exact match against the constant names;
      any other token is the IllegalArgumentException branch (None). */
  function ParseState(token: string): (r: Option<State>)
    ensures r.Some? ==> StateName(r.value) == token
    ensures r.None? ==> forall s: State :: StateName(s) != token
  {
    if token == "ALL" then Some(ALL)
    else if token == "CURRENT" then Some(CURRENT)
    else if token == "PAST" then Some(PAST)
    else if token == "FUTURE" then Some(FUTURE)
    else if token == "WAITING" then Some(WAITING_STATE)
    else if token == "REJECTED" then Some(REJECTED_STATE)
    else None
  }

  /** Parsing an enum constant's own name gives the constant back. */
  lemma ParseStateName(s: State)
    ensures ParseState(StateName(s)) == Some(s)
  {
  }

  datatype User = User(id: int, name: Option<string>, email: string)

  datatype Item = Item(
    id: int,
    name: string,
    description: string,
    available: bool,
    owner: int,
    requestId: Option<int>)

  datatype Booking = Booking(
    id: int,
    start: int,
    end: int,
    status: Status,
    booker: int,
    item: int)

  datatype Comment = Comment(id: int, text: string, item: int, author: int, created: int)

  datatype ItemRequest = ItemRequest(id: int, description: string, author: int, created: int)

  /** What a NotFoundException names in its message. */
  datatype Missing =
    | UserMissing(userId: int)        // "USER с id %s не существует"
    | ItemMissing(itemId: int)        // "ITEM с id %s не существует"
    | BookingMissing(bookingId: int)  // booking not found
    | OwnItem                         // "Нельзя взять в аренду свою вещь."
    | IdMissing(id: int)              // "Id %s не найден" (in-memory item repository)

  /** Why an ItemException was thrown. */
  datatype ItemProblem =
    | Unavailable(itemId: int)                 // "Item с id %s недоступен."
    | NeverRented(userId: int, itemId: int)    // "USER с id %s не брал ITEM c id %s"

  /** The exceptions the services throw, one constructor per Java exception class,
      plus the runtime faults the code lets escape. */
  datatype Error =
    | NotFound(missing: Missing)               // NotFoundException
    | ItemError(problem: ItemProblem)          // ItemException
    | StateError(message: string)              // StateException
    | AccessDenied(userId: int, itemId: int)   // AccessDeniedException
    | EmailError(email: string)                // EmailException
    | UpdateError(userId: int)                 // UpdateException
    | NegativeFrom                             // RuntimeException "from не может быть меньше 0"
    | DivisionByZero                           // ArithmeticException from `from / size`
    | IllegalPageRequest                       // IllegalArgumentException from PageRequest.of
    | NullStrategy                             // NullPointerException on an unregistered strategy
    | NoSuchElement                            // NoSuchElementException from Optional.get()
    | QueryRejected                            // negative OFFSET or LIMIT refused by the database

  /** The outcome of an operation on a store: the store afterwards and the returned value
      or the thrown exception. */
  datatype Step<S, T> = Step(state: S, result: Result<T, Error>)

  /** Message of the StateException for an unparsable category token. */
  function UnknownStateMessage(token: string): string {
    "Unknown state: " + token
  }
}

=== FILE: item_patch.dfy ===
/** The partial update both item stores apply: each of name, description and availability is
    overwritten only when the incoming value is non-null. */
module ItemPatch {
  import opened Wrappers
  import opened Domain

  /** The updatable fields of an incoming item; None stands for a null field. */
  datatype Patch = Patch(name: Option<string>, description: Option<string>, available: Option<bool>)

  const NoChange: Patch := Patch(None, None, None)

  function ApplyPatch(item: Item, p: Patch): (r: Item)
    ensures r.id == item.id && r.owner == item.owner && r.requestId == item.requestId
    ensures p.name.Some? ==> r.name == p.name.value
    ensures p.name.None? ==> r.name == item.name
    ensures p.description.Some? ==> r.description == p.description.value
    ensures p.description.None? ==> r.description == item.description
    ensures p.available.Some? ==> r.available == p.available.value
    ensures p.available.None? ==> r.available == item.available
  {
    item.(name := p.name.GetOr(item.name),
          description := p.description.GetOr(item.description),
          available := p.available.GetOr(item.available))
  }

  /** Later non-null fields win over earlier ones. */
  function Then(first: Patch, second: Patch): Patch {
    Patch(if second.name.Some? then second.name else first.name,
          if second.description.Some? then second.description else first.description,
          if second.available.Some? then second.available else first.available)
  }

  /** An all-null update changes nothing. */
  lemma NoChangeIsIdentity(item: Item)
    ensures ApplyPatch(item, NoChange) == item
  {
  }

  /** Applying the same update twice is applying it once. */
  lemma PatchIdempotent(item: Item, p: Patch)
    ensures ApplyPatch(ApplyPatch(item, p), p) == ApplyPatch(item, p)
  {
  }

  /** Two successive updates act as one update where the later non-null fields win. */
  lemma PatchesCompose(item: Item, p: Patch, q: Patch)
    ensures ApplyPatch(ApplyPatch(item, p), q) == ApplyPatch(item, Then(p, q))
  {
  }
}

=== FILE: item_repository.dfy ===
/** The earlier generation's in-memory item store: a map from id to item and an id counter
    starting at 1. */
module ItemRepository {
  import opened Wrappers
  import opened Domain
  import opened ItemPatch
  import opened Text
  import opened Store

  datatype ItemRepo = ItemRepo(items: map<int, Item>, nextId: int)

  const Empty: ItemRepo := ItemRepo(map[], 1)

  /** Every stored item carries its own key, and every key is below the counter. */
  ghost predicate Valid(repo: ItemRepo) {
    && 1 <= repo.nextId
    && forall id :: id in repo.items ==> repo.items[id].id == id && id < repo.nextId
  }

  lemma EmptyIsValid()
    ensures Valid(Empty)
  {
  }

  /** `createItem`: the item gets the counter as its id and is stored under it; the counter
      advances. */
  function CreateItem(repo: ItemRepo, item: Item): (r: (ItemRepo, Item))
    ensures r.1 == item.(id := repo.nextId)
    ensures r.0.nextId == repo.nextId + 1
    ensures r.0.items.Keys == repo.items.Keys + {repo.nextId}
    ensures r.0.items[repo.nextId] == r.1
    ensures forall id :: id in repo.items && id != repo.nextId ==> r.0.items[id] == repo.items[id]
  {
    var stored := item.(id := repo.nextId);
    (ItemRepo(repo.items[repo.nextId := stored], repo.nextId + 1), stored)
  }

  /** `findById`: present exactly when the id is a key. */
  function FindById(repo: ItemRepo, itemId: int): (r: Option<Item>)
    ensures r.Some? <==> itemId in repo.items
    ensures r.Some? ==> r.value == repo.items[itemId]
  {
    if itemId in repo.items then Some(repo.items[itemId]) else None
  }

  /** `updateItem`: an unknown id is a NotFoundException ("Id X не найден"); otherwise the
      non-null fields of the incoming item overwrite those of the stored one. */
  function UpdateItem(repo: ItemRepo, p: Patch, itemId: int): (r: Step<ItemRepo, Item>)
    ensures itemId !in repo.items ==> r == Step(repo, Failure(NotFound(IdMissing(itemId))))
    ensures itemId in repo.items ==>
      && r.result == Success(ApplyPatch(repo.items[itemId], p))
      && r.state.nextId == repo.nextId
      && r.state.items.Keys == repo.items.Keys
      && r.state.items[itemId] == r.result.value
      && forall id :: id in repo.items && id != itemId ==> r.state.items[id] == repo.items[id]
  {
    match FindById(repo, itemId)
    case None => Step(repo, Failure(NotFound(IdMissing(itemId))))
    case Some(stored) =>
      var updated := ApplyPatch(stored, p);
      Step(repo.(items := repo.items[itemId := updated]), Success(updated))
  }

  /** The stored items in iteration order, taken to be ascending id. */
  function Values(repo: ItemRepo): (r: seq<Item>)
    ensures forall x :: x in r <==> x in repo.items.Values
  {
    ValuesById(repo.items)
  }

  /** `findAllByUserId`: exactly the items of that owner. */
  function FindAllByUserId(repo: ItemRepo, userId: int): (r: seq<Item>)
    ensures forall x :: x in r <==> x in repo.items.Values && x.owner == userId
  {
    Select(Values(repo), (x: Item) => x.owner == userId)
  }

  /** The search condition: available, and the name or the description contains the text
      ignoring case. */
  predicate Matches(x: Item, text: string) {
    x.available && (ContainsIgnoreCase(x.name, text) || ContainsIgnoreCase(x.description, text))
  }

  /** `searchItems`: exactly the matching items. There is no blank-text guard here. */
  function SearchItems(repo: ItemRepo, text: string): (r: seq<Item>)
    ensures forall x :: x in r <==> x in repo.items.Values && Matches(x, text)
  {
    Select(Values(repo), (x: Item) => Matches(x, text))
  }

  /** Creating keeps the store valid, and the new id was free. */
  lemma CreatePreservesValid(repo: ItemRepo, item: Item)
    requires Valid(repo)
    ensures repo.nextId !in repo.items
    ensures Valid(CreateItem(repo, item).0)
  {
  }

  /** Ids handed out by two successive creations are distinct and increasing. */
  lemma CreatedIdsIncrease(repo: ItemRepo, a: Item, b: Item)
    ensures var (repo1, x) := CreateItem(repo, a);
      var (_, y) := CreateItem(repo1, b);
      x.id < y.id
  {
  }

  /** A created item can be found under its id. */
  lemma CreatedIsFound(repo: ItemRepo, item: Item)
    ensures var (after, stored) := CreateItem(repo, item);
      FindById(after, stored.id) == Some(stored)
  {
  }

  /** Updating keeps the store valid. */
  lemma UpdatePreservesValid(repo: ItemRepo, p: Patch, itemId: int)
    requires Valid(repo)
    ensures Valid(UpdateItem(repo, p, itemId).state)
  {
  }

  /** An unguarded empty search returns every available item. */
  lemma EmptySearchReturnsAvailable(repo: ItemRepo)
    ensures forall x :: x in SearchItems(repo, "") <==> x in repo.items.Values && x.available
  {
    forall x ensures Matches(x, "") <==> x.available {
      EmptyNeedleMatches(x.name);
    }
  }
}

=== FILE: item_service.dfy ===
/** The item use cases over the relational store: create, partial update by the owner,
    read with next/last booking and comments, list the owner's items, search, and comment
    on an item one has rented. The current generation pages the owner's listing and links an
    item to the request it answers; the earlier one does neither. */
module ItemService {
  import opened Wrappers
  import opened Domain
  import opened Ordering
  import opened Paging
  import opened BookingSpecification
  import opened ItemPatch
  import opened Text
  import opened Store

  /** The fields of a new item (the gateway rejects a request with a null name,
      description or availability). */
  datatype ItemDraft = ItemDraft(name: string, description: string, available: bool, requestId: Option<int>)

  /** What the item endpoints return: the item, its next and last booking and its comments. */
  datatype ItemView = ItemView(item: Item, next: Option<Booking>, last: Option<Booking>, comments: seq<Comment>)

  /** Items are stored under their own id, below the identity counter. */
  ghost predicate ItemsWellFormed(db: Db) {
    forall id :: id in db.items ==> db.items[id].id == id && id < db.nextItemId
  }

  /** `createItem` (current generation): the user must exist; a request id, when given, is
      read with `Optional.get()`, so an unknown one is a NoSuchElementException. */
  function CreateItem(db: Db, draft: ItemDraft, userId: int): (r: Step<Db, Item>)
    ensures r.result.Failure? ==> r.state == db
    ensures userId !in db.users ==> r.result == Failure(NotFound(UserMissing(userId)))
    ensures userId in db.users && draft.requestId.Some? && FindRequest(db.requests, draft.requestId.value).None? ==>
      r.result == Failure(NoSuchElement)
    ensures r.result.Success? <==>
      userId in db.users && (draft.requestId.None? || FindRequest(db.requests, draft.requestId.value).Some?)
    ensures r.result.Success? ==>
      var x := r.result.value;
      && x == Item(db.nextItemId, draft.name, draft.description, draft.available, userId, draft.requestId)
      && r.state == db.(items := db.items[x.id := x], nextItemId := db.nextItemId + 1)
  {
    if userId !in db.users then Step(db, Failure(NotFound(UserMissing(userId))))
    else if draft.requestId.Some? && FindRequest(db.requests, draft.requestId.value).None? then
      Step(db, Failure(NoSuchElement))
    else
      var x := Item(db.nextItemId, draft.name, draft.description, draft.available, userId, draft.requestId);
      Step(db.(items := db.items[x.id := x], nextItemId := db.nextItemId + 1), Success(x))
  }

  /** `createItem` (earlier generation): the user must exist; the request id is not read. */
  function LegacyCreateItem(db: Db, draft: ItemDraft, userId: int): (r: Step<Db, Item>)
    ensures r.result.Failure? ==> r.state == db
    ensures r.result.Success? <==> userId in db.users
    ensures userId !in db.users ==> r.result == Failure(NotFound(UserMissing(userId)))
    ensures r.result.Success? ==>
      var x := r.result.value;
      && x == Item(db.nextItemId, draft.name, draft.description, draft.available, userId, None)
      && r.state == db.(items := db.items[x.id := x], nextItemId := db.nextItemId + 1)
  {
    CreateItem(db, draft.(requestId := None), userId)
  }

  /** `updateItem` (current generation): an unknown item is a NotFoundException naming the
      item; a caller who is not the owner gets AccessDeniedException; otherwise the
      non-null fields overwrite the stored ones and nothing else changes. */
  function UpdateItem(db: Db, p: Patch, userId: int, itemId: int): (r: Step<Db, Item>)
    ensures r.result.Failure? ==> r.state == db
    ensures itemId !in db.items ==> r.result == Failure(NotFound(ItemMissing(itemId)))
    ensures itemId in db.items && db.items[itemId].owner != userId ==>
      r.result == Failure(AccessDenied(userId, itemId))
    ensures r.result.Success? <==> itemId in db.items && db.items[itemId].owner == userId
    ensures r.result.Success? ==>
      && r.result.value == ApplyPatch(db.items[itemId], p)
      && r.state == db.(items := db.items[itemId := r.result.value])
  {
    if itemId !in db.items then Step(db, Failure(NotFound(ItemMissing(itemId))))
    else if db.items[itemId].owner != userId then Step(db, Failure(AccessDenied(userId, itemId)))
    else
      var updated := ApplyPatch(db.items[itemId], p);
      Step(db.(items := db.items[itemId := updated]), Success(updated))
  }

  /** `updateItem` as the earlier generation writes it: an unknown item is reported with the
      "user not found" message for the caller's id. */
  function LegacyUpdateItem(db: Db, p: Patch, userId: int, itemId: int): (r: Step<Db, Item>)
    ensures itemId !in db.items ==> r == Step(db, Failure(NotFound(UserMissing(userId))))
    ensures itemId in db.items ==> r == UpdateItem(db, p, userId, itemId)
  {
    if itemId !in db.items then Step(db, Failure(NotFound(UserMissing(userId))))
    else UpdateItem(db, p, userId, itemId)
  }

  /** The earlier generation's message names the caller, not the missing item: with user 1
      registered and no item 7, the update reports "USER с id 1 не существует". */
  lemma LegacyUpdateBlamesUser()
    ensures var db := Db(map[1 := User(1, Some("owner"), "owner@mail.ru")], map[], [], [], [], 1, 1, 1, 1);
      && LegacyUpdateItem(db, NoChange, 1, 7).result == Failure(NotFound(UserMissing(1)))
      && UpdateItem(db, NoChange, 1, 7).result == Failure(NotFound(ItemMissing(7)))
      && 1 in db.users
  {
  }

  /** A booking that could be shown as the item's next one. */
  predicate IsNextCandidate(b: Booking, itemId: int, now: int) {
    b.item == itemId && b.status == APPROVED && b.start > now
  }

  /** A booking that could be shown as the item's last one. */
  predicate IsLastCandidate(b: Booking, itemId: int, now: int) {
    b.item == itemId && b.status == APPROVED && b.start < now
  }

  /** The specification `getNextBooking` queries with; `NextSpecMeaning` states what it selects. */
  function NextSpec(itemId: int): Spec {
    And(And(And(ByItemId(itemId), ByStatus(APPROVED)), StartDateIsAfter), OrderByAsc)
  }

  /** The specification `getLastBooking` queries with; `LastSpecMeaning` states what it selects. */
  function LastSpec(itemId: int): Spec {
    And(And(ByItemId(itemId), ByStatus(APPROVED)), StartDateIsBefore)
  }

  lemma NextSpecMeaning(itemId: int, c: Booking, now: int)
    ensures Holds(NextSpec(itemId), c, now) <==> IsNextCandidate(c, itemId, now)
    ensures OrderOf(NextSpec(itemId)) == Some(StartAsc)
  {
    var s1 := And(ByItemId(itemId), ByStatus(APPROVED));
    var s2 := And(s1, StartDateIsAfter);
    assert Holds(s1, c, now) <==> c.item == itemId && c.status == APPROVED;
    assert Holds(s2, c, now) <==> Holds(s1, c, now) && c.start > now;
    assert Holds(NextSpec(itemId), c, now) <==> Holds(s2, c, now);
  }

  lemma LastSpecMeaning(itemId: int, c: Booking, now: int)
    ensures Holds(LastSpec(itemId), c, now) <==> IsLastCandidate(c, itemId, now)
    ensures OrderOf(LastSpec(itemId)) == Some(StartDesc)
  {
    var s1 := And(ByItemId(itemId), ByStatus(APPROVED));
    assert Holds(s1, c, now) <==> c.item == itemId && c.status == APPROVED;
    assert Holds(LastSpec(itemId), c, now) <==> Holds(s1, c, now) && c.start < now;
    assert OrderOf(s1) == Some(StartDesc);
  }

  /** `getNextBooking`: the first row of page (0, 1) of the item's approved bookings that
      start after now, in ascending start order — the earliest upcoming one. */
  function NextBooking(bookings: seq<Booking>, itemId: int, now: int): (r: Option<Booking>)
    ensures r.None? <==> forall c :: c in bookings ==> !IsNextCandidate(c, itemId, now)
    ensures r.Some? ==>
      && r.value in bookings && IsNextCandidate(r.value, itemId, now)
      && forall c :: c in bookings && IsNextCandidate(c, itemId, now) ==> r.value.start <= c.start
  {
    var p := Pageable(0, 1, None);
    NextSpecMeaning(itemId, Booking(0, 0, 0, WAITING, 0, 0), now);
    assert PagedOrder(NextSpec(itemId), p) == Some(StartAsc);
    assert forall c :: Holds(NextSpec(itemId), c, now) <==> IsNextCandidate(c, itemId, now) by {
      forall c ensures Holds(NextSpec(itemId), c, now) <==> IsNextCandidate(c, itemId, now) {
        NextSpecMeaning(itemId, c, now);
      }
    }
    var page := FindAllPaged(bookings, NextSpec(itemId), now, p);
    if |page| == 0 then None else Some(page[0])
  }

  /** `getLastBooking`: the first row of page (0, 1) of the item's approved bookings that
      started before now; `byItemId` leaves start-descending order, so it is the latest one. */
  function LastBooking(bookings: seq<Booking>, itemId: int, now: int): (r: Option<Booking>)
    ensures r.None? <==> forall c :: c in bookings ==> !IsLastCandidate(c, itemId, now)
    ensures r.Some? ==>
      && r.value in bookings && IsLastCandidate(r.value, itemId, now)
      && forall c :: c in bookings && IsLastCandidate(c, itemId, now) ==> c.start <= r.value.start
  {
    var p := Pageable(0, 1, None);
    LastSpecMeaning(itemId, Booking(0, 0, 0, WAITING, 0, 0), now);
    assert PagedOrder(LastSpec(itemId), p) == Some(StartDesc);
    assert forall c :: Holds(LastSpec(itemId), c, now) <==> IsLastCandidate(c, itemId, now) by {
      forall c ensures Holds(LastSpec(itemId), c, now) <==> IsLastCandidate(c, itemId, now) {
        LastSpecMeaning(itemId, c, now);
      }
    }
    var page := FindAllPaged(bookings, LastSpec(itemId), now, p);
    assert |page| > 0 ==> forall c :: c in bookings && IsLastCandidate(c, itemId, now) ==>
      Key(StartDesc, page[0]) <= Key(StartDesc, c);
    if |page| == 0 then None else Some(page[0])
  }

  /** `commentRepository.findAllByItemId(itemId)`. */
  function CommentsOf(comments: seq<Comment>, itemId: int): (r: seq<Comment>)
    ensures forall c :: c in r <==> c in comments && c.item == itemId
  {
    Select(comments, (c: Comment) => c.item == itemId)
  }

  /** `getItem` (both generations): an unknown item is a NotFoundException; the viewer is not
      checked; next and last booking are filled in only for the owner. */
  function GetItem(db: Db, userId: int, itemId: int, now: int): (r: Result<ItemView, Error>)
    ensures itemId !in db.items ==> r == Failure(NotFound(ItemMissing(itemId)))
    ensures r.Success? <==> itemId in db.items
    ensures r.Success? ==> r.value.item == db.items[itemId]
    ensures r.Success? && db.items[itemId].owner != userId ==> r.value.next.None? && r.value.last.None?
    ensures r.Success? && db.items[itemId].owner == userId ==>
      r.value.next == NextBooking(db.bookings, itemId, now) && r.value.last == LastBooking(db.bookings, itemId, now)
    ensures r.Success? ==> forall c :: c in r.value.comments <==> c in db.comments && c.item == itemId
  {
    if itemId !in db.items then Failure(NotFound(ItemMissing(itemId)))
    else
      var item := db.items[itemId];
      var isOwner := item.owner == userId;
      Success(ItemView(item,
                       if isOwner then NextBooking(db.bookings, itemId, now) else None,
                       if isOwner then LastBooking(db.bookings, itemId, now) else None,
                       CommentsOf(db.comments, itemId)))
  }

  predicate ApprovedOf(b: Booking, itemId: int) {
    b.status == APPROVED && b.item == itemId
  }

  /** Index of the first approved booking of `itemId` in `s`, or |s| when there is none. */
  function FirstApprovedIndex(s: seq<Booking>, itemId: int): (i: nat)
    ensures i <= |s|
    ensures i < |s| ==> ApprovedOf(s[i], itemId)
    ensures forall j :: 0 <= j < i ==> !ApprovedOf(s[j], itemId)
  {
    if |s| == 0 || ApprovedOf(s[0], itemId) then 0
    else 1 + FirstApprovedIndex(s[1..], itemId)
  }

  /** `stream().filter(approved of the item).findFirst()`. */
  function FirstApprovedOf(s: seq<Booking>, itemId: int): (r: Option<Booking>)
    ensures r.None? <==> forall b :: b in s ==> !ApprovedOf(b, itemId)
    ensures r.Some? ==> r.value in s && ApprovedOf(r.value, itemId)
    ensures r.Some? ==>
      exists i :: 0 <= i < |s| && s[i] == r.value && forall j :: 0 <= j < i ==> !ApprovedOf(s[j], itemId)
  {
    var i := FirstApprovedIndex(s, itemId);
    if i < |s| then Some(s[i]) else None
  }

  /** `findFirst` skips a leading booking that is not an approved one of the item. */
  lemma FirstApprovedOfTail(s: seq<Booking>, itemId: int)
    requires |s| > 0 && !ApprovedOf(s[0], itemId)
    ensures FirstApprovedOf(s, itemId) == FirstApprovedOf(s[1..], itemId)
  {
  }

  /** In a list sorted by a key, the first approved booking of the item has the least key
      among all approved bookings of the item in the list. */
  lemma FirstInSortedIsLeast(s: seq<Booking>, key: Booking -> int, itemId: int, c: Booking)
    requires SortedBy(s, key)
    requires FirstApprovedOf(s, itemId).Some?
    requires c in s && ApprovedOf(c, itemId)
    ensures key(FirstApprovedOf(s, itemId).value) <= key(c)
  {
    var i := FirstApprovedIndex(s, itemId);
    var k :| 0 <= k < |s| && s[k] == c;
    assert i <= k;
  }

  /** The bookings starting after now, in ascending start order. */
  function UpcomingBookings(db: Db, now: int): (r: seq<Booking>)
    ensures forall b :: b in r <==> b in db.bookings && b.start > now
    ensures SortedBy(r, KeyOf(StartAsc))
  {
    var spec := And(StartDateIsAfter, OrderByAsc);
    assert OrderOf(spec) == Some(StartAsc);
    assert forall b :: Holds(spec, b, now) <==> b.start > now;
    FindAll(db.bookings, spec, now)
  }

  /** The bookings that started before now, in the store's order. */
  function StartedBookings(db: Db, now: int): (r: seq<Booking>)
    ensures forall b :: b in r <==> b in db.bookings && b.start < now
  {
    FindAll(db.bookings, StartDateIsBefore, now)
  }

  /** The started bookings keep the store's order: there is no ORDER BY. */
  lemma StartedBookingsInStoreOrder(db: Db, now: int) returns (idx: seq<int>)
    ensures KeptInOrder(StartedBookings(db, now), db.bookings, idx)
  {
    idx := FilterKeepsOrder(db.bookings, StartDateIsBefore, now);
  }

  /** One entry of the owner's item list (`getAllItems`): next is the first approved booking
      of the item among all bookings starting after now in ascending start order; last is the
      first approved booking of the item among all bookings that started before now, in the
      store's order; and the item's comments. */
  function ListEntry(db: Db, item: Item, now: int): (r: ItemView)
    ensures r.item == item
    ensures r.next.None? <==> forall c :: c in db.bookings ==> !IsNextCandidate(c, item.id, now)
    ensures r.next.Some? ==>
      && r.next.value in db.bookings && IsNextCandidate(r.next.value, item.id, now)
      && forall c :: c in db.bookings && IsNextCandidate(c, item.id, now) ==> r.next.value.start <= c.start
    ensures r.last.None? <==> forall c :: c in db.bookings ==> !IsLastCandidate(c, item.id, now)
    ensures r.last.Some? ==> r.last.value in db.bookings && IsLastCandidate(r.last.value, item.id, now)
    ensures forall c :: c in r.comments <==> c in db.comments && c.item == item.id
  {
    var after := UpcomingBookings(db, now);
    var next := FirstApprovedOf(after, item.id);
    assert next.Some? ==> forall c :: c in db.bookings && IsNextCandidate(c, item.id, now) ==> next.value.start <= c.start by {
      if next.Some? {
        forall c | c in db.bookings && IsNextCandidate(c, item.id, now) ensures next.value.start <= c.start {
          FirstInSortedIsLeast(after, KeyOf(StartAsc), item.id, c);
        }
      }
    }
    ItemView(item, next, FirstApprovedOf(StartedBookings(db, now), item.id), CommentsOf(db.comments, item.id))
  }

  /** Store position of the first booking that could be the item's last one, or the store
      size when there is none. */
  function FirstLastCandidateIndex(s: seq<Booking>, itemId: int, now: int): (i: nat)
    ensures i <= |s|
    ensures i < |s| ==> IsLastCandidate(s[i], itemId, now)
    ensures forall j :: 0 <= j < i ==> !IsLastCandidate(s[j], itemId, now)
  {
    if |s| == 0 || IsLastCandidate(s[0], itemId, now) then 0
    else 1 + FirstLastCandidateIndex(s[1..], itemId, now)
  }

  /** Filtering the started bookings and then taking the first approved one of the item picks
      the first candidate in the store. */
  lemma {:induction false} FirstApprovedOfStarted(s: seq<Booking>, itemId: int, now: int)
    ensures FirstApprovedOf(Filter(s, StartDateIsBefore, now), itemId)
      == (var i := FirstLastCandidateIndex(s, itemId, now); if i < |s| then Some(s[i]) else None)
  {
    if |s| > 0 {
      var rest := Filter(s[1..], StartDateIsBefore, now);
      FirstApprovedOfStarted(s[1..], itemId, now);
      var i := FirstLastCandidateIndex(s[1..], itemId, now);
      if i < |s[1..]| {
        assert s[1 + i] == s[1..][i];
      }
      if Holds(StartDateIsBefore, s[0], now) {
        assert Filter(s, StartDateIsBefore, now) == [s[0]] + rest;
        if !ApprovedOf(s[0], itemId) {
          FirstApprovedOfTail([s[0]] + rest, itemId);
          assert ([s[0]] + rest)[1..] == rest;
        }
      }
    }
  }

  /** The last booking of a list entry is the first booking in the store that is an approved
      one of the item and started before now, as `findFirst` over the unordered query picks. */
  lemma ListEntryLastIsFirstInStore(db: Db, item: Item, now: int) returns (p: nat)
    ensures p <= |db.bookings|
    ensures forall q :: 0 <= q < p ==> !IsLastCandidate(db.bookings[q], item.id, now)
    ensures p < |db.bookings| ==>
      IsLastCandidate(db.bookings[p], item.id, now) && ListEntry(db, item, now).last == Some(db.bookings[p])
    ensures p == |db.bookings| ==> ListEntry(db, item, now).last.None?
  {
    p := FirstLastCandidateIndex(db.bookings, item.id, now);
    FirstApprovedOfStarted(db.bookings, item.id, now);
    assert StartedBookings(db, now) == Filter(db.bookings, StartDateIsBefore, now);
  }

  /** The items a user owns, in ascending id order. */
  function OwnedItems(db: Db, userId: int): (r: seq<Item>)
    ensures forall x :: x in r <==> x in db.items.Values && x.owner == userId
  {
    var owned := OwnedById(db, userId);
    ValuesById(owned)
  }

  /** The owner's items keyed by id: the map `OwnedItems` lists in id order. */
  function OwnedById(db: Db, userId: int): (r: map<int, Item>)
    ensures forall id :: id in r <==> id in db.items && db.items[id].owner == userId
    ensures forall id :: id in r ==> r[id] == db.items[id]
    ensures forall x :: x in r.Values <==> x in db.items.Values && x.owner == userId
  {
    var owned := map id | id in db.items && db.items[id].owner == userId :: db.items[id];
    OwnedValues(db, userId, owned);
    owned
  }

  /** The values of the owner's id-keyed map are exactly the items the user owns. */
  lemma OwnedValues(db: Db, userId: int, owned: map<int, Item>)
    requires forall id :: id in owned <==> id in db.items && db.items[id].owner == userId
    requires forall id :: id in owned ==> owned[id] == db.items[id]
    ensures forall x :: x in owned.Values <==> x in db.items.Values && x.owner == userId
  {
    forall x | x in db.items.Values && x.owner == userId
      ensures x in owned.Values
    {
      var id := KeyOfValue(db.items, x);
      assert owned[id] == x;
    }
    forall x | x in owned.Values
      ensures x in db.items.Values && x.owner == userId
    {
      var id := KeyOfValue(owned, x);
      assert db.items[id] == x;
    }
  }

  /** One list entry per item, in the items' order; `EntriesMeaning` relates the two. */
  function Entries(db: Db, items: seq<Item>, now: int): (r: seq<ItemView>)
    ensures |r| == |items|
    ensures forall i :: 0 <= i < |r| ==> r[i] == ListEntry(db, items[i], now)
  {
    seq(|items|, i requires 0 <= i < |items| => ListEntry(db, items[i], now))
  }

  lemma EntriesMeaning(db: Db, items: seq<Item>, now: int)
    ensures forall x :: x in items ==> exists v :: v in Entries(db, items, now) && v.item == x
    ensures forall v :: v in Entries(db, items, now) ==> v.item in items && v == ListEntry(db, v.item, now)
  {
    var entries := Entries(db, items, now);
    forall x | x in items ensures exists v :: v in entries && v.item == x {
      var i :| 0 <= i < |items| && items[i] == x;
      assert entries[i].item == x;
    }
    forall v | v in entries ensures v.item in items && v == ListEntry(db, v.item, now) {
      var i :| 0 <= i < |entries| && entries[i] == v;
    }
  }

  /** `getAllItems` (current generation): the user must exist, then `from` must not be
      negative; the owner's items are paged with `from / size` in ascending id order. */
  function GetAllItems(db: Db, userId: int, from: int, size: int, now: int): (r: Result<seq<ItemView>, Error>)
    ensures userId !in db.users ==> r == Failure(NotFound(UserMissing(userId)))
    ensures userId in db.users && from < 0 ==> r == Failure(NegativeFrom)
    ensures userId in db.users && 0 <= from && size == 0 ==> r == Failure(DivisionByZero)
    ensures userId in db.users && 0 <= from && size < 0 ==> r == Failure(IllegalPageRequest)
    ensures r.Success? <==> userId in db.users && 0 <= from && 0 < size
    ensures r.Success? ==> |r.value| <= size
    ensures r.Success? ==> forall v :: v in r.value ==>
      v.item in db.items.Values && v.item.owner == userId && v == ListEntry(db, v.item, now)
    ensures r.Success? ==>
      r.value == Entries(db, Page(OwnedItems(db, userId), ToPageable(from, size, Some(Asc)).value), now)
  {
    if userId !in db.users then Failure(NotFound(UserMissing(userId)))
    else if from < 0 then Failure(NegativeFrom)
    else
      var p :- ToPageable(from, size, Some(Asc));
      var owned := OwnedItems(db, userId);
      var page := Page(owned, p);
      EntriesMeaning(db, page, now);
      Success(Entries(db, page, now))
  }

  /** Entry `i` of the owner's list is the owner's item under the `i`-th smallest id. */
  lemma OwnedItemsOrder(db: Db, userId: int, i: int)
    requires 0 <= i < |OwnedItems(db, userId)|
    ensures var ids := SortedIds(OwnedById(db, userId).Keys);
      && |ids| == |OwnedItems(db, userId)|
      && ids[i] in db.items && db.items[ids[i]].owner == userId
      && OwnedItems(db, userId)[i] == db.items[ids[i]]
      && forall j :: 0 <= j < i ==> ids[j] < ids[i]
  {
    ValuesByIdOrder(OwnedById(db, userId), i);
  }

  /** Walking the pages of `getAllItems` reaches every item the user owns. */
  lemma EveryOwnedItemIsListed(db: Db, userId: int, x: Item, size: int, now: int)
    requires userId in db.users && x in db.items.Values && x.owner == userId && 0 < size
    ensures exists from ::
      && 0 <= from
      && GetAllItems(db, userId, from, size, now).Success?
      && ListEntry(db, x, now) in GetAllItems(db, userId, from, size, now).value
  {
    var owned := OwnedItems(db, userId);
    var i :| 0 <= i < |owned| && owned[i] == x;
    ElementIsOnItsPage(owned, i, size, Some(Asc));
    var page := Page(owned, ToPageable(i, size, Some(Asc)).value);
    assert Entries(db, page, now)[i % size] == ListEntry(db, x, now);
    assert ListEntry(db, x, now) in GetAllItems(db, userId, i, size, now).value;
  }

  /** `getAllItems` (earlier generation): every item of the owner, in ascending id order. */
  function LegacyGetAllItems(db: Db, userId: int, now: int): (r: Result<seq<ItemView>, Error>)
    ensures userId !in db.users ==> r == Failure(NotFound(UserMissing(userId)))
    ensures r.Success? <==> userId in db.users
    ensures r.Success? ==> forall x :: x in db.items.Values && x.owner == userId <==>
      exists v :: v in r.value && v.item == x
    ensures r.Success? ==> forall v :: v in r.value ==> v == ListEntry(db, v.item, now)
  {
    if userId !in db.users then Failure(NotFound(UserMissing(userId)))
    else
      var owned := OwnedItems(db, userId);
      EntriesMeaning(db, owned, now);
      Success(Entries(db, owned, now))
  }

  /** The JPA search condition: available, and the lower-cased name or description contains
      the lower-cased text. */
  predicate SearchHit(x: Item, text: string) {
    x.available && (Contains(Lower(x.name), Lower(text)) || Contains(Lower(x.description), Lower(text)))
  }

  /** `searchItems` (both generations; the paging arguments of the current one are unused):
      the user must exist; a blank text finds nothing; otherwise the available items whose
      name or description contains the text ignoring case. */
  function SearchItems(db: Db, text: string, userId: int): (r: Result<seq<Item>, Error>)
    ensures userId !in db.users ==> r == Failure(NotFound(UserMissing(userId)))
    ensures r.Success? <==> userId in db.users
    ensures userId in db.users && IsBlank(text) ==> r == Success([])
    ensures userId in db.users && !IsBlank(text) ==>
      forall x :: x in r.value <==> x in db.items.Values && SearchHit(x, text)
  {
    if userId !in db.users then Failure(NotFound(UserMissing(userId)))
    else if IsBlank(text) then Success([])
    else
      var lowered := Lower(text);
      LowerIdempotent(text);
      Success(Select(ValuesById(db.items), (x: Item) => SearchHit(x, lowered)))
  }

  /** The bookings that entitle a user to comment: their own approved bookings of the item
      that have already started. */
  function CommentSpec(userId: int, itemId: int): Spec {
    And(And(And(ByBookerId(userId), ByItemId(itemId)), ByStatus(APPROVED)), StartDateIsBefore)
  }

  lemma CommentSpecMeaning(userId: int, itemId: int, b: Booking, now: int)
    ensures Holds(CommentSpec(userId, itemId), b, now) <==>
      b.booker == userId && b.item == itemId && b.status == APPROVED && b.start < now
  {
    var s1 := And(ByBookerId(userId), ByItemId(itemId));
    var s2 := And(s1, ByStatus(APPROVED));
    assert Holds(s1, b, now) <==> b.booker == userId && b.item == itemId;
    assert Holds(s2, b, now) <==> Holds(s1, b, now) && b.status == APPROVED;
    assert Holds(CommentSpec(userId, itemId), b, now) <==> Holds(s2, b, now) && b.start < now;
  }

  predicate HasRented(db: Db, userId: int, itemId: int, now: int) {
    exists b :: b in db.bookings && b.booker == userId && b.item == itemId && b.status == APPROVED && b.start < now
  }

  /** `addComment` (both generations): the user must exist; without an approved, started
      booking of the item by the user it is an ItemException; the item is then read with
      `Optional.get()`; the comment is stored with the current instant. */
  function AddComment(db: Db, text: string, userId: int, itemId: int, now: int): (r: Step<Db, Comment>)
    ensures r.result.Failure? ==> r.state == db
    ensures userId !in db.users ==> r.result == Failure(NotFound(UserMissing(userId)))
    ensures userId in db.users && !HasRented(db, userId, itemId, now) ==>
      r.result == Failure(ItemError(NeverRented(userId, itemId)))
    ensures r.result.Success? <==> userId in db.users && HasRented(db, userId, itemId, now) && itemId in db.items
    ensures r.result.Success? ==>
      && r.result.value == Comment(db.nextCommentId, text, itemId, userId, now)
      && r.state == db.(comments := db.comments + [r.result.value], nextCommentId := db.nextCommentId + 1)
  {
    if userId !in db.users then Step(db, Failure(NotFound(UserMissing(userId))))
    else
      var eligible := FindAll(db.bookings, CommentSpec(userId, itemId), now);
      assert |eligible| == 0 <==> !HasRented(db, userId, itemId, now) by {
        if HasRented(db, userId, itemId, now) {
          var b :| b in db.bookings && b.booker == userId && b.item == itemId && b.status == APPROVED && b.start < now;
          CommentSpecMeaning(userId, itemId, b, now);
        }
        forall b | b in eligible ensures b.booker == userId && b.item == itemId && b.status == APPROVED && b.start < now {
          CommentSpecMeaning(userId, itemId, b, now);
        }
        if |eligible| > 0 { assert eligible[0] in eligible; }
      }
      if |eligible| == 0 then Step(db, Failure(ItemError(NeverRented(userId, itemId))))
      else if itemId !in db.items then Step(db, Failure(NoSuchElement))
      else
        var c := Comment(db.nextCommentId, text, itemId, userId, now);
        Step(db.(comments := db.comments + [c], nextCommentId := db.nextCommentId + 1), Success(c))
  }

  /** A created item can be read back, and the store stays well formed. */
  lemma CreatedItemIsReadable(db: Db, draft: ItemDraft, userId: int, viewer: int, now: int)
    requires ItemsWellFormed(db)
    requires CreateItem(db, draft, userId).result.Success?
    ensures var step := CreateItem(db, draft, userId);
      && ItemsWellFormed(step.state)
      && db.nextItemId !in db.items
      && GetItem(step.state, viewer, step.result.value.id, now).Success?
      && GetItem(step.state, viewer, step.result.value.id, now).value.item == step.result.value
  {
  }

  /** An update by the owner is visible to the next read, and it keeps the item's identity. */
  lemma UpdateIsVisible(db: Db, p: Patch, userId: int, itemId: int, viewer: int, now: int)
    requires UpdateItem(db, p, userId, itemId).result.Success?
    ensures var step := UpdateItem(db, p, userId, itemId);
      && GetItem(step.state, viewer, itemId, now).Success?
      && GetItem(step.state, viewer, itemId, now).value.item == step.result.value
      && step.result.value.id == db.items[itemId].id
      && step.result.value.owner == userId
  {
  }

  /** Updating twice with the same fields leaves the store as one update does. */
  lemma UpdateIsIdempotent(db: Db, p: Patch, userId: int, itemId: int)
    requires UpdateItem(db, p, userId, itemId).result.Success?
    ensures var once := UpdateItem(db, p, userId, itemId).state;
      UpdateItem(once, p, userId, itemId).state == once
  {
    PatchIdempotent(db.items[itemId], p);
  }

  /** A comment just added is among the item's comments on the next read. */
  lemma AddedCommentIsListed(db: Db, text: string, userId: int, itemId: int, viewer: int, now: int)
    requires AddComment(db, text, userId, itemId, now).result.Success?
    ensures var step := AddComment(db, text, userId, itemId, now);
      step.result.value in GetItem(step.state, viewer, itemId, now).value.comments
  {
  }

  /** The item list and the single-item read agree on whether there is a next booking and
      on its start; both have a last booking exactly when the item has started approved
      bookings, but the list's is the first such in store order rather than the latest. */
  lemma ListAndReadAgree(db: Db, item: Item, now: int)
    ensures var n := NextBooking(db.bookings, item.id, now);
      var e := ListEntry(db, item, now);
      && (n.Some? <==> e.next.Some?)
      && (n.Some? ==> n.value.start == e.next.value.start)
      && (LastBooking(db.bookings, item.id, now).Some? <==> e.last.Some?)
  {
    var n := NextBooking(db.bookings, item.id, now);
    var e := ListEntry(db, item, now);
    if n.Some? {
      assert e.next.Some?;
      assert e.next.value.start <= n.value.start;
      assert n.value.start <= e.next.value.start;
    }
  }

  /** The search the service runs through JPA and the in-memory store's `containsIgnoreCase`
      search select the same items. */
  lemma SearchHitIsContainsIgnoreCase(x: Item, text: string)
    ensures SearchHit(x, text) <==>
      x.available && (ContainsIgnoreCase(x.name, text) || ContainsIgnoreCase(x.description, text))
  {
    SearchesAgree(x.name, text);
    SearchesAgree(x.description, text);
  }
}

=== FILE: ordering.dfy ===
/** Ordering of query results. A database ORDER BY on one integer column is modelled as an
    insertion sort by an integer key; a descending order negates the key. */
module Ordering {

  /** `s` is ordered by non-decreasing `key`. */
  ghost predicate SortedBy<T>(s: seq<T>, key: T -> int) {
    forall i, j :: 0 <= i < j < |s| ==> key(s[i]) <= key(s[j])
  }

  /** Inserts `x` after every element whose key is not greater than its own. */
  function Insert<T>(x: T, s: seq<T>, key: T -> int): (r: seq<T>)
    requires SortedBy(s, key)
    ensures SortedBy(r, key)
    ensures multiset(r) == multiset(s) + multiset{x}
    ensures |r| == |s| + 1
  {
    if |s| == 0 then [x]
    else if key(x) < key(s[0]) then [x] + s
    else
      var rest := Insert(x, s[1..], key);
      forall i | 0 <= i < |rest| ensures key(s[0]) <= key(rest[i]) {
        BoundedByHead(s, x, rest, key, i);
      }
      ConsSorted(s[0], rest, key);
      assert s == [s[0]] + s[1..];
      [s[0]] + rest
  }

  /** Every element of `rest` (a permutation of the tail of `s` plus `x`) has a key no less
      than the head of `s`, when `s` is sorted and `x` does not go before that head. */
  lemma BoundedByHead<T>(s: seq<T>, x: T, rest: seq<T>, key: T -> int, i: int)
    requires SortedBy(s, key) && |s| > 0 && key(s[0]) <= key(x)
    requires multiset(rest) == multiset(s[1..]) + multiset{x}
    requires 0 <= i < |rest|
    ensures key(s[0]) <= key(rest[i])
  {
    var y := rest[i];
    assert y in multiset(rest);
    if y != x {
      assert y in multiset(s[1..]);
      var j :| 0 <= j < |s[1..]| && s[1..][j] == y;
      assert s[j + 1] == y;
    }
  }

  lemma ConsSorted<T>(h: T, rest: seq<T>, key: T -> int)
    requires SortedBy(rest, key)
    requires forall i :: 0 <= i < |rest| ==> key(h) <= key(rest[i])
    ensures SortedBy([h] + rest, key)
  {
    var r := [h] + rest;
    forall i, j | 0 <= i < j < |r| ensures key(r[i]) <= key(r[j]) {
      if i > 0 {
        assert r[i] == rest[i - 1] && r[j] == rest[j - 1];
      } else {
        assert r[j] == rest[j - 1];
      }
    }
  }

  /** Sorts `s` by `key` (by insertion); the result is a permutation of `s`. */
  function Sort<T>(s: seq<T>, key: T -> int): (r: seq<T>)
    ensures SortedBy(r, key)
    ensures multiset(r) == multiset(s)
    ensures |r| == |s|
  {
    if |s| == 0 then []
    else
      assert s == s[..|s| - 1] + [s[|s| - 1]];
      Insert(s[|s| - 1], Sort(s[..|s| - 1], key), key)
  }

  /** The head of a sorted sequence has the least key of all its elements. */
  lemma HeadIsLeast<T>(s: seq<T>, key: T -> int, y: T)
    requires SortedBy(s, key) && y in s
    ensures key(s[0]) <= key(y)
  {
    var j :| 0 <= j < |s| && s[j] == y;
  }
}

=== FILE: paging.dfy ===
/** Offset/limit pagination as the services do it: `page = from / size` with Java's int
    division, `PageRequest.of(page, size, …)`, and the page slice the repository returns;
    and the OFFSET/LIMIT window of a native query. */
module Paging {
  import opened Wrappers
  import opened Domain
  import opened Ordering

  function Abs(x: int): nat {
    if x < 0 then -x else x
  }

  /** Java's `/` on int: the quotient truncated toward zero (Dafny's own `/` is Euclidean,
      so the two differ only when exactly one operand is negative). */
  function JavaDiv(a: int, b: int): (q: int)
    requires b != 0
    ensures 0 <= a && 0 < b ==> q == a / b
    ensures 0 <= a && b < 0 ==> q <= 0
    ensures a < 0 && 0 < b ==> q == -((-a) / b) && q <= 0
  {
    var n := Abs(a) / Abs(b);
    DivNonneg(Abs(a), Abs(b));
    if (a < 0) != (b < 0) then -n else n
  }

  lemma DivNonneg(a: int, b: int)
    requires 0 <= a && 0 < b
    ensures 0 <= a / b
  {
  }

  /** For a non-negative offset and a positive size, the page index times the size is the
      offset rounded down to a multiple of the size. */
  lemma DivRoundsDown(from: int, size: int)
    requires 0 <= from && 0 < size
    ensures 0 <= JavaDiv(from, size)
    ensures JavaDiv(from, size) * size <= from < JavaDiv(from, size) * size + size
  {
    DivNonneg(from, size);
  }

  datatype Direction = Asc | Desc

  /** A Spring Data page request; every sort the services request is on the "id" column. */
  datatype Pageable = Pageable(page: int, size: int, idSort: Option<Direction>)

  /** `PageRequest.of(page, size, …)`: a negative page index or a page size below one is
      rejected with IllegalArgumentException. */
  function PageRequestOf(page: int, size: int, idSort: Option<Direction>): (r: Result<Pageable, Error>)
    ensures r.Success? <==> 0 <= page && 1 <= size
    ensures r.Success? ==> r.value.page == page && r.value.size == size && r.value.idSort == idSort
    ensures r.Failure? ==> r.error == IllegalPageRequest
  {
    if page < 0 || size < 1 then Failure(IllegalPageRequest)
    else Success(Pageable(page, size, idSort))
  }

  /** `int page = from / size; PageRequest.of(page, size, …)` for an offset the caller has
      already checked to be non-negative. A zero size is the ArithmeticException of the
      division; a negative size is refused by PageRequest.of. */
  function ToPageable(from: int, size: int, idSort: Option<Direction>): (r: Result<Pageable, Error>)
    requires 0 <= from
    ensures size == 0 ==> r == Failure(DivisionByZero)
    ensures size < 0 ==> r == Failure(IllegalPageRequest)
    ensures r.Success? <==> 0 < size
    ensures r.Success? ==> r.value.size == size && r.value.idSort == idSort
    ensures r.Success? ==> Offset(r.value) == RoundDown(from, size)
    ensures r.Success? ==> Offset(r.value) <= from < Offset(r.value) + size
  {
    if size == 0 then Failure(DivisionByZero)
    else
      var page := JavaDiv(from, size);
      assert 0 < size ==> 0 <= page && page * size <= from < page * size + size by {
        if 0 < size { DivRoundsDown(from, size); }
      }
      PageRequestOf(page, size, idSort)
  }

  /** The content of page `p` of `s`: the elements from index page*size, at most size of them. */
  function Page<T>(s: seq<T>, p: Pageable): (r: seq<T>)
    requires 0 <= p.page && 1 <= p.size
    ensures |r| <= p.size
    ensures |r| == PageLength(|s|, Offset(p), p.size)
    ensures forall k :: 0 <= k < |r| ==> 0 <= Offset(p) + k < |s| && r[k] == s[Offset(p) + k]
    ensures forall x :: x in r ==> x in s
  {
    var lo := Min(Offset(p), |s|);
    s[lo..Min(lo + p.size, |s|)]
  }

  /** Index of the first element of page `p`. */
  function Offset(p: Pageable): int {
    p.page * p.size
  }

  function Min(a: int, b: int): int {
    if a < b then a else b
  }

  /** `from` rounded down to a multiple of `size`: where the page holding offset `from` starts. */
  function RoundDown(from: int, size: int): int
    requires 0 < size
  {
    from / size * size
  }

  /** How many of `n` elements a page of `size` starting at index `offset` holds. */
  function PageLength(n: int, offset: int, size: int): int {
    if offset >= n then 0 else Min(size, n - offset)
  }

  /** Paging loses nothing: element `i` of `s` is element `i % size` of page `i / size`. */
  lemma ElementIsOnItsPage<T>(s: seq<T>, i: int, size: int, idSort: Option<Direction>)
    requires 0 <= i < |s| && 0 < size
    ensures var p := Pageable(i / size, size, idSort);
      0 <= p.page && i % size < |Page(s, p)| && Page(s, p)[i % size] == s[i]
  {
    var p := Pageable(i / size, size, idSort);
    assert Offset(p) + i % size == i;
  }

  /** `LIMIT limit OFFSET offset` over `s`; a negative offset or limit is refused by the
      database. */
  function Window<T>(s: seq<T>, offset: int, limit: int): (r: Result<seq<T>, Error>)
    ensures r.Success? <==> 0 <= offset && 0 <= limit
    ensures r.Failure? ==> r.error == QueryRejected
    ensures r.Success? ==> |r.value| <= limit
    ensures r.Success? ==> |r.value| == PageLength(|s|, offset, limit)
    ensures r.Success? ==> forall k :: 0 <= k < |r.value| ==> r.value[k] == s[offset + k]
  {
    if offset < 0 || limit < 0 then Failure(QueryRejected)
    else
      var lo := Min(offset, |s|);
      Success(s[lo..Min(lo + limit, |s|)])
  }

  /** A window from 0 at least as wide as the rows returns all of them. */
  lemma FullWindow<T>(s: seq<T>, limit: int)
    requires |s| <= limit
    ensures Window(s, 0, limit) == Success(s)
  {
    assert s[0..|s|] == s;
  }

  /** The page a service computes from (from, size) holds the elements from index `from`
      rounded down to a multiple of `size`, at most `size` of them. */
  lemma PageFromOffset<T>(s: seq<T>, from: int, size: int, idSort: Option<Direction>)
    requires 0 <= from && 0 < size
    ensures ToPageable(from, size, idSort).Success?
    ensures var r := Page(s, ToPageable(from, size, idSort).value);
      var lo := RoundDown(from, size);
      && |r| == PageLength(|s|, lo, size)
      && forall k :: 0 <= k < |r| ==> 0 <= lo + k < |s| && r[k] == s[lo + k]
  {
  }

  /** The page a service computes from (from, size) is the window that starts at `from`
      rounded down to a multiple of `size`. */
  lemma PageIsRoundedWindow<T>(s: seq<T>, from: int, size: int, idSort: Option<Direction>)
    requires 0 <= from && 0 < size
    ensures ToPageable(from, size, idSort).Success?
    ensures var p := ToPageable(from, size, idSort).value;
      Window(s, Offset(p), size) == Success(Page(s, p))
  {
    var p := ToPageable(from, size, idSort).value;
    var w := Window(s, Offset(p), size).value;
    var pg := Page(s, p);
    assert |w| == |pg|;
    assert forall k :: 0 <= k < |w| ==> w[k] == pg[k];
  }

  /** When `from` is a multiple of `size`, the page and the window starting at `from` agree. */
  lemma AlignedPageIsWindow<T>(s: seq<T>, k: nat, size: int, idSort: Option<Direction>)
    requires 0 < size
    ensures ToPageable(k * size, size, idSort).Success?
    ensures Window(s, k * size, size) == Success(Page(s, ToPageable(k * size, size, idSort).value))
  {
    var p := ToPageable(k * size, size, idSort).value;
    PageIsRoundedWindow(s, k * size, size, idSort);
    PageIndexOfMultiple(p.page, k, size);
  }

  /** The only page index whose page contains offset k*size is k. */
  lemma PageIndexOfMultiple(q: int, k: int, size: int)
    requires 0 < size && q * size <= k * size < q * size + size
    ensures q == k
  {
    assert (k - q) * size == k * size - q * size;
    SignOfProduct(k - q, size);
  }

  lemma SignOfProduct(x: int, c: int)
    requires 0 < c
    ensures 0 <= x * c <==> 0 <= x
    ensures x * c < c <==> x < 1
  {
  }

  /** A page of a sorted sequence is sorted. */
  lemma PageOfSorted<T>(s: seq<T>, p: Pageable, key: T -> int)
    requires 0 <= p.page && 1 <= p.size
    requires SortedBy(s, key)
    ensures SortedBy(Page(s, p), key)
  {
    var r := Page(s, p);
    forall i, j | 0 <= i < j < |r| ensures key(r[i]) <= key(r[j]) {
      assert r[i] == s[Offset(p) + i] && r[j] == s[Offset(p) + j];
    }
  }
}

=== FILE: request_service.dfy ===
/** The "wanted item" request use cases: post a request, list other users' requests, list
    one's own requests, and read one request — each shown with the items that answer it. */
module RequestService {
  import opened Wrappers
  import opened Domain
  import opened Ordering
  import opened Paging
  import opened Store

  /** A request with the items attached to it in the response. */
  datatype RequestView = RequestView(request: ItemRequest, items: seq<Item>)

  /** Every item's request reference names a stored request, and request ids are below the
      counter. */
  ghost predicate WellFormed(db: Db) {
    && (forall q :: q in db.requests ==> q.id < db.nextRequestId)
    && (forall x :: x in db.items.Values && x.requestId.Some? ==> FindRequest(db.requests, x.requestId.value).Some?)
  }

  /** `itemRepository.findAllByItemRequest(request)`: the items answering request `requestId`. */
  function ItemsFor(db: Db, requestId: int): (r: seq<Item>)
    ensures forall x :: x in r <==> x in db.items.Values && x.requestId == Some(requestId)
  {
    Select(ValuesById(db.items), (x: Item) => x.requestId == Some(requestId))
  }

  /** The request an item answers was posted by `authorId`. */
  predicate AnswersRequestOf(db: Db, x: Item, authorId: int) {
    x.requestId.Some? &&
    var q := FindRequest(db.requests, x.requestId.value);
    q.Some? && q.value.author == authorId
  }

  /** `itemRepository.findAllByItemRequestAuthorId(authorId)`. */
  function ItemsForRequestsOf(db: Db, authorId: int): (r: seq<Item>)
    ensures forall x :: x in r <==> x in db.items.Values && AnswersRequestOf(db, x, authorId)
  {
    Select(ValuesById(db.items), (x: Item) => AnswersRequestOf(db, x, authorId))
  }

  /** `addRequestItem`: the author must exist; the request is stored with the current instant
      and returned with the items already answering it. */
  function AddRequestItem(db: Db, description: string, authorId: int, now: int): (r: Step<Db, RequestView>)
    ensures r.result.Failure? ==> r.state == db
    ensures authorId !in db.users ==> r.result == Failure(NotFound(UserMissing(authorId)))
    ensures r.result.Success? <==> authorId in db.users
    ensures r.result.Success? ==>
      var q := r.result.value.request;
      && q == ItemRequest(db.nextRequestId, description, authorId, now)
      && r.state == db.(requests := db.requests + [q], nextRequestId := db.nextRequestId + 1)
      && forall x :: x in r.result.value.items <==> x in db.items.Values && x.requestId == Some(q.id)
  {
    if authorId !in db.users then Step(db, Failure(NotFound(UserMissing(authorId))))
    else
      var q := ItemRequest(db.nextRequestId, description, authorId, now);
      var after := db.(requests := db.requests + [q], nextRequestId := db.nextRequestId + 1);
      Step(after, Success(RequestView(q, ItemsFor(after, q.id))))
  }

  function ById(q: ItemRequest): int {
    -q.id
  }

  /** The requests in descending id order (`Sort.Direction.DESC, "id"`). */
  function NewestFirst(requests: seq<ItemRequest>): (r: seq<ItemRequest>)
    ensures SortedBy(r, ById)
    ensures multiset(r) == multiset(requests)
    ensures forall q :: q in r <==> q in requests
  {
    var r := Sort(requests, ById);
    assert forall q :: q in r <==> q in multiset(requests);
    r
  }

  function Views(db: Db, requests: seq<ItemRequest>): (r: seq<RequestView>)
    ensures |r| == |requests|
    ensures forall i :: 0 <= i < |r| ==> r[i] == RequestView(requests[i], ItemsFor(db, requests[i].id))
    ensures forall v :: v in r ==> v.request in requests && v.items == ItemsFor(db, v.request.id)
  {
    var r := seq(|requests|, i requires 0 <= i < |requests| => RequestView(requests[i], ItemsFor(db, requests[i].id)));
    assert forall v :: v in r ==> v.request in requests && v.items == ItemsFor(db, v.request.id) by {
      forall v | v in r ensures v.request in requests && v.items == ItemsFor(db, v.request.id) {
        var i :| 0 <= i < |r| && r[i] == v;
      }
    }
    r
  }

  /** Every request shown with the same item list. */
  function ViewsWith(requests: seq<ItemRequest>, items: seq<Item>): (r: seq<RequestView>)
    ensures |r| == |requests|
    ensures forall i :: 0 <= i < |r| ==> r[i] == RequestView(requests[i], items)
    ensures forall v :: v in r ==> v.request in requests && v.items == items
  {
    var r := seq(|requests|, i requires 0 <= i < |requests| => RequestView(requests[i], items));
    assert forall v :: v in r ==> v.request in requests && v.items == items by {
      forall v | v in r ensures v.request in requests && v.items == items {
        var i :| 0 <= i < |r| && r[i] == v;
      }
    }
    r
  }

  function PostedBy(authorId: int): ItemRequest -> bool {
    (q: ItemRequest) => q.author == authorId
  }

  function NotPostedBy(authorId: int): ItemRequest -> bool {
    (q: ItemRequest) => q.author != authorId
  }

  /** Keeps the requests not posted by `authorId`, in order (`NotByKeepsOrder`). */
  function NotBy(requests: seq<ItemRequest>, authorId: int): (r: seq<ItemRequest>)
    ensures forall q :: q in r <==> q in requests && q.author != authorId
    ensures |r| <= |requests|
  {
    Select(requests, NotPostedBy(authorId))
  }

  lemma NotByKeepsOrder(requests: seq<ItemRequest>, authorId: int) returns (idx: seq<int>)
    ensures KeptInOrder(NotBy(requests, authorId), requests, idx)
  {
    idx := SelectKeepsOrder(requests, NotPostedBy(authorId));
  }

  /** Keeps the requests posted by `authorId`, in order (`ByAuthorKeepsOrder`). */
  function ByAuthor(requests: seq<ItemRequest>, authorId: int): (r: seq<ItemRequest>)
    ensures forall q :: q in r <==> q in requests && q.author == authorId
  {
    Select(requests, PostedBy(authorId))
  }

  lemma ByAuthorKeepsOrder(requests: seq<ItemRequest>, authorId: int) returns (idx: seq<int>)
    ensures KeptInOrder(ByAuthor(requests, authorId), requests, idx)
  {
    idx := SelectKeepsOrder(requests, PostedBy(authorId));
  }

  /** Checks shared by both listings: the user first, then `from`, then the page request. */
  function ListingPage(db: Db, authorId: int, from: int, size: int): (r: Result<Pageable, Error>)
    ensures authorId !in db.users ==> r == Failure(NotFound(UserMissing(authorId)))
    ensures authorId in db.users && from < 0 ==> r == Failure(NegativeFrom)
    ensures authorId in db.users && 0 <= from && size == 0 ==> r == Failure(DivisionByZero)
    ensures r.Success? <==> authorId in db.users && 0 <= from && 0 < size
    ensures r.Success? ==> r.value.size == size && 0 <= r.value.page && Offset(r.value) <= from
    ensures r.Success? ==> r.value == ToPageable(from, size, Some(Desc)).value
  {
    if authorId !in db.users then Failure(NotFound(UserMissing(authorId)))
    else if from < 0 then Failure(NegativeFrom)
    else ToPageable(from, size, Some(Desc))
  }

  /** `getAllRequestItem`: page `from / size` of all requests, newest first; the caller's own
      requests are dropped from that page afterwards. */
  function GetAllRequestItem(db: Db, from: int, size: int, authorId: int): (r: Result<seq<RequestView>, Error>)
    ensures authorId !in db.users ==> r == Failure(NotFound(UserMissing(authorId)))
    ensures authorId in db.users && from < 0 ==> r == Failure(NegativeFrom)
    ensures authorId in db.users && 0 <= from && size == 0 ==> r == Failure(DivisionByZero)
    ensures authorId in db.users && 0 <= from && size < 0 ==> r == Failure(IllegalPageRequest)
    ensures r.Success? <==> authorId in db.users && 0 <= from && 0 < size
    ensures r.Success? ==> |r.value| <= size
    ensures r.Success? ==>
      r.value == Views(db, NotBy(Page(NewestFirst(db.requests), ToPageable(from, size, Some(Desc)).value), authorId))
    ensures r.Success? ==> forall v :: v in r.value ==>
      && v.request in db.requests && v.request.author != authorId
      && forall x :: x in v.items <==> x in db.items.Values && x.requestId == Some(v.request.id)
  {
    var p :- ListingPage(db, authorId, from, size);
    var ordered := NewestFirst(db.requests);
    var page := Page(ordered, p);
    var kept := NotBy(page, authorId);
    Success(Views(db, kept))
  }

  /** `getAllOwnerRequestItem`: page `from / size` of the caller's own requests, newest first,
      each shown with the same list: every item answering any of the caller's requests. */
  function GetAllOwnerRequestItem(db: Db, from: int, size: int, authorId: int): (r: Result<seq<RequestView>, Error>)
    ensures authorId !in db.users ==> r == Failure(NotFound(UserMissing(authorId)))
    ensures authorId in db.users && from < 0 ==> r == Failure(NegativeFrom)
    ensures authorId in db.users && 0 <= from && size == 0 ==> r == Failure(DivisionByZero)
    ensures authorId in db.users && 0 <= from && size < 0 ==> r == Failure(IllegalPageRequest)
    ensures r.Success? <==> authorId in db.users && 0 <= from && 0 < size
    ensures r.Success? ==> |r.value| <= size
    ensures r.Success? ==>
      var page := Page(NewestFirst(ByAuthor(db.requests, authorId)), ToPageable(from, size, Some(Desc)).value);
      && |r.value| == |page|
      && forall i :: 0 <= i < |r.value| ==> r.value[i] == RequestView(page[i], ItemsForRequestsOf(db, authorId))
    ensures r.Success? ==> forall v :: v in r.value ==>
      && v.request in db.requests && v.request.author == authorId
      && forall x :: x in v.items <==> x in db.items.Values && AnswersRequestOf(db, x, authorId)
  {
    var p :- ListingPage(db, authorId, from, size);
    var page := Page(NewestFirst(ByAuthor(db.requests, authorId)), p);
    var items := ItemsForRequestsOf(db, authorId);
    Success(ViewsWith(page, items))
  }

  /** Dropping the caller's own requests from a page keeps the rest newest first. */
  lemma RequestListingNewestFirst(db: Db, from: int, size: int, authorId: int, i: int, j: int)
    requires GetAllRequestItem(db, from, size, authorId).Success?
    requires 0 <= i < j < |GetAllRequestItem(db, from, size, authorId).value|
    ensures var r := GetAllRequestItem(db, from, size, authorId).value;
      r[i].request.id >= r[j].request.id
  {
    var p := ToPageable(from, size, Some(Desc)).value;
    var ordered := NewestFirst(db.requests);
    PageOfSorted(ordered, p, ById);
    var page := Page(ordered, p);
    var idx := NotByKeepsOrder(page, authorId);
    assert ById(page[idx[i]]) <= ById(page[idx[j]]);
  }

  /** The caller's own requests come newest first, within a page as well. */
  lemma OwnerListingNewestFirst(db: Db, from: int, size: int, authorId: int, i: int, j: int)
    requires GetAllOwnerRequestItem(db, from, size, authorId).Success?
    requires 0 <= i < j < |GetAllOwnerRequestItem(db, from, size, authorId).value|
    ensures var r := GetAllOwnerRequestItem(db, from, size, authorId).value;
      r[i].request.id >= r[j].request.id
  {
    var p := ToPageable(from, size, Some(Desc)).value;
    var ordered := NewestFirst(ByAuthor(db.requests, authorId));
    PageOfSorted(ordered, p, ById);
    var page := Page(ordered, p);
    assert ById(page[i]) <= ById(page[j]);
  }

  /** Walking the pages of `getAllOwnerRequestItem` reaches every request the caller posted. */
  lemma EveryOwnRequestIsListed(db: Db, authorId: int, q: ItemRequest, size: int)
    requires authorId in db.users && q in db.requests && q.author == authorId && 0 < size
    ensures exists from ::
      && 0 <= from
      && GetAllOwnerRequestItem(db, from, size, authorId).Success?
      && RequestView(q, ItemsForRequestsOf(db, authorId)) in GetAllOwnerRequestItem(db, from, size, authorId).value
  {
    var ordered := NewestFirst(ByAuthor(db.requests, authorId));
    var i :| 0 <= i < |ordered| && ordered[i] == q;
    ElementIsOnItsPage(ordered, i, size, Some(Desc));
    var r := GetAllOwnerRequestItem(db, i, size, authorId).value;
    assert r[i % size] == RequestView(q, ItemsForRequestsOf(db, authorId));
  }

  /** Walking the pages of `getAllRequestItem` reaches every request of every other user:
      a request is dropped only from the page of its own author. */
  lemma EveryOtherRequestIsListed(db: Db, authorId: int, q: ItemRequest, size: int)
    requires authorId in db.users && q in db.requests && q.author != authorId && 0 < size
    ensures exists from ::
      && 0 <= from
      && GetAllRequestItem(db, from, size, authorId).Success?
      && RequestView(q, ItemsFor(db, q.id)) in GetAllRequestItem(db, from, size, authorId).value
  {
    var ordered := NewestFirst(db.requests);
    var i :| 0 <= i < |ordered| && ordered[i] == q;
    ElementIsOnItsPage(ordered, i, size, Some(Desc));
    var page := Page(ordered, ToPageable(i, size, Some(Desc)).value);
    var kept := NotBy(page, authorId);
    assert q in kept;
    var k :| 0 <= k < |kept| && kept[k] == q;
    var r := GetAllRequestItem(db, i, size, authorId).value;
    assert r[k] == RequestView(q, ItemsFor(db, q.id));
  }

  /** `getRequestItem`: the caller must exist; an unknown request is a NotFoundException
      (worded as for a missing item). */
  function GetRequestItem(db: Db, requestId: int, authorId: int): (r: Result<RequestView, Error>)
    ensures authorId !in db.users ==> r == Failure(NotFound(UserMissing(authorId)))
    ensures authorId in db.users && FindRequest(db.requests, requestId).None? ==>
      r == Failure(NotFound(ItemMissing(requestId)))
    ensures r.Success? <==> authorId in db.users && FindRequest(db.requests, requestId).Some?
    ensures r.Success? ==>
      && r.value.request in db.requests && r.value.request.id == requestId
      && forall x :: x in r.value.items <==> x in db.items.Values && x.requestId == Some(requestId)
  {
    if authorId !in db.users then Failure(NotFound(UserMissing(authorId)))
    else
      match FindRequest(db.requests, requestId)
      case None => Failure(NotFound(ItemMissing(requestId)))
      case Some(q) => Success(RequestView(q, ItemsFor(db, requestId)))
  }

  /** Lookup by an id that no earlier request has finds the appended request. */
  lemma {:induction false} FindAppendedRequest(requests: seq<ItemRequest>, q: ItemRequest)
    requires forall x :: x in requests ==> x.id != q.id
    ensures FindRequest(requests + [q], q.id) == Some(q)
  {
    if |requests| > 0 {
      assert (requests + [q])[1..] == requests[1..] + [q];
      FindAppendedRequest(requests[1..], q);
    }
  }

  /** No item answers a request id that has not been handed out yet. */
  lemma NoItemAnswersFreshRequest(db: Db)
    requires WellFormed(db)
    ensures ItemsFor(db, db.nextRequestId) == []
  {
    var n := db.nextRequestId;
    FreshRequestIdUnused(db);
    NoMemberIsEmpty(ItemsFor(db, n));
  }

  lemma FreshRequestIdUnused(db: Db)
    requires WellFormed(db)
    ensures forall x :: x in db.items.Values ==> x.requestId != Some(db.nextRequestId)
  {
    assert FindRequest(db.requests, db.nextRequestId).None?;
  }

  /** A request just posted is answered by no item yet, and it can be read back by anyone. */
  lemma PostedRequestIsReadable(db: Db, description: string, authorId: int, now: int, reader: int)
    requires WellFormed(db)
    requires AddRequestItem(db, description, authorId, now).result.Success?
    requires reader in db.users
    ensures var step := AddRequestItem(db, description, authorId, now);
      && step.result.value.items == []
      && GetRequestItem(step.state, step.result.value.request.id, reader) == Success(step.result.value)
  {
    var step := AddRequestItem(db, description, authorId, now);
    FindAppendedRequest(db.requests, step.result.value.request);
    NoItemAnswersFreshRequest(db);
    assert ItemsFor(step.state, db.nextRequestId) == ItemsFor(db, db.nextRequestId);
  }

  /** Filtering after paging can hide other users' requests: with requests 1 by user 1 and 2
      by user 2, user 2 asking for one request from offset 0 gets nothing, although request 1
      is someone else's. */
  lemma FilteringAfterPagingCanEmptyPage()
    ensures var db := Db(map[1 := User(1, None, "a@mail.ru"), 2 := User(2, None, "b@mail.ru")], map[],
                         [], [], [ItemRequest(1, "drill", 1, 0), ItemRequest(2, "saw", 2, 0)], 1, 1, 1, 3);
      && GetAllRequestItem(db, 0, 1, 2) == Success([])
      && ItemRequest(1, "drill", 1, 0) in db.requests
  {
    var requests := [ItemRequest(1, "drill", 1, 0), ItemRequest(2, "saw", 2, 0)];
    var ordered := NewestFirst(requests);
    assert |ordered| == 2;
    assert multiset(ordered) == multiset(requests);
    assert ordered[0] in multiset(requests);
    assert ordered[1] in multiset(requests);
    assert ById(ordered[0]) <= ById(ordered[1]);
    assert ordered[0] == ItemRequest(2, "saw", 2, 0);
  }
}

=== FILE: specification.dfy ===
/** The JPA specifications over bookings, as a small predicate language: each constructor is
    one static builder of BookingSpecification, `And` is `Specification.and`. A specification
    both filters (its predicate) and may request an ordering (its `query.orderBy` call).
    The repository queries `findAll(spec)` and `findAll(spec, pageable)` are modelled on a
    store that lists bookings in id order. */
module BookingSpecification {
  import opened Wrappers
  import opened Domain
  import opened Ordering
  import opened Paging
  import opened Store

  /** An ORDER BY clause over bookings. */
  datatype Order = StartAsc | StartDesc | IdAsc | IdDesc

  /** Sort key realising the order as a non-decreasing integer key. */
  function Key(o: Order, b: Booking): int {
    match o
    case StartAsc => b.start
    case StartDesc => -b.start
    case IdAsc => b.id
    case IdDesc => -b.id
  }

  function KeyOf(o: Order): Booking -> int {
    b => Key(o, b)
  }

  datatype Spec =
    | ByBookerId(bookerId: int)
    | ByItemIds(itemIds: seq<int>)
    | ByItemId(itemId: int)
    | OrderByAsc
    | StartDateIsAfter
    | EndDateIsBefore
    | StartDateIsBefore
    | EndDateIsAfter
    | ByStatus(status: Status)
    | And(left: Spec, right: Spec)

  /** The WHERE-clause of `spec` evaluated on one booking at instant `now`. */
  predicate Holds(spec: Spec, b: Booking, now: int) {
    match spec
    case ByBookerId(id) => b.booker == id
    case ByItemIds(ids) => b.item in ids
    case ByItemId(id) => b.item == id
    case OrderByAsc => true
    case StartDateIsAfter => b.start > now
    case EndDateIsBefore => b.end < now
    case StartDateIsBefore => b.start < now
    case EndDateIsAfter => b.end > now
    case ByStatus(s) => b.status == s
    case And(l, r) => Holds(l, b, now) && Holds(r, b, now)
  }

  /** The ordering the specification leaves on the query. `CriteriaQuery.orderBy` replaces
      any earlier ordering and `a.and(b)` builds `a` before `b`, so the last call wins. */
  function OrderOf(spec: Spec): Option<Order> {
    match spec
    case ByBookerId(_) => Some(StartDesc)
    case ByItemIds(_) => Some(StartDesc)
    case ByItemId(_) => Some(StartDesc)
    case OrderByAsc => Some(StartAsc)
    case And(l, r) => if OrderOf(r).Some? then OrderOf(r) else OrderOf(l)
    case _ => None
  }

  /** The bookings of `store` that satisfy `spec`, in store order. */
  function Filter(store: seq<Booking>, spec: Spec, now: int): (r: seq<Booking>)
    ensures forall b :: b in r <==> b in store && Holds(spec, b, now)
    ensures forall b :: b in r ==> Holds(spec, b, now)
    ensures |r| <= |store|
  {
    if |store| == 0 then []
    else
      var rest := Filter(store[1..], spec, now);
      assert forall b :: b in store <==> b == store[0] || b in store[1..];
      if Holds(spec, store[0], now) then [store[0]] + rest else rest
  }

  /** `WHERE` keeps the order of the rows it keeps. */
  lemma {:induction false} FilterKeepsOrder(store: seq<Booking>, spec: Spec, now: int) returns (idx: seq<int>)
    ensures KeptInOrder(Filter(store, spec, now), store, idx)
  {
    if |store| == 0 {
      idx := [];
    } else {
      var rest := FilterKeepsOrder(store[1..], spec, now);
      var r;
      r, idx := ShiftKept(store, Filter(store[1..], spec, now), rest, Holds(spec, store[0], now));
    }
  }

  /** Orders `s` as requested; with no ORDER BY the store order is kept. */
  function Arrange(s: seq<Booking>, order: Option<Order>): (r: seq<Booking>)
    ensures multiset(r) == multiset(s)
    ensures order.Some? ==> SortedBy(r, KeyOf(order.value))
    ensures order.None? ==> r == s
  {
    if order.Some? then Sort(s, KeyOf(order.value)) else s
  }

  /** `bookingRepository.findAll(spec)`: exactly the matching bookings, ordered as the
      specification requests. */
  function FindAll(store: seq<Booking>, spec: Spec, now: int): (r: seq<Booking>)
    ensures forall b :: b in r <==> b in store && Holds(spec, b, now)
    ensures OrderOf(spec).Some? ==> SortedBy(r, KeyOf(OrderOf(spec).value))
    ensures OrderOf(spec).None? ==> r == Filter(store, spec, now)
  {
    var f := Filter(store, spec, now);
    var r := Arrange(f, OrderOf(spec));
    assert forall b :: b in r <==> b in f by {
      forall b ensures b in r <==> b in f {
        assert b in r <==> b in multiset(r);
        assert b in f <==> b in multiset(f);
      }
    }
    r
  }

  /** The order a paged query applies: Spring Data applies the Pageable's sort after the
      specification has been built, so it overrides the specification's own ordering. */
  function PagedOrder(spec: Spec, p: Pageable): Option<Order> {
    match p.idSort
    case Some(Asc) => Some(IdAsc)
    case Some(Desc) => Some(IdDesc)
    case None => OrderOf(spec)
  }

  /** `bookingRepository.findAll(spec, pageable).getContent()`. */
  function FindAllPaged(store: seq<Booking>, spec: Spec, now: int, p: Pageable): (r: seq<Booking>)
    requires 0 <= p.page && 1 <= p.size
    ensures |r| <= p.size
    ensures |r| == PageLength(|Filter(store, spec, now)|, Offset(p), p.size)
    ensures PagedOrder(spec, p).Some? ==> SortedBy(r, KeyOf(PagedOrder(spec, p).value))
    ensures forall b :: b in r ==> b in store && Holds(spec, b, now)
    ensures p.page == 0 && |r| == 0 ==> forall b :: b in store ==> !Holds(spec, b, now)
    ensures p.page == 0 && |r| > 0 && PagedOrder(spec, p).Some? ==>
      forall b :: b in store && Holds(spec, b, now) ==>
        Key(PagedOrder(spec, p).value, r[0]) <= Key(PagedOrder(spec, p).value, b)
  {
    var all := Ranked(store, spec, now, p);
    assert p.page == 0 && |all| > 0 && PagedOrder(spec, p).Some? ==>
      forall b :: b in store && Holds(spec, b, now) ==>
        Key(PagedOrder(spec, p).value, all[0]) <= Key(PagedOrder(spec, p).value, b) by {
      if p.page == 0 && |all| > 0 && PagedOrder(spec, p).Some? {
        var o := PagedOrder(spec, p).value;
        forall b | b in store && Holds(spec, b, now) ensures Key(o, all[0]) <= Key(o, b) {
          assert b in multiset(Filter(store, spec, now));
          assert b in multiset(all);
          HeadIsLeast(all, KeyOf(o), b);
        }
      }
    }
    assert forall b :: b in all ==> b in Filter(store, spec, now) by {
      forall b | b in all ensures b in Filter(store, spec, now) {
        assert b in multiset(all);
      }
    }
    assert p.page == 0 && |all| > 0 ==> |Page(all, p)| > 0;
    assert forall b :: b in store && Holds(spec, b, now) ==> b in multiset(all);
    assert PagedOrder(spec, p).Some? ==> SortedBy(Page(all, p), KeyOf(PagedOrder(spec, p).value)) by {
      if PagedOrder(spec, p).Some? {
        PageOfSorted(all, p, KeyOf(PagedOrder(spec, p).value));
      }
    }
    Page(all, p)
  }

  /** The matches in the order a paged query returns them. */
  function Ranked(store: seq<Booking>, spec: Spec, now: int, p: Pageable): (r: seq<Booking>)
    ensures multiset(r) == multiset(Filter(store, spec, now))
    ensures |r| == |Filter(store, spec, now)|
    ensures PagedOrder(spec, p).Some? ==> SortedBy(r, KeyOf(PagedOrder(spec, p).value))
  {
    Arrange(Filter(store, spec, now), PagedOrder(spec, p))
  }

  /** Row `k` of a page is row `Offset(p) + k` of the ranked matches. */
  lemma PagedRow(store: seq<Booking>, spec: Spec, now: int, p: Pageable, k: int)
    requires 0 <= p.page && 1 <= p.size
    requires 0 <= k < |FindAllPaged(store, spec, now, p)|
    ensures Offset(p) + k < |Ranked(store, spec, now, p)|
    ensures FindAllPaged(store, spec, now, p)[k] == Ranked(store, spec, now, p)[Offset(p) + k]
  {
    assert FindAllPaged(store, spec, now, p) == Page(Ranked(store, spec, now, p), p);
  }

  /** A later page never holds a row that sorts before a row of an earlier page. */
  lemma LaterPageSortsAfter(store: seq<Booking>, spec: Spec, now: int, p: Pageable, q: Pageable, i: int, j: int)
    requires 1 <= p.size && q.size == p.size && q.idSort == p.idSort
    requires 0 <= p.page < q.page
    requires PagedOrder(spec, p).Some?
    requires 0 <= i < |FindAllPaged(store, spec, now, p)| && 0 <= j < |FindAllPaged(store, spec, now, q)|
    ensures var o := PagedOrder(spec, p).value;
      Key(o, FindAllPaged(store, spec, now, p)[i]) <= Key(o, FindAllPaged(store, spec, now, q)[j])
  {
    var o := PagedOrder(spec, p).value;
    var all := Ranked(store, spec, now, p);
    assert Ranked(store, spec, now, q) == all;
    PagedRow(store, spec, now, p, i);
    PagedRow(store, spec, now, q, j);
    OffsetsOrdered(p, q, i);
    var a, b := Offset(p) + i, Offset(q) + j;
    assert a < b < |all|;
    assert KeyOf(o)(all[a]) <= KeyOf(o)(all[b]);
  }

  /** Every index of an earlier page lies before the first index of a later page. */
  lemma OffsetsOrdered(p: Pageable, q: Pageable, i: int)
    requires 1 <= p.size && q.size == p.size && 0 <= p.page < q.page && 0 <= i < p.size
    ensures Offset(p) + i < Offset(q)
  {
    assert (p.page + 1) * p.size <= q.page * p.size by {
      MulMonotone(p.page + 1, q.page, p.size);
    }
  }

  lemma MulMonotone(a: int, b: int, c: int)
    requires a <= b && 0 < c
    ensures a * c <= b * c
  {
  }

  /** Paging loses no match: every matching booking is on some page of any size. */
  lemma EveryMatchIsPaged(store: seq<Booking>, spec: Spec, now: int, size: int, idSort: Option<Direction>, b: Booking)
    requires 1 <= size && b in store && Holds(spec, b, now)
    ensures exists k :: 0 <= k && b in FindAllPaged(store, spec, now, Pageable(k, size, idSort))
  {
    var all := Ranked(store, spec, now, Pageable(0, size, idSort));
    assert b in multiset(Filter(store, spec, now));
    assert b in multiset(all);
    var i :| 0 <= i < |all| && all[i] == b;
    ElementIsOnItsPage(all, i, size, idSort);
    var p := Pageable(i / size, size, idSort);
    assert Ranked(store, spec, now, p) == all;
    assert FindAllPaged(store, spec, now, p) == Page(all, p);
    assert b in FindAllPaged(store, spec, now, p);
  }

  /** A booking that starts exactly at `now` is neither "started before" nor "starting after"
      now: both comparisons are strict. */
  lemma StartAtNowIsNeither(b: Booking, now: int)
    requires b.start == now
    ensures !Holds(StartDateIsAfter, b, now) && !Holds(StartDateIsBefore, b, now)
  {
  }

  /** For a well-formed booking (start before end) "starts after now" and "ended before now"
      exclude each other, so FUTURE and PAST never share a booking. */
  lemma FutureAndPastAreDisjoint(b: Booking, now: int)
    requires b.start < b.end
    ensures !(Holds(StartDateIsAfter, b, now) && Holds(EndDateIsBefore, b, now))
  {
  }

  /** Each subject builder filters on its column alone and asks for start-descending order;
      `orderByAsc` filters nothing and asks for start-ascending order. */
  lemma BuilderMeaning(b: Booking, now: int, bookerId: int, itemId: int, itemIds: seq<int>)
    ensures Holds(ByBookerId(bookerId), b, now) <==> b.booker == bookerId
    ensures Holds(ByItemIds(itemIds), b, now) <==> b.item in itemIds
    ensures Holds(ByItemId(itemId), b, now) <==> b.item == itemId
    ensures Holds(OrderByAsc, b, now)
    ensures OrderOf(ByBookerId(bookerId)) == OrderOf(ByItemIds(itemIds)) == OrderOf(ByItemId(itemId)) == Some(StartDesc)
    ensures OrderOf(OrderByAsc) == Some(StartAsc)
  {
  }

  /** Adding a pure filter on the right keeps the ordering of the left operand, and adding
      `orderByAsc` on the right filters nothing and switches to ascending start. */
  lemma AndOrdering(spec: Spec, b: Booking, now: int, s: Status)
    ensures OrderOf(And(spec, ByStatus(s))) == OrderOf(spec)
    ensures OrderOf(And(spec, StartDateIsAfter)) == OrderOf(spec)
    ensures OrderOf(And(spec, OrderByAsc)) == Some(StartAsc)
    ensures Holds(And(spec, OrderByAsc), b, now) <==> Holds(spec, b, now)
  {
  }
}

=== FILE: state_factory.dfy ===
/** The strategy registry: built once from the set of strategy components, keyed by each
    strategy's own `getState()`, and consulted by a pure lookup. */
module StateFactory {
  import opened Wrappers
  import opened Domain
  import opened StateStrategies

  type Registry = map<State, Strategy>

  /** `createStrategy(strategySet)`: puts every strategy under its own state; a later
      strategy for the same state replaces an earlier one, as `HashMap.put` does. */
  function CreateStrategy(strategySet: seq<Strategy>): (m: Registry)
    ensures forall s :: s in m ==> GetState(m[s]) == s && m[s] in strategySet
    ensures forall st :: st in strategySet ==> GetState(st) in m
  {
    if |strategySet| == 0 then map[]
    else
      var last := strategySet[|strategySet| - 1];
      var m := CreateStrategy(strategySet[..|strategySet| - 1]);
      assert forall st :: st in strategySet <==> st in strategySet[..|strategySet| - 1] || st == last by {
        assert strategySet == strategySet[..|strategySet| - 1] + [last];
      }
      m[GetState(last) := last]
  }

  /** `findStrategy(state)`: the registered strategy, or null (None) when there is none. */
  function FindStrategy(registry: Registry, s: State): (r: Option<Strategy>)
    ensures r.Some? <==> s in registry
    ensures r.Some? ==> r.value == registry[s]
  {
    if s in registry then Some(registry[s]) else None
  }

  /** Looking a state up in a registry built from any set of strategies gives a strategy
      for that very state, and gives none exactly when no strategy serves the state. */
  lemma FindStrategyServesState(strategySet: seq<Strategy>, s: State)
    ensures var r := FindStrategy(CreateStrategy(strategySet), s);
      (r.Some? ==> GetState(r.value) == s && r.value in strategySet) &&
      (r.None? <==> forall st :: st in strategySet ==> GetState(st) != s)
  {
  }

  /** Every strategy component of the application. */
  const Components: seq<Strategy> :=
    [StateAll, StateCurrent, StatePast, StateFuture, StateWaiting, StateRejected]

  /** The registry the application builds at start-up. */
  function AppRegistry(): Registry {
    CreateStrategy(Components)
  }

  /** The application files the ALL strategy under ALL. */
  lemma AppRegistryAll()
    ensures ALL in AppRegistry() && AppRegistry()[ALL] == StateAll
  {
    AppRegistryIsTotal(ALL);
    GetStateInjective(FindStrategy(AppRegistry(), ALL).value, StateAll);
  }

  /** With every component registered, each state finds its strategy. */
  lemma AppRegistryIsTotal(s: State)
    ensures FindStrategy(AppRegistry(), s).Some?
    ensures GetState(FindStrategy(AppRegistry(), s).value) == s
  {
    var st := match s
      case ALL => StateAll
      case CURRENT => StateCurrent
      case PAST => StatePast
      case FUTURE => StateFuture
      case WAITING_STATE => StateWaiting
      case REJECTED_STATE => StateRejected;
    assert st in Components && GetState(st) == s;
  }
}

=== FILE: store.dfy ===
/** The relational store behind the JPA repositories: users and items by id, and the
    bookings, comments and item requests as tables listed in id order. Each table has its
    own identity counter. */
module Store {
  import opened Wrappers
  import opened Domain

  datatype Db = Db(
    users: map<int, User>,
    items: map<int, Item>,
    bookings: seq<Booking>,
    comments: seq<Comment>,
    requests: seq<ItemRequest>,
    nextItemId: int,
    nextBookingId: int,
    nextCommentId: int,
    nextRequestId: int)

  /** `bookingRepository.findById(id)`. */
  function FindBooking(bookings: seq<Booking>, id: int): (r: Option<Booking>)
    ensures r.Some? ==> r.value in bookings && r.value.id == id
    ensures r.None? <==> forall b :: b in bookings ==> b.id != id
  {
    if |bookings| == 0 then None
    else if bookings[0].id == id then Some(bookings[0])
    else FindBooking(bookings[1..], id)
  }

  /** `findById` on a table listed as a sequence of requests. */
  function FindRequest(requests: seq<ItemRequest>, id: int): (r: Option<ItemRequest>)
    ensures r.Some? ==> r.value in requests && r.value.id == id
    ensures r.None? <==> forall q :: q in requests ==> q.id != id
  {
    if |requests| == 0 then None
    else if requests[0].id == id then Some(requests[0])
    else FindRequest(requests[1..], id)
  }

  /** The ids of a finite set of ints in ascending order. */
  function SortedIds(s: set<int>): (r: seq<int>)
    ensures forall k :: k in r <==> k in s
    ensures forall i, j :: 0 <= i < j < |r| ==> r[i] < r[j]
    ensures |r| == |s|
    decreases |s|
  {
    if s == {} then []
    else
      var m := MinOf(s);
      var rest := SortedIds(s - {m});
      PrependLeast(m, rest, s);
      [m] + rest
  }

  /** Putting the least element of `s` before an ascending listing of the others gives an
      ascending listing of `s`. */
  lemma PrependLeast(m: int, rest: seq<int>, s: set<int>)
    requires m in s && forall k :: k in s ==> m <= k
    requires forall k :: k in rest <==> k in s - {m}
    requires forall i, j :: 0 <= i < j < |rest| ==> rest[i] < rest[j]
    ensures forall k :: k in [m] + rest <==> k in s
    ensures forall i, j :: 0 <= i < j < |rest| + 1 ==> ([m] + rest)[i] < ([m] + rest)[j]
  {
    var r := [m] + rest;
    forall i, j | 0 <= i < j < |r| ensures r[i] < r[j] {
      assert r[j] == rest[j - 1];
      if i > 0 {
        assert r[i] == rest[i - 1];
      } else {
        assert rest[j - 1] in s - {m};
      }
    }
  }

  /** The least element of a non-empty finite set. */
  function MinOf(s: set<int>): (m: int)
    requires s != {}
    ensures m in s && forall k :: k in s ==> m <= k
  {
    LeastExists(s);
    var m :| m in s && forall k :: k in s ==> m <= k;
    m
  }

  lemma NonEmptyHasMember(s: set<int>)
    requires s != {}
    ensures exists m :: m in s
  {
    if forall m :: m !in s {
      assert false;
    }
  }

  lemma {:induction false} LeastExists(s: set<int>)
    requires s != {}
    ensures exists m :: m in s && forall k :: k in s ==> m <= k
    decreases |s|
  {
    NonEmptyHasMember(s);
    var x :| x in s;
    var rest := s - {x};
    assert forall k :: k in s ==> k == x || k in rest;
    if rest != {} {
      LeastExists(rest);
      var y :| y in rest && forall k :: k in rest ==> y <= k;
      var m := if x < y then x else y;
      assert m in s && forall k :: k in s ==> m <= k;
    } else {
      assert x in s && forall k :: k in s ==> x <= k;
    }
  }

  /** The values of an id-keyed table in ascending id order (the order the database
      returns rows of an id-keyed table when no ORDER BY is given is taken to be this). */
  function ValuesById<T(==,!new)>(m: map<int, T>): (r: seq<T>)
    ensures forall x :: x in r <==> x in m.Values
    ensures |r| == |m|
  {
    var ids := SortedIds(m.Keys);
    assert forall k :: k in ids ==> k in m;
    var r := seq(|ids|, i requires 0 <= i < |ids| => m[ids[i]]);
    assert forall x :: x in m.Values ==> x in r by {
      forall x | x in m.Values ensures x in r {
        var k :| k in m && m[k] == x;
        var i :| 0 <= i < |ids| && ids[i] == k;
        assert r[i] == x;
      }
    }
    r
  }

  /** Every stored row has an id it is stored under. */
  lemma KeyOfValue<T(!new)>(m: map<int, T>, x: T) returns (id: int)
    requires x in m.Values
    ensures id in m && m[id] == x
  {
    var r := ValuesById(m);
    var i :| 0 <= i < |r| && r[i] == x;
    ValuesByIdOrder(m, i);
    id := SortedIds(m.Keys)[i];
  }

  /** Row `i` of `ValuesById(m)` is the row stored under the `i`-th smallest id. */
  lemma ValuesByIdOrder<T(!new)>(m: map<int, T>, i: int)
    requires 0 <= i < |m|
    ensures var ids := SortedIds(m.Keys);
      && |ids| == |m| && ids[i] in m && ValuesById(m)[i] == m[ids[i]]
      && forall j :: 0 <= j < i ==> ids[j] < ids[i]
  {
    var ids := SortedIds(m.Keys);
    assert ids[i] in ids;
  }

  /** Keeps the elements satisfying `keep`, in order. */
  function Select<T(!new)>(s: seq<T>, keep: T -> bool): (r: seq<T>)
    ensures forall x :: x in r <==> x in s && keep(x)
    ensures |r| <= |s|
  {
    if |s| == 0 then []
    else
      var rest := Select(s[1..], keep);
      assert forall x :: x in s <==> x == s[0] || x in s[1..];
      if keep(s[0]) then [s[0]] + rest else rest
  }

  /** `r` is `s` with some elements left out and the rest kept in their order: `idx[k]` is
      the position in `s` of `r[k]`, and the positions increase. */
  ghost predicate KeptInOrder<T>(r: seq<T>, s: seq<T>, idx: seq<int>) {
    && |idx| == |r|
    && (forall k :: 0 <= k < |idx| ==> 0 <= idx[k] < |s| && r[k] == s[idx[k]])
    && (forall k, l :: 0 <= k < l < |idx| ==> idx[k] < idx[l])
  }

  /** Positions in `s[1..]` shifted to positions in `s`, with position 0 put in front when
      the head is kept. */
  lemma ShiftKept<T>(s: seq<T>, rest: seq<T>, idx: seq<int>, keepHead: bool) returns (r: seq<T>, idx': seq<int>)
    requires |s| > 0 && KeptInOrder(rest, s[1..], idx)
    ensures r == (if keepHead then [s[0]] + rest else rest)
    ensures KeptInOrder(r, s, idx')
  {
    var shifted := seq(|idx|, k requires 0 <= k < |idx| => idx[k] + 1);
    if keepHead {
      r, idx' := [s[0]] + rest, [0] + shifted;
    } else {
      r, idx' := rest, shifted;
    }
  }

  /** `filter` keeps the order of the elements it keeps. */
  lemma {:induction false} SelectKeepsOrder<T(!new)>(s: seq<T>, keep: T -> bool) returns (idx: seq<int>)
    ensures KeptInOrder(Select(s, keep), s, idx)
    ensures forall k :: 0 <= k < |idx| ==> keep(s[idx[k]])
  {
    if |s| == 0 {
      idx := [];
    } else {
      var rest := SelectKeepsOrder(s[1..], keep);
      var r;
      r, idx := ShiftKept(s, Select(s[1..], keep), rest, keep(s[0]));
      forall k | 0 <= k < |idx| ensures keep(s[idx[k]]) {
        assert s[idx[k]] in Select(s, keep);
      }
    }
  }

  /** A sequence with no members is empty. */
  lemma NoMemberIsEmpty<T>(s: seq<T>)
    requires forall x :: x !in s
    ensures s == []
  {
    if |s| > 0 {
      FirstIsMember(s);
    }
  }

  lemma FirstIsMember<T>(s: seq<T>)
    requires |s| > 0
    ensures s[0] in s
  {
  }
}

=== FILE: strategies.dfy ===
/** The per-category query strategies behind the booking listings. Each strategy answers the
    same two questions, "bookings made by this booker" and "bookings on any of these items",
    composing a subject specification with its category predicate. Two generations exist:
    the current one takes a Spring `Pageable`, the earlier one raw `from`/`size` integers. */
module StateStrategies {
  import opened Wrappers
  import opened Domain
  import opened Ordering
  import opened Paging
  import opened BookingSpecification

  /** One strategy class per category. */
  datatype Strategy = StateAll | StateCurrent | StatePast | StateFuture | StateWaiting | StateRejected

  /** `getState()`: the category a strategy serves. */
  function GetState(st: Strategy): State {
    match st
    case StateAll => ALL
    case StateCurrent => CURRENT
    case StatePast => PAST
    case StateFuture => FUTURE
    case StateWaiting => WAITING_STATE
    case StateRejected => REJECTED_STATE
  }

  /** Each strategy answers for a state of its own: no two strategies claim the same one. */
  lemma GetStateInjective(a: Strategy, b: Strategy)
    ensures GetState(a) == GetState(b) <==> a == b
  {
  }

  /** Whose bookings are listed: a booker's own, or those on a set of items. */
  datatype Subject = Booker(bookerId: int) | ItemSet(itemIds: seq<int>)

  function SubjectSpec(subj: Subject): Spec {
    match subj
    case Booker(id) => ByBookerId(id)
    case ItemSet(ids) => ByItemIds(ids)
  }

  /** The full specification a strategy hands to the repository. */
  function StrategySpec(st: Strategy, subj: Subject): Spec {
    var s := SubjectSpec(subj);
    match st
    case StateAll => s
    case StateCurrent => And(And(s, StartDateIsBefore), EndDateIsAfter)
    case StatePast => And(s, EndDateIsBefore)
    case StateFuture => And(s, StartDateIsAfter)
    case StateWaiting => And(s, ByStatus(WAITING))
    case StateRejected => And(s, ByStatus(REJECTED))
  }

  /** Reference definition of the subject selector. */
  predicate InSubject(subj: Subject, b: Booking) {
    match subj
    case Booker(id) => b.booker == id
    case ItemSet(ids) => b.item in ids
  }

  /** Reference definition of the categories: ALL everything, CURRENT straddling now,
      PAST ended, FUTURE not yet started (all strict), WAITING/REJECTED by status. */
  predicate InCategory(st: Strategy, b: Booking, now: int) {
    match GetState(st)
    case ALL => true
    case CURRENT => b.start < now < b.end
    case PAST => b.end < now
    case FUTURE => now < b.start
    case WAITING_STATE => b.status == WAITING
    case REJECTED_STATE => b.status == REJECTED
  }

  /** The specification built by a strategy selects exactly its subject's bookings of its
      category. */
  lemma StrategySpecMeaning(st: Strategy, subj: Subject, b: Booking, now: int)
    ensures Holds(StrategySpec(st, subj), b, now) <==> InSubject(subj, b) && InCategory(st, b, now)
  {
    assert Holds(SubjectSpec(subj), b, now) <==> InSubject(subj, b) by {
      match subj
      case Booker(_) =>
      case ItemSet(_) =>
    }
    match st
    case StateAll =>
    case StateCurrent =>
      assert Holds(And(SubjectSpec(subj), StartDateIsBefore), b, now) <==> InSubject(subj, b) && b.start < now;
      assert Holds(StrategySpec(st, subj), b, now) <==>
        Holds(And(SubjectSpec(subj), StartDateIsBefore), b, now) && b.end > now;
      assert InCategory(st, b, now) <==> b.start < now && now < b.end;
    case StatePast =>
    case StateFuture =>
    case StateWaiting =>
    case StateRejected =>
  }

  /** Every strategy's specification asks for start-descending order: the category
      predicates never call orderBy. */
  lemma StrategyOrder(st: Strategy, subj: Subject)
    ensures OrderOf(StrategySpec(st, subj)) == Some(StartDesc)
  {
    assert OrderOf(SubjectSpec(subj)) == Some(StartDesc) by {
      match subj
      case Booker(_) =>
      case ItemSet(_) =>
    }
    if st == StateCurrent {
      assert OrderOf(And(SubjectSpec(subj), StartDateIsBefore)) == Some(StartDesc);
    }
  }

  /** A booking is in at most one of PAST and FUTURE, and a CURRENT booking is in neither. */
  lemma TimeCategoriesDisjoint(b: Booking, now: int)
    requires b.start < b.end
    ensures !(InCategory(StatePast, b, now) && InCategory(StateFuture, b, now))
    ensures InCategory(StateCurrent, b, now) ==> !InCategory(StatePast, b, now) && !InCategory(StateFuture, b, now)
  {
  }

  /** The order of a paged ALL listing: the Pageable's id sort when it has one, otherwise the
      subject specification's start-descending order. */
  function ListingOrder(idSort: Option<Direction>): Order {
    match idSort
    case Some(Asc) => IdAsc
    case Some(Desc) => IdDesc
    case None => StartDesc
  }

  /** Current generation: `findBookings(bookerId, pageable)` and
      `findBookingsByItemIds(itemIds, pageable)`. ALL runs the paged query; every other
      strategy runs `findAll(spec)` and ignores the Pageable. */
  function Run(st: Strategy, store: seq<Booking>, subj: Subject, p: Pageable, now: int): (r: seq<Booking>)
    requires 0 <= p.page && 1 <= p.size
    ensures forall b :: b in r ==> b in store && InSubject(subj, b) && InCategory(st, b, now)
    ensures st == StateAll ==> |r| <= p.size
    ensures st == StateAll ==> |r| == PageLength(|Filter(store, SubjectSpec(subj), now)|, Offset(p), p.size)
    ensures st == StateAll ==> SortedBy(r, KeyOf(ListingOrder(p.idSort)))
    ensures st != StateAll ==>
      forall b :: b in r <==> b in store && InSubject(subj, b) && InCategory(st, b, now)
    ensures st != StateAll ==> SortedBy(r, KeyOf(StartDesc))
  {
    var spec := StrategySpec(st, subj);
    StrategyOrder(st, subj);
    assert PagedOrder(spec, p) == Some(ListingOrder(p.idSort)) by {
      if st == StateAll { StrategyOrder(StateAll, subj); }
    }
    assert forall b :: Holds(spec, b, now) <==> InSubject(subj, b) && InCategory(st, b, now) by {
      forall b ensures Holds(spec, b, now) <==> InSubject(subj, b) && InCategory(st, b, now) {
        StrategySpecMeaning(st, subj, b, now);
      }
    }
    if st == StateAll then FindAllPaged(store, spec, now, p)
    else FindAll(store, spec, now)
  }

  function FindBookings(st: Strategy, store: seq<Booking>, bookerId: int, p: Pageable, now: int): (r: seq<Booking>)
    requires 0 <= p.page && 1 <= p.size
    ensures forall b :: b in r ==> b in store && b.booker == bookerId && InCategory(st, b, now)
    ensures st == StateAll ==> |r| <= p.size
    ensures st == StateAll ==> |r| == PageLength(|Filter(store, ByBookerId(bookerId), now)|, Offset(p), p.size)
    ensures st == StateAll ==> SortedBy(r, KeyOf(ListingOrder(p.idSort)))
    ensures st != StateAll ==>
      forall b :: b in r <==> b in store && b.booker == bookerId && InCategory(st, b, now)
    ensures st != StateAll ==> SortedBy(r, KeyOf(StartDesc))
  {
    Run(st, store, Booker(bookerId), p, now)
  }

  function FindBookingsByItemIds(st: Strategy, store: seq<Booking>, itemIds: seq<int>, p: Pageable, now: int): (r: seq<Booking>)
    requires 0 <= p.page && 1 <= p.size
    ensures forall b :: b in r ==> b in store && b.item in itemIds && InCategory(st, b, now)
    ensures st == StateAll ==> |r| <= p.size
    ensures st == StateAll ==> |r| == PageLength(|Filter(store, ByItemIds(itemIds), now)|, Offset(p), p.size)
    ensures st == StateAll ==> SortedBy(r, KeyOf(ListingOrder(p.idSort)))
    ensures st != StateAll ==>
      forall b :: b in r <==> b in store && b.item in itemIds && InCategory(st, b, now)
    ensures st != StateAll ==> SortedBy(r, KeyOf(StartDesc))
  {
    Run(st, store, ItemSet(itemIds), p, now)
  }

  /** Paging the ALL strategy loses nothing: every booking of the subject is on some page. */
  lemma AllPagesCoverSubject(store: seq<Booking>, subj: Subject, size: int, idSort: Option<Direction>, b: Booking, now: int)
    requires 1 <= size && b in store && InSubject(subj, b)
    ensures exists k :: 0 <= k && b in Run(StateAll, store, subj, Pageable(k, size, idSort), now)
  {
    StrategySpecMeaning(StateAll, subj, b, now);
    EveryMatchIsPaged(store, SubjectSpec(subj), now, size, idSort, b);
    var k :| 0 <= k && b in FindAllPaged(store, SubjectSpec(subj), now, Pageable(k, size, idSort));
    assert Run(StateAll, store, subj, Pageable(k, size, idSort), now)
      == FindAllPaged(store, SubjectSpec(subj), now, Pageable(k, size, idSort));
  }

  /** A non-ALL strategy returns the same list whatever page is asked for. */
  lemma PageableIgnored(st: Strategy, store: seq<Booking>, subj: Subject, p: Pageable, q: Pageable, now: int)
    requires st != StateAll
    requires 0 <= p.page && 1 <= p.size && 0 <= q.page && 1 <= q.size
    ensures Run(st, store, subj, p, now) == Run(st, store, subj, q, now)
  {
  }

  /** Message of the StateException the earlier ALL strategy throws for a zero size. */
  const SizeZeroMessage: string := "размер не может быть 0"

  /** Earlier generation: `findBookings(bookerId, from, size)` and its item-set twin.
      ALL rejects a zero size, defaults a null `from` to 0 and a null `size` to
      Integer.MAX_VALUE, and asks for that OFFSET/LIMIT window of the subject's bookings
      (in store order: the native query has no ORDER BY). Every other strategy ignores
      `from` and `size` and lists its whole category by start descending. */
  function LegacyRun(st: Strategy, store: seq<Booking>, subj: Subject, from: Option<int>, size: Option<int>, now: int)
    : (r: Result<seq<Booking>, Error>)
    ensures st == StateAll && size == Some(0) ==> r == Failure(StateError(SizeZeroMessage))
    ensures st != StateAll ==>
      (r.Success? && forall b :: b in r.value <==> b in store && InSubject(subj, b) && InCategory(st, b, now))
    ensures st != StateAll ==> r.Success? && SortedBy(r.value, KeyOf(StartDesc))
    ensures st == StateAll && size != Some(0) && 0 <= from.GetOr(0) && 0 <= size.GetOr(IntMax) ==>
      (r.Success? && |r.value| <= size.GetOr(IntMax))
    ensures st == StateAll && size != Some(0) && (from.GetOr(0) < 0 || size.GetOr(IntMax) < 0) ==>
      r == Failure(QueryRejected)
    ensures st == StateAll && r.Success? ==>
      var matching := Filter(store, SubjectSpec(subj), now);
      && |r.value| == PageLength(|matching|, from.GetOr(0), size.GetOr(IntMax))
      && forall k :: 0 <= k < |r.value| ==> 0 <= from.GetOr(0) + k < |matching| && r.value[k] == matching[from.GetOr(0) + k]
    ensures r.Success? ==> forall b :: b in r.value ==> b in store && InSubject(subj, b) && InCategory(st, b, now)
  {
    var spec := StrategySpec(st, subj);
    StrategyOrder(st, subj);
    assert forall b :: Holds(spec, b, now) <==> InSubject(subj, b) && InCategory(st, b, now) by {
      forall b ensures Holds(spec, b, now) <==> InSubject(subj, b) && InCategory(st, b, now) {
        StrategySpecMeaning(st, subj, b, now);
      }
    }
    if st == StateAll then
      if size == Some(0) then Failure(StateError(SizeZeroMessage))
      else
        var matching := Filter(store, spec, now);
        var w := Window(matching, from.GetOr(0), size.GetOr(IntMax));
        assert w.Success? ==> forall b :: b in w.value ==> b in matching by {
          if w.Success? {
            forall b | b in w.value ensures b in matching {
              var k :| 0 <= k < |w.value| && w.value[k] == b;
            }
          }
        }
        w
    else Success(FindAll(store, spec, now))
  }

  /** A missing `from` acts as 0 and a missing `size` as Integer.MAX_VALUE. */
  lemma LegacyDefaults(store: seq<Booking>, subj: Subject, from: Option<int>, size: Option<int>, now: int)
    ensures LegacyRun(StateAll, store, subj, None, size, now) == LegacyRun(StateAll, store, subj, Some(0), size, now)
    ensures LegacyRun(StateAll, store, subj, from, None, now) == LegacyRun(StateAll, store, subj, from, Some(IntMax), now)
  {
  }

  /** With the default window (no `from`, no `size`) the earlier ALL strategy returns every
      booking of the subject. */
  lemma LegacyAllDefaultsReturnEverything(store: seq<Booking>, subj: Subject, now: int)
    requires |store| <= IntMax
    ensures var r := LegacyRun(StateAll, store, subj, None, None, now);
      r.Success? && forall b :: b in r.value <==> b in store && InSubject(subj, b)
  {
    var spec := StrategySpec(StateAll, subj);
    var matching := Filter(store, spec, now);
    var r := LegacyRun(StateAll, store, subj, None, None, now);
    assert r == Window(matching, 0, IntMax);
    assert r.value == matching;
  }
}

=== FILE: text.dfy ===
/** The text rules the item search depends on: `String.isBlank`, upper- and lower-casing of
    one character, and the two case-insensitive substring tests the backend uses — the JPA
    query's `lower(column) LIKE %text%` on an already lower-cased text, and Apache Commons'
    `StringUtils.containsIgnoreCase`. Case mapping covers the Latin and Cyrillic alphabets
    (the languages the application's data is written in). */
module Text {

  /** `Character.isWhitespace`: the ASCII controls TAB..CR and FS..US, and the Unicode space,
      line and paragraph separators other than the no-break spaces. */
  predicate IsWhitespace(c: char) {
    || ('\U{9}' <= c <= '\U{D}')
    || ('\U{1C}' <= c <= '\U{1F}')
    || c == ' '
    || c == '\U{1680}'
    || ('\U{2000}' <= c <= '\U{2006}')
    || ('\U{2008}' <= c <= '\U{200A}')
    || c == '\U{2028}' || c == '\U{2029}' || c == '\U{205F}' || c == '\U{3000}'
  }

  /** `String.isBlank`: empty or whitespace only. */
  predicate IsBlank(s: string) {
    forall i :: 0 <= i < |s| ==> IsWhitespace(s[i])
  }

  predicate IsUpper(c: char) {
    ('A' <= c <= 'Z') || ('\U{400}' <= c <= '\U{42F}')
  }

  predicate IsLower(c: char) {
    ('a' <= c <= 'z') || ('\U{430}' <= c <= '\U{45F}')
  }

  /** `Character.toLowerCase` on the Latin and Cyrillic capitals; other characters are kept. */
  function LowerChar(c: char): (r: char)
    ensures IsUpper(c) ==> IsLower(r)
    ensures !IsUpper(c) ==> r == c
  {
    if 'A' <= c <= 'Z' then (c as int + 32) as char
    else if '\U{410}' <= c <= '\U{42F}' then (c as int + 32) as char
    else if '\U{400}' <= c <= '\U{40F}' then (c as int + 80) as char
    else c
  }

  /** `Character.toUpperCase` on the Latin and Cyrillic small letters; other characters are kept. */
  function UpperChar(c: char): (r: char)
    ensures IsLower(c) ==> IsUpper(r)
    ensures !IsLower(c) ==> r == c
  {
    if 'a' <= c <= 'z' then (c as int - 32) as char
    else if '\U{430}' <= c <= '\U{44F}' then (c as int - 32) as char
    else if '\U{450}' <= c <= '\U{45F}' then (c as int - 80) as char
    else c
  }

  /** The two mappings are inverse on the letters they move. */
  lemma CaseRoundTrip(c: char)
    ensures IsUpper(c) ==> UpperChar(LowerChar(c)) == c
    ensures IsLower(c) ==> LowerChar(UpperChar(c)) == c
    ensures LowerChar(LowerChar(c)) == LowerChar(c)
    ensures LowerChar(UpperChar(c)) == LowerChar(c)
  {
  }

  /** `String.toLowerCase`, character by character. */
  function Lower(s: string): (r: string)
    ensures |r| == |s|
    ensures forall i :: 0 <= i < |s| ==> r[i] == LowerChar(s[i])
  {
    seq(|s|, i requires 0 <= i < |s| => LowerChar(s[i]))
  }

  /** Lower-casing twice is lower-casing once. */
  lemma LowerIdempotent(s: string)
    ensures Lower(Lower(s)) == Lower(s)
  {
    forall i | 0 <= i < |s| ensures Lower(Lower(s))[i] == Lower(s)[i] {
      CaseRoundTrip(s[i]);
    }
  }

  /** `needle` occurs in `hay` at offset `i`. */
  predicate OccursAt(hay: string, i: int, needle: string) {
    0 <= i && i + |needle| <= |hay| && hay[i..i + |needle|] == needle
  }

  /** `hay LIKE %needle%` with no wildcard inside `needle`: a plain substring test. */
  predicate Contains(hay: string, needle: string) {
    exists i :: 0 <= i <= |hay| - |needle| && OccursAt(hay, i, needle)
  }

  /** `regionMatches(ignoreCase = true)` compares two characters by both case mappings. */
  predicate SameIgnoringCase(a: char, b: char) {
    a == b || UpperChar(a) == UpperChar(b) || LowerChar(a) == LowerChar(b)
  }

  predicate RegionMatchesIgnoreCase(hay: string, i: int, needle: string) {
    && 0 <= i && i + |needle| <= |hay|
    && forall k :: 0 <= k < |needle| ==> SameIgnoringCase(hay[i + k], needle[k])
  }

  /** `StringUtils.containsIgnoreCase(hay, needle)`: some offset where the region matches. */
  predicate ContainsIgnoreCase(hay: string, needle: string) {
    exists i :: 0 <= i <= |hay| - |needle| && RegionMatchesIgnoreCase(hay, i, needle)
  }

  /** Comparing ignoring case is comparing the lower-cased characters. */
  lemma SameIgnoringCaseIsLowerEqual(a: char, b: char)
    ensures SameIgnoringCase(a, b) <==> LowerChar(a) == LowerChar(b)
  {
    CaseRoundTrip(a);
    CaseRoundTrip(b);
  }

  lemma RegionIsLoweredOccurrence(hay: string, i: int, needle: string)
    ensures RegionMatchesIgnoreCase(hay, i, needle) <==> OccursAt(Lower(hay), i, Lower(needle))
  {
    if 0 <= i && i + |needle| <= |hay| {
      var lh := Lower(hay)[i..i + |needle|];
      forall k | 0 <= k < |needle|
        ensures SameIgnoringCase(hay[i + k], needle[k]) <==> lh[k] == Lower(needle)[k]
      {
        SameIgnoringCaseIsLowerEqual(hay[i + k], needle[k]);
      }
      if RegionMatchesIgnoreCase(hay, i, needle) {
        assert lh == Lower(needle);
      }
      if OccursAt(Lower(hay), i, Lower(needle)) {
        forall k | 0 <= k < |needle| ensures SameIgnoringCase(hay[i + k], needle[k]) {
          assert lh[k] == Lower(needle)[k];
        }
      }
    }
  }

  /** The two searches agree: the in-memory repository's `containsIgnoreCase` and the JPA
      query's `LIKE` over lower-cased text select the same strings. */
  lemma {:induction false} SearchesAgree(hay: string, needle: string)
    ensures ContainsIgnoreCase(hay, needle) <==> Contains(Lower(hay), Lower(needle))
  {
    if ContainsIgnoreCase(hay, needle) {
      var i :| 0 <= i <= |hay| - |needle| && RegionMatchesIgnoreCase(hay, i, needle);
      RegionIsLoweredOccurrence(hay, i, needle);
    }
    if Contains(Lower(hay), Lower(needle)) {
      var i :| 0 <= i <= |hay| - |needle| && OccursAt(Lower(hay), i, Lower(needle));
      RegionIsLoweredOccurrence(hay, i, needle);
    }
  }

  /** Every string contains the empty text, so an unguarded empty search matches everything. */
  lemma EmptyNeedleMatches(hay: string)
    ensures ContainsIgnoreCase(hay, "")
    ensures Contains(hay, "")
  {
    assert RegionMatchesIgnoreCase(hay, 0, "");
    assert OccursAt(hay, 0, "");
  }
}

=== FILE: user_repository.dfy ===
/** The earlier generation's in-memory user store: a map from id to user, the list of
    e-mail addresses in use, and an id counter starting at 1. The list is what keeps
    addresses unique. */
module UserRepository {
  import opened Wrappers
  import opened Domain
  import opened Store

  datatype UserRepo = UserRepo(users: map<int, User>, emails: seq<string>, nextId: int)

  const Empty: UserRepo := UserRepo(map[], [], 1)

  /** The incoming fields of an update; None stands for a null field. */
  datatype UserPatch = UserPatch(name: Option<string>, email: Option<string>)

  predicate Distinct(s: seq<string>) {
    forall i, j :: 0 <= i < j < |s| ==> s[i] != s[j]
  }

  /** Some stored user has address `e`. */
  predicate InUse(users: map<int, User>, e: string) {
    exists id :: id in users && users[id].email == e
  }

  /** Each user is stored under its own id, below the counter; the address list holds each
      stored user's address exactly once and nothing else; no two users share an address. */
  ghost predicate Valid(repo: UserRepo) {
    && 1 <= repo.nextId
    && (forall id :: id in repo.users ==> repo.users[id].id == id && id < repo.nextId)
    && Distinct(repo.emails)
    && (forall e :: e in repo.emails <==> InUse(repo.users, e))
    && (forall a, b :: a in repo.users && b in repo.users && a != b ==> repo.users[a].email != repo.users[b].email)
  }

  lemma EmptyIsValid()
    ensures Valid(Empty)
  {
  }

  /** `List.remove(Object)`: drops the first occurrence, if any. */
  function RemoveFirst(s: seq<string>, x: string): (r: seq<string>)
    ensures x !in s ==> r == s
    ensures x in s ==> |r| == |s| - 1
  {
    if |s| == 0 then []
    else if s[0] == x then s[1..]
    else [s[0]] + RemoveFirst(s[1..], x)
  }

  /** On a list without repetitions, removing `x` leaves exactly the other addresses, still
      without repetitions. */
  lemma {:induction false} RemoveFirstDistinct(s: seq<string>, x: string)
    requires Distinct(s)
    ensures Distinct(RemoveFirst(s, x))
    ensures forall e :: e in RemoveFirst(s, x) <==> e in s && e != x
  {
    if |s| > 0 {
      var t := s[1..];
      assert Distinct(t) by {
        forall i, j | 0 <= i < j < |t| ensures t[i] != t[j] {
          assert t[i] == s[i + 1] && t[j] == s[j + 1];
        }
      }
      assert s[0] !in t by {
        assert forall k :: 0 <= k < |t| ==> t[k] == s[k + 1];
      }
      assert forall e :: e in s <==> e == s[0] || e in t;
      if s[0] != x {
        RemoveFirstDistinct(t, x);
        var rt := RemoveFirst(t, x);
        var r := [s[0]] + rt;
        assert forall e :: e in r <==> e == s[0] || e in rt;
        forall i, j | 0 <= i < j < |r| ensures r[i] != r[j] {
          if i == 0 {
            assert r[j] in rt;
          } else {
            assert r[i] == rt[i - 1] && r[j] == rt[j - 1];
          }
        }
      }
    }
  }

  lemma AppendDistinct(s: seq<string>, y: string)
    requires Distinct(s) && y !in s
    ensures Distinct(s + [y])
  {
    var r := s + [y];
    forall i, j | 0 <= i < j < |r| ensures r[i] != r[j] {
      if j == |s| {
        assert r[i] in s;
      } else {
        assert r[i] == s[i] && r[j] == s[j];
      }
    }
  }

  /** `createUser`: an address already in the list is an EmailException; otherwise the
      address is recorded and the user is stored under the counter, which advances. */
  function CreateUser(repo: UserRepo, user: User): (r: Step<UserRepo, User>)
    ensures user.email in repo.emails ==> r == Step(repo, Failure(EmailError(user.email)))
    ensures user.email !in repo.emails ==>
      && r.result == Success(user.(id := repo.nextId))
      && r.state == UserRepo(repo.users[repo.nextId := r.result.value], repo.emails + [user.email], repo.nextId + 1)
  {
    if user.email in repo.emails then Step(repo, Failure(EmailError(user.email)))
    else
      var stored := user.(id := repo.nextId);
      Step(UserRepo(repo.users[repo.nextId := stored], repo.emails + [user.email], repo.nextId + 1), Success(stored))
  }

  /** `finById`: present exactly when the id is stored. */
  function FindById(repo: UserRepo, userId: int): (r: Option<User>)
    ensures r.Some? <==> userId in repo.users
    ensures r.Some? ==> r.value == repo.users[userId]
  {
    if userId in repo.users then Some(repo.users[userId]) else None
  }

  /** The address may be taken by `userId`: it is the user's own or nobody's. */
  predicate MayTake(repo: UserRepo, userId: int, e: string)
    requires userId in repo.users
  {
    e == repo.users[userId].email || e !in repo.emails
  }

  /** Moves the user's address entry from the current address to `e`. */
  function SwapEmail(emails: seq<string>, old_: string, e: string): seq<string> {
    RemoveFirst(emails, old_) + [e]
  }

  /** `updateUser` as written, with its four branches:
      both fields given and the address free (or the user's own): both change;
      no address: the name is set — to null as well, when no name is given;
      only an address, free (or the user's own): the address changes;
      otherwise an EmailException. An unknown id is an UpdateException. */
  function UpdateUser(repo: UserRepo, userId: int, p: UserPatch): (r: Step<UserRepo, User>)
    ensures r.result.Failure? ==> r.state == repo
    ensures userId !in repo.users ==> r.result == Failure(UpdateError(userId))
    ensures userId in repo.users && p.email.None? ==>
      && r.result == Success(repo.users[userId].(name := p.name))
      && r.state == repo.(users := repo.users[userId := r.result.value])
    ensures userId in repo.users && p.email.Some? ==>
      (r.result.Success? <==> MayTake(repo, userId, p.email.value))
    ensures userId in repo.users && p.email.Some? && !MayTake(repo, userId, p.email.value) ==>
      r.result == Failure(EmailError(p.email.value))
    ensures userId in repo.users && p.email.Some? && MayTake(repo, userId, p.email.value) ==>
      var cur := repo.users[userId];
      && r.result == Success(cur.(name := if p.name.Some? then p.name else cur.name, email := p.email.value))
      && r.state == UserRepo(repo.users[userId := r.result.value],
                             SwapEmail(repo.emails, cur.email, p.email.value), repo.nextId)
  {
    if userId !in repo.users then Step(repo, Failure(UpdateError(userId)))
    else
      var cur := repo.users[userId];
      if p.email.Some? && p.name.Some? && MayTake(repo, userId, p.email.value) then
        var updated := cur.(name := p.name, email := p.email.value);
        Step(UserRepo(repo.users[userId := updated], SwapEmail(repo.emails, cur.email, p.email.value), repo.nextId),
             Success(updated))
      else if p.email.None? then
        var updated := cur.(name := p.name);
        Step(repo.(users := repo.users[userId := updated]), Success(updated))
      else if p.name.None? && MayTake(repo, userId, p.email.value) then
        var updated := cur.(email := p.email.value);
        Step(UserRepo(repo.users[userId := updated], SwapEmail(repo.emails, cur.email, p.email.value), repo.nextId),
             Success(updated))
      else Step(repo, Failure(EmailError(p.email.value)))
  }

  /** `updateUser` with the no-address branch keeping the stored name when no name is given. */
  function UpdateUserKeepingName(repo: UserRepo, userId: int, p: UserPatch): (r: Step<UserRepo, User>)
    ensures userId in repo.users && p.email.None? && p.name.None? ==>
      r == Step(repo, Success(repo.users[userId]))
    ensures p.email.Some? || p.name.Some? ==> r == UpdateUser(repo, userId, p)
    ensures userId !in repo.users ==> r == UpdateUser(repo, userId, p)
  {
    if userId in repo.users && p.email.None? && p.name.None? then
      assert repo.users[userId := repo.users[userId]] == repo.users;
      Step(repo, Success(repo.users[userId]))
    else UpdateUser(repo, userId, p)
  }

  /** As written, an update with neither field erases the user's name: user 1 named "Ann"
      comes back nameless. */
  lemma EmptyUpdateErasesName()
    ensures var repo := UserRepo(map[1 := User(1, Some("Ann"), "ann@mail.ru")], ["ann@mail.ru"], 2);
      && Valid(repo)
      && UpdateUser(repo, 1, UserPatch(None, None)).result == Success(User(1, None, "ann@mail.ru"))
      && UpdateUserKeepingName(repo, 1, UserPatch(None, None)).result == Success(User(1, Some("Ann"), "ann@mail.ru"))
  {
    var repo := UserRepo(map[1 := User(1, Some("Ann"), "ann@mail.ru")], ["ann@mail.ru"], 2);
    assert 1 in repo.users && repo.users[1].email == "ann@mail.ru";
  }

  /** With the correction every update leaves a stored name in place unless a new one is
      given. */
  lemma KeepingNamePreservesName(repo: UserRepo, userId: int, p: UserPatch)
    requires UpdateUserKeepingName(repo, userId, p).result.Success?
    ensures userId in repo.users
    ensures var u := UpdateUserKeepingName(repo, userId, p).result.value;
      u.name == if p.name.Some? then p.name else repo.users[userId].name
  {
  }

  /** `deleteUser`: true exactly when the id was stored; then the user is removed and the
      address freed. */
  function DeleteUser(repo: UserRepo, userId: int): (r: (UserRepo, bool))
    ensures r.1 <==> userId in repo.users
    ensures !r.1 ==> r.0 == repo
    ensures r.1 ==> r.0 == UserRepo(repo.users - {userId}, RemoveFirst(repo.emails, repo.users[userId].email), repo.nextId)
  {
    if userId in repo.users then
      (UserRepo(repo.users - {userId}, RemoveFirst(repo.emails, repo.users[userId].email), repo.nextId), true)
    else (repo, false)
  }

  /** `findAll`: every stored user, in iteration order, taken to be ascending id. */
  function FindAll(repo: UserRepo): (r: seq<User>)
    ensures forall u :: u in r <==> u in repo.users.Values
  {
    ValuesById(repo.users)
  }

  lemma CreatePreservesValid(repo: UserRepo, user: User)
    requires Valid(repo)
    ensures Valid(CreateUser(repo, user).state)
  {
    if user.email !in repo.emails {
      AppendDistinct(repo.emails, user.email);
      var after := CreateUser(repo, user).state;
      assert repo.nextId !in repo.users;
      forall e ensures e in after.emails <==> InUse(after.users, e) {
        if InUse(after.users, e) {
          var id :| id in after.users && after.users[id].email == e;
          if id != repo.nextId { assert InUse(repo.users, e); }
        }
        if e in repo.emails {
          var id :| id in repo.users && repo.users[id].email == e;
          assert after.users[id].email == e;
        }
        if e == user.email { assert after.users[repo.nextId].email == e; }
      }
    }
  }

  lemma UpdatePreservesValid(repo: UserRepo, userId: int, p: UserPatch)
    requires Valid(repo)
    ensures Valid(UpdateUser(repo, userId, p).state)
  {
    var step := UpdateUser(repo, userId, p);
    if userId in repo.users && p.email.Some? && MayTake(repo, userId, p.email.value) {
      var cur := repo.users[userId];
      var e := p.email.value;
      var after := step.state;
      RemoveFirstDistinct(repo.emails, cur.email);
      var removed := RemoveFirst(repo.emails, cur.email);
      assert e !in removed;
      AppendDistinct(removed, e);
      forall a, b | a in after.users && b in after.users && a != b
        ensures after.users[a].email != after.users[b].email
      {
        if a == userId {
          assert InUse(repo.users, after.users[b].email);
        } else if b == userId {
          assert InUse(repo.users, after.users[a].email);
        }
      }
      forall x ensures x in after.emails <==> InUse(after.users, x) {
        if InUse(after.users, x) {
          var id :| id in after.users && after.users[id].email == x;
          if id != userId { assert InUse(repo.users, x); }
        }
        if x in after.emails && x != e {
          assert x in removed;
          var id :| id in repo.users && repo.users[id].email == x;
          assert id != userId;
          assert after.users[id].email == x;
        }
        if x == e { assert after.users[userId].email == x; }
      }
    } else if userId in repo.users && p.email.None? {
      var after := step.state;
      forall x ensures x in after.emails <==> InUse(after.users, x) {
        if InUse(repo.users, x) {
          var id :| id in repo.users && repo.users[id].email == x;
          assert after.users[id].email == x;
        }
        if InUse(after.users, x) {
          var id :| id in after.users && after.users[id].email == x;
          assert repo.users[id].email == x;
        }
      }
    }
  }

  lemma DeletePreservesValid(repo: UserRepo, userId: int)
    requires Valid(repo)
    ensures Valid(DeleteUser(repo, userId).0)
  {
    if userId in repo.users {
      var cur := repo.users[userId];
      var after := DeleteUser(repo, userId).0;
      RemoveFirstDistinct(repo.emails, cur.email);
      forall x ensures x in after.emails <==> InUse(after.users, x) {
        if InUse(after.users, x) {
          var id :| id in after.users && after.users[id].email == x;
          assert InUse(repo.users, x);
        }
        if x in after.emails {
          var id :| id in repo.users && repo.users[id].email == x;
          assert id != userId;
          assert after.users[id].email == x;
        }
      }
    }
  }

  /** In a valid store, taking another user's address is refused and changes nothing. */
  lemma TakenEmailIsRefused(repo: UserRepo, userId: int, other: int, p: UserPatch)
    requires Valid(repo)
    requires userId in repo.users && other in repo.users && userId != other
    requires p.email == Some(repo.users[other].email)
    ensures UpdateUser(repo, userId, p) == Step(repo, Failure(EmailError(repo.users[other].email)))
  {
    assert InUse(repo.users, repo.users[other].email);
  }

  /** Deleting a user frees the address for a new user. */
  lemma DeleteFreesEmail(repo: UserRepo, userId: int, newcomer: User)
    requires Valid(repo) && userId in repo.users
    requires newcomer.email == repo.users[userId].email
    ensures CreateUser(DeleteUser(repo, userId).0, newcomer).result.Success?
  {
    RemoveFirstDistinct(repo.emails, repo.users[userId].email);
  }

  /** A created user can be found under the id it was given. */
  lemma CreatedUserIsFound(repo: UserRepo, user: User)
    requires CreateUser(repo, user).result.Success?
    ensures var step := CreateUser(repo, user);
      FindById(step.state, step.result.value.id) == Some(step.result.value)
  {
  }
}

=== FILE: user_service.dfy ===
/** The user use cases over the relational store: read, partial update, delete, and the
    paged list of all users. */
module UserService {
  import opened Wrappers
  import opened Domain
  import opened Paging
  import opened Store
  import opened UserRepository

  /** `getUser`: an unknown id is a NotFoundException. */
  function GetUser(db: Db, userId: int): (r: Result<User, Error>)
    ensures r.Success? <==> userId in db.users
    ensures r.Success? ==> r.value == db.users[userId]
    ensures r.Failure? ==> r.error == NotFound(UserMissing(userId))
  {
    if userId in db.users then Success(db.users[userId]) else Failure(NotFound(UserMissing(userId)))
  }

  /** The non-null fields of the request overwrite the stored ones. */
  function PatchUser(u: User, p: UserPatch): (r: User)
    ensures r.id == u.id
    ensures r.email == if p.email.Some? then p.email.value else u.email
    ensures r.name == if p.name.Some? then p.name else u.name
  {
    u.(email := p.email.GetOr(u.email), name := if p.name.Some? then p.name else u.name)
  }

  /** `updateUser`: an unknown id is a NotFoundException; otherwise the patched user is saved. */
  function UpdateUser(db: Db, userId: int, p: UserPatch): (r: Step<Db, User>)
    ensures r.result.Failure? ==> r.state == db
    ensures userId !in db.users ==> r.result == Failure(NotFound(UserMissing(userId)))
    ensures r.result.Success? <==> userId in db.users
    ensures r.result.Success? ==>
      && r.result.value == PatchUser(db.users[userId], p)
      && r.state == db.(users := db.users[userId := r.result.value])
  {
    match GetUser(db, userId)
    case Failure(e) => Step(db, Failure(e))
    case Success(u) =>
      var updated := PatchUser(u, p);
      Step(db.(users := db.users[userId := updated]), Success(updated))
  }

  /** `deleteUserById` reports how many rows it removed: one for a stored id, none otherwise. */
  function DeleteUserById(db: Db, userId: int): (r: (Db, int))
    ensures r.1 == (if userId in db.users then 1 else 0)
    ensures r.0 == db.(users := db.users - {userId})
  {
    (db.(users := db.users - {userId}), if userId in db.users then 1 else 0)
  }

  /** `deleteUser`: true exactly when more than zero rows were deleted. */
  function DeleteUser(db: Db, userId: int): (r: (Db, bool))
    ensures r.1 <==> userId in db.users
    ensures userId !in r.0.users
    ensures forall id :: id in db.users && id != userId ==> id in r.0.users && r.0.users[id] == db.users[id]
  {
    var (after, rows) := DeleteUserById(db, userId);
    (after, rows > 0)
  }

  /** `findAll`: a negative `from` fails before any query; then page `from / size` of the
      users (no sort requested: store order). */
  function FindAll(db: Db, from: int, size: int): (r: Result<seq<User>, Error>)
    ensures from < 0 ==> r == Failure(NegativeFrom)
    ensures 0 <= from && size == 0 ==> r == Failure(DivisionByZero)
    ensures 0 <= from && size < 0 ==> r == Failure(IllegalPageRequest)
    ensures r.Success? <==> 0 <= from && 0 < size
    ensures r.Success? ==> |r.value| <= size && forall u :: u in r.value ==> u in db.users.Values
    ensures r.Success? ==> r.value == Page(ValuesById(db.users), ToPageable(from, size, None).value)
  {
    if from < 0 then Failure(NegativeFrom)
    else
      var p :- ToPageable(from, size, None);
      Success(Page(ValuesById(db.users), p))
  }

  /** Paging skips no user: every stored user is on the page that some offset selects. */
  lemma EveryUserIsListed(db: Db, userId: int, size: int)
    requires userId in db.users && 0 < size
    ensures exists from ::
      0 <= from && FindAll(db, from, size).Success? && db.users[userId] in FindAll(db, from, size).value
  {
    var ids := SortedIds(db.users.Keys);
    var i :| 0 <= i < |ids| && ids[i] == userId;
    ElementIsOnItsPage(ValuesById(db.users), i, size, None);
    assert db.users[userId] in FindAll(db, i, size).value;
  }

  /** An update is visible to the next read. */
  lemma UpdateThenGet(db: Db, userId: int, p: UserPatch)
    requires userId in db.users
    ensures var step := UpdateUser(db, userId, p);
      GetUser(step.state, userId) == Success(PatchUser(db.users[userId], p))
  {
  }

  /** Unlike the in-memory store, an update with neither field changes nothing. */
  lemma EmptyUpdateChangesNothing(db: Db, userId: int)
    requires userId in db.users
    ensures UpdateUser(db, userId, UserPatch(None, None)) == Step(db, Success(db.users[userId]))
  {
    assert db.users[userId := db.users[userId]] == db.users;
  }

  /** After a delete the user is gone, and a second delete reports false. */
  lemma DeleteIsFinal(db: Db, userId: int)
    ensures var after := DeleteUser(db, userId).0;
      && GetUser(after, userId) == Failure(NotFound(UserMissing(userId)))
      && DeleteUser(after, userId).1 == false
  {
  }

  /** The first page of size n, with at least n users, is full. */
  lemma FirstPageIsFull(db: Db, size: int)
    requires 0 < size <= |db.users|
    ensures FindAll(db, 0, size).Success? && |FindAll(db, 0, size).value| == size
  {
    var p := ToPageable(0, size, None).value;
    assert p.page == 0;
  }
}

=== FILE: wrappers.dfy ===
/** Failure-compatible wrappers: Java's nullable references and Optional become Option,
    and a thrown exception becomes the Failure arm of a Result. */
module Wrappers {

  datatype Option<+T> = None | Some(value: T) {

    predicate IsFailure() {
      None?
    }

    function PropagateFailure<U>(): Option<U>
      requires None?
    {
      None
    }

    function Extract(): T
      requires Some?
    {
      value
    }

    /** Java's `x == null ? default : x` */
    function GetOr(default: T): T {
      match this
      case Some(v) => v
      case None => default
    }
  }

  datatype Result<+R, +E> = Success(value: R) | Failure(error: E) {

    predicate IsFailure() {
      Failure?
    }

    function PropagateFailure<U>(): Result<U, E>
      requires Failure?
    {
      Failure(error)
    }

    function Extract(): R
      requires Success?
    {
      value
    }
  }
}
